=== FILE: README.md ===
# licenta-peripheral in Dafny

A model of the MicroPython firmware of a peripheral board: a Raspberry Pi Pico W that finds
the hardware modules attached to its I2C bus, serves their state over a small HTTP API and
reports its inventory to a central server. The heart of the firmware is the module lifecycle
manager (`module/module_manager.py`):

- a live table from identity to driver, in insertion order;
- a persisted registry that maps each `"{kind}_{address}"` pair to a stable identity;
- the set of addresses the last bus scan saw, diffed against every new scan;
- an address-to-kind mapping;
- a report to the central server, retried a bounded number of times, whose last failure
  deletes the WiFi credentials and resets the board.

Each manager operation is a pure transition from one state to the next. The effects become
inputs and outputs:

- the registry file is a `Disk` value;
- the random bytes of a new identity are a parameter;
- the factory that builds drivers is a parameter, and `Devices.CreateModule` is the factory
  as written;
- the report is a value in the step's result;
- the outcome of each network attempt is a function from attempt number to success.

Around the manager the model covers:

- the driver role model and the drivers: LED, relay, MQ-5 gas sensor and LM75B temperature
  sensor (temperature register layout as the NXP LM75B datasheet gives it);
- the battery gauge;
- the HTTP request handler (request line as in section 3 of RFC 9112);
- the two BLE credential receivers, with the advertising payload of `bluetoothHandler.py`
  (AD structures as in the Bluetooth Core Specification, Vol 3, Part C, section 11);
- the WiFi connection schedule;
- the older port-based firmware: ports, LED, module table and resistor classifier;
- the two sawtooth generators.

One Dafny module models each source file. Shared helpers are kept apart:

- `Wrappers`: `Option` and `Result`;
- `Text`: Python's string operations (`split`, `strip`, `lower`, `str(n)`, hex formatting);
- `Values`: JSON values, Python truthiness, `float()`, `int()`, I2C transfers and exceptions;
- `OrderedDict`: Python's insertion-ordered `dict` as a sequence of pairs.

Exceptions are `Failure` values, or an `Option<Fault>` beside the state when the source
raises after part of its work is done. A `try`/`except` in the source becomes a match on
that value. Floating-point values are exact reals, and `int()` truncates toward zero.

## Behaviour as written

The model follows the code as written; in particular:

- `path.split("?")[1]` is the text between the first and the second '?', not everything
  after the first '?'.
- `_decode_status` has no entry for status 2, which reads as "Unknown (2)".
- Manual `create_module` with an explicit address does not check whether a live module
  already has that address (`Manager.CreateExplicitAddressCanDuplicate`).
- `save_modules` formats each address with `:02x`, so a module without an address raises
  before anything is written, and nothing is reported.
- The factory is called with three arguments in `create_module_by_i2c_address`, and
  `Led()` takes none. As written, no creation path ever adds a module
  (`Manager.CreateByAddressAsWritten`, `Manager.CreateAsWritten`,
  `Manager.LoadAsWrittenRestoresNothing`). The creation and detection lemmas are also
  stated for any factory that builds its module at the requested address
  (`Manager.CreateByAddressKeepsInvariants`, `Manager.CreateKeepsInvariants`,
  `Scanner.HandleAddedKeepsInvariants`, `Scanner.CycleGeneral`), and the load lemmas for
  any factory, so the logic of the manager itself is covered.
- MicroPython's `json` module has no `JSONDecodeError`. A malformed POST body raises
  `ValueError`, and evaluating the `except json.JSONDecodeError` clause then raises
  `AttributeError`, which the outer handler catches. The connection closes without a
  response, so the 400 "Invalid JSON" answer is never sent.
- A POST body that decodes to a number, boolean or null makes `"state" in data` raise
  `TypeError`; an array or string holding "state" makes `data["state"]` raise. Both close
  the connection without a response.
- `bt_callback` checks the fields before stripping them, so fields of blanks are accepted
  and stored empty (`BluetoothHandler.BlankFieldsStoredEmpty`).
- The root `led.py` does not clamp the requested state (`PortLed.SetStateDoesNotClamp`).
- The root `remove_module` pops the module and then raises `NameError`, so its port stays
  bound (`PortManager.RemoveModuleBlocksPort`).
- `single_cycle` never sets `running`, so the `stop()` it calls at the end does nothing and
  the timer stays armed (`Sawtooth.SingleCycleEnds`).

## Model

| member | source | states |
|---|---|---|
| Battery.Percentage | utils/battery.py:3-27 | the charge estimate is always a whole percentage between 0 and 100 |
| Battery.PercentageIsIntegerFormula | utils/battery.py:11-27 | for every reading the estimate equals the integer formula floor(400·raw/65535) − 250, clamped to [0, 100] |
| Battery.PercentageMonotone | utils/battery.py:11-27 | a higher ADC reading never gives a lower percentage |
| Battery.PercentageEndPoints | utils/battery.py:15-25 | full scale is 4.8 V at the battery; 0 reads 0 %, full scale 100 %; 57344 is the first reading at 100 % and 41124 the first above 0 % |
| Ports.NewPort | ports.py:2-5 | a new port keeps its pins and holds no module |
| Ports.SetModule | ports.py:7-8 | afterwards `get_module` returns the module and the pins are unchanged |
| Ports.RemoveModule | ports.py:13-14 | afterwards the port holds nothing and the pins are unchanged |
| Ports.SetRemove | ports.py:7-14 | setting then removing a module gives back the empty port |
| Ports.AvailablePorts | ports.py:26-30 | exactly ports 28, 27 and 26, each keyed by its own identification pin, empty, with three working pins |
| Ports.AvailablePortsDisjoint | ports.py:26-30 | no working pin is shared by two ports and none is an identification pin |
| PortLed.Duty | led.py:22-24 | the duty is the truncation of state/100·65535, and lies in the 16-bit range for states 0 to 100 |
| PortLed.DutyMonotone | led.py:22-24 | a larger state never gives a smaller duty; 0 is off and 100 is 65535 |
| PortLed.SetState | led.py:17-24 | succeeds exactly when `float()` accepts the request; then the state is that float, unclamped, and the duty follows it |
| PortLed.SetStateDoesNotClamp | led.py:17-24 | a request of 200 is stored as 200 and drives a duty of 131070, outside the 16-bit range |
| PortLed.Construct | led.py:8-15 | builds a LED at state 0 and duty 0 on the port's first working pin exactly when the port has working pins |
| PortLed.GetState | led.py:27-31 | reports the stored brightness and a battery level between 0 and 100 |
| PortLed.Shutdown | led.py:33-34 | `__del__` leaves the LED at state 0 and duty 0 on the same pins |
| PortManager.CreateModule | module_manager.py:16-26 | an unknown port raises `AttributeError`; an occupied port changes nothing; a type other than 'led' raises `ValueError` before any change |
| PortManager.CreateModuleAdds | module_manager.py:16-26 | on a free port a LED at state 0 is stored under the new identity, the port is bound to it, exactly one entry is appended when the identity is new, and no other entry or port changes |
| PortManager.RemoveModule | module_manager.py:29-33 | an unknown identity changes nothing; a known one is popped and the call then raises `NameError` with the port left bound |
| PortManager.RemoveModuleBlocksPort | module_manager.py:16-33 | after `remove_module` the port still holds the removed identity, so a later `create_module` on it does nothing |
| PortManager.FirstOnPort | module_manager.py:38-39 | the first module in table order on the given port, with none before it; none when no module is on the port |
| PortManager.RemoveModuleByPort | module_manager.py:36-43 | no module on the port changes nothing; otherwise the first one is switched off and popped, and then its port is freed, or, when its port is not in the table, `KeyError` is raised with the pop already done |
| PortManager.RemoveModuleByPortRemovesOne | module_manager.py:36-43 | with unique identities exactly one entry goes, even when the unbinding raises; every other identity keeps its module, and a known port is free |
| PortManager.GetModule | module_manager.py:46-48 | finds a module exactly when the identity is in the table, and then it is that identity's entry |
| ResistanceDetector.Voltage | rezistance_detector.py:32 | a 16-bit reading gives a voltage between 0 and 3.3 V |
| ResistanceDetector.ResistanceOfReading | rezistance_detector.py:32-36 | the resistance of a reading satisfies R·raw = 10000·(65535 − raw) |
| ResistanceDetector.FirstMatch | rezistance_detector.py:37-40 | the first module type whose tolerance band holds the resistance, no earlier type matching; none exactly when no band holds it |
| ResistanceDetector.Classify | rezistance_detector.py:33-40 | a reading asks for removal exactly when its voltage is under 0.1 V, and any creation is of an 'led' |
| ResistanceDetector.ClassifyThresholds | rezistance_detector.py:13-40 | in ADC counts: at most 1985 removes, 4682 to 8191 creates an LED, every other reading does nothing |
| ResistanceDetector.Sweep | rezistance_detector.py:29-40 | one pass visits pins 28, 27, 26 in that order and classifies each pin's reading |
| ResistanceDetector.Apply | rezistance_detector.py:33-39 | a removal goes to `remove_module_by_port` and keeps its state and exception; a creation goes to `create_module` on the pin, a raised exception leaving the state as it was; no match changes nothing |
| ResistanceDetector.PlugUnplug | rezistance_detector.py:29-40 | a reading in the LED band on a free port creates one bound module, and a reading of an empty port then gives back the state from before |
| Devices.TypeNameInjective | module/module.py:1-24 | the class names the manager records tell the classes apart |
| Devices.NewModule | module/module.py:2-5 | a new module has no state, the given address and no bus |
| Devices.SetI2c | module/module.py:10-12 | only the bus handle changes |
| Devices.Construct | module/module.py:1-21 | a constructor that succeeds builds a module of that class, without bus or state, from exactly one address argument |
| Devices.ConstructOutcomes | module/controls/led.py:6-8 | construction succeeds exactly for the base classes and `GasSensor` with one argument; `Led`, `Relay` and `TemperatureSensor` always raise `TypeError` |
| Devices.CreateModule | module/module.py:28-33 | "led" in any ASCII case calls `Led(i2c_address)`; every other kind raises `ValueError` |
| Devices.CreateModuleAlwaysFails | module/module.py:28-33 | the factory never returns a module: `TypeError` exactly for "led" in some case, `ValueError` otherwise |
| Devices.LedSpellings | module/module.py:31 | the kinds accepted as "led" are exactly the eight three-letter case variants |
| Devices.SetState | module/module.py:19-24 | a sensor raises `AttributeError`; the LED stores the clamped float, the relay 1 or 0 by truthiness, and plain `Control` does nothing; class, address and bus never change |
| Devices.GetState | module/module.py:7-8 | the base classes report nothing; the LED reports its brightness and the relay whether its state is truthy |
| Devices.Shutdown | module/controls/led.py:42-43 | the LED ends at 0.0 and the relay at 0, each with one bus write when wired; other classes are left as they are |
| LedControl.ClampPercent | module/controls/led.py:19 | the result lies in [0, 100], equals the input inside that range, and is the nearer bound outside it |
| LedControl.Pwm | module/controls/led.py:23 | the duty is the truncation of state·2.55 and lies in 0 to 255 |
| LedControl.PwmMonotone | module/controls/led.py:23 | a brighter setting never gives a smaller duty; 0 % is 0 and 100 % is 255 |
| LedControl.SetState | module/controls/led.py:15-34 | a request `float()` rejects changes nothing and sends nothing; otherwise the clamped value is stored, and with bus and address the write is [0x01, duty] |
| LedControl.SetStateIdempotent | module/controls/led.py:15-34 | repeating a request changes nothing further, and a percentage already in range is stored as given |
| LedControl.GetState | module/controls/led.py:36-40 | reports the stored brightness and a battery level between 0 and 100 |
| LedControl.Shutdown | module/controls/led.py:42-43 | drives the brightness to 0, writing [0x01, 0] when wired and nothing otherwise |
| RelayControl.SetState | module/controls/relay.py:12-29 | the stored level is 1 exactly for a truthy request and 0 otherwise; when wired the write is [0x50, 255] or [0x50, 0] |
| RelayControl.SetStateDependsOnlyOnTruthiness | module/controls/relay.py:15-20 | two requests with the same truthiness leave the same outcome |
| RelayControl.GetState | module/controls/relay.py:35-39 | `isOn` holds exactly when the stored level is non-zero; the battery level is between 0 and 100 |
| RelayControl.DriveOff | module/controls/relay.py:41-42 | the level becomes 0 and, when wired, the write is [0x50, 0] |
| GasSensor.ReadTransfers | module/sensors/gas.py:30-34 | a read writes the control byte 0x40, then issues two one-byte reads |
| GasSensor.Voltage | module/sensors/gas.py:35 | the converter byte maps into [0, 3.3] V, with 0 at 0 V and 255 at 3.3 V |
| GasSensor.VoltageMonotone | module/sensors/gas.py:35 | a larger byte never gives a lower voltage |
| GasSensor.ReadMq5 | module/sensors/gas.py:30-36 | the value reported is the second byte read, with its voltage |
| GasSensor.StaleByteIgnored | module/sensors/gas.py:33-34 | the first byte read never changes the result |
| GasSensor.GetState | module/sensors/gas.py:11-28 | without bus or address the gas value is 0; a failed transfer reports its error; otherwise the latest byte is reported, with a battery level between 0 and 100 |
| TemperatureSensor.ReadTransfers | module/sensors/temperature.py:38-41 | a read sets the pointer register to 0x00 and reads two bytes |
| TemperatureSensor.Field | module/sensors/temperature.py:46-49 | the 16-bit word shifted right by 5 is an 11-bit field |
| TemperatureSensor.Eighths | module/sensors/temperature.py:49-53 | the sign-extended field lies in [-1024, 1023] |
| TemperatureSensor.Celsius | module/sensors/temperature.py:46-56 | the reading is a multiple of 0.125 °C in [-128, 127.875] |
| TemperatureSensor.LowBitsIgnored | module/sensors/temperature.py:46-49 | the five low bits of the second byte never change the reading |
| TemperatureSensor.DecodeEncode | module/sensors/temperature.py:46-56 | decoding the register layout of any 11-bit two's-complement value gives that value back |
| TemperatureSensor.EncodeDecode | module/sensors/temperature.py:46-56 | re-encoding a decoded reading gives the two bytes back with the unused bits cleared |
| TemperatureSensor.GetState | module/sensors/temperature.py:11-30 | without bus or address the reading is 0 °C; a failed transfer reports its error; otherwise the decoded temperature, within the sensor's range |
| Sawtooth.New | utils/sawtooth.py:4-21 | a new generator counts up from 0, is not running, has its timer idle and its seven pins low |
| Sawtooth.Binary | utils/sawtooth.py:31-38 | pin i is set to bit i of the value, (v >> i) & 1, for the seven pins |
| Sawtooth.CounterShownExactly | utils/sawtooth.py:31-38 | every counter value from 0 to 100 is shown exactly on the seven pins |
| Sawtooth.BinaryShowsValue | utils/sawtooth.py:31-38 | the pins show the value modulo 128 |
| Sawtooth.Step | utils/sawtooth.py:47-59 | counting up at 100 turns to 99 counting down, counting down at 0 turns to 1 counting up, otherwise one step in the current direction; values stay in [0, 100] |
| Sawtooth.Tick | utils/sawtooth.py:40-59 | the callback shows the value before stepping it, keeps it within [0, 100] and leaves the timer and running flag alone |
| Sawtooth.TicksFollowWave | utils/sawtooth.py:40-59 | from 0 counting up the counter follows the triangle wave: 100 after 100 periods, 0 after 200 |
| Sawtooth.TicksRepeat | utils/sawtooth.py:40-59 | after the first period the counter repeats every 200 periods and never comes back to 0 counting up |
| Sawtooth.PeriodMs | utils/sawtooth.py:67 | the period is int(1000 / frequency); a frequency of 0 raises `ZeroDivisionError` |
| Sawtooth.Start | utils/sawtooth.py:61-81 | a running counter is left alone; otherwise the timer is armed with the continuous callback at the period, and value, direction and pins carry over |
| Sawtooth.Stop | utils/sawtooth.py:83-97 | a stopped counter is left alone, even with a timer armed; otherwise the timer is released and the pins go low; value, direction and frequency are kept |
| Sawtooth.StartStop | utils/sawtooth.py:61-97 | starting a stopped counter and stopping it again only releases the timer and lowers the pins |
| Sawtooth.Reset | utils/sawtooth.py:99-106 | back to 0 counting up; a stopped counter also shows 0, a running one keeps its pins |
| Sawtooth.SetFrequency | utils/sawtooth.py:23-29 | a stopped counter only takes the new frequency; a running one is restarted at the new period, or stopped with the error when the new frequency is 0 |
| Sawtooth.GetStatus | utils/sawtooth.py:108-119 | direction "UP" exactly when counting up, status "RUNNING" exactly when running, with the value and frequency |
| Sawtooth.StartSingleCycle | utils/sawtooth.py:121-162 | refused while running; otherwise the counter is reset and the timer armed with the single-cycle callback, without setting `running` |
| Sawtooth.CycleTick | utils/sawtooth.py:132-152 | shows the value; at 0 counting down it stays there and calls `stop()`; values stay within [0, 100] |
| Sawtooth.SingleCycleEnds | utils/sawtooth.py:121-162 | a single cycle climbs to 100 and falls back to 0 within 200 periods and stays at 0, with the timer still armed because `running` was never set |
| SimpleSawtooth.New | utils/simple_sawtooth.py:9-25 | a new generator spans 0 V to vref and codes 0 to 1023, with step 32, stopped at code 0, remembering 1000 Hz |
| SimpleSawtooth.ClampVolts | utils/simple_sawtooth.py:30 | the clamped voltage lies in [0, vref] and equals the input inside that range |
| SimpleSawtooth.VoltsToDac | utils/simple_sawtooth.py:27-31 | raises `ZeroDivisionError` exactly when vref is 0; with a positive vref the code lies in 0 to 1023; a negative vref gives code 0 |
| SimpleSawtooth.VoltsToDacMonotone | utils/simple_sawtooth.py:27-31 | a higher voltage never gives a lower code |
| SimpleSawtooth.DacRoundTrip | utils/simple_sawtooth.py:27-35 | a code turned into a voltage lies in [0, vref] and converts back to the same code |
| SimpleSawtooth.ClampCode | utils/simple_sawtooth.py:40 | the clamped code lies in 0 to 1023 and equals the input inside that range |
| SimpleSawtooth.WriteR2R | utils/simple_sawtooth.py:37-44 | writes the ladder mask to GPIO_OUT_CLR, then the clamped code shifted by 6 to GPIO_OUT_SET; the ladder then shows the clamped code and every other output bit is unchanged |
| SimpleSawtooth.LadderBits | utils/simple_sawtooth.py:42-44 | clearing bits 6 to 15 and setting a 10-bit code there leaves the code in those bits and the rest as they were |
| SimpleSawtooth.TimerCallback | utils/simple_sawtooth.py:46-51 | shows the clamped current code, advances by the step and wraps to the lowest code once past the highest; a code in range stays in range; nothing else changes |
| SimpleSawtooth.CallbacksKeep | utils/simple_sawtooth.py:46-51 | any number of callbacks change only the current code and the output register |
| SimpleSawtooth.RampClimbs | utils/simple_sawtooth.py:46-51 | from the lowest code the ramp climbs one step per period while it stays in range |
| SimpleSawtooth.RampWraps | utils/simple_sawtooth.py:46-51 | after (max − min) / step + 1 periods the ramp is back at the lowest code |
| SimpleSawtooth.Start | utils/simple_sawtooth.py:79-101 | the frequency is recorded, the step is 1 for a code range under 64 and otherwise the whole number k with 32·k ≤ range < 32·(k+1), the ramp restarts at the lowest code, and the generator runs exactly when the timer accepts; range and voltages are kept |
| SimpleSawtooth.Stop | utils/simple_sawtooth.py:103-109 | a stopped generator is left alone; a running one outputs the lowest code, restarts its ramp there and stops; nothing else changes |
| SimpleSawtooth.OrderRange | utils/simple_sawtooth.py:53-67 | the stored voltages are ordered and within [0, vref] when vref is at least 10 mV, and an ordered in-range pair is kept as given |
| SimpleSawtooth.SetVoltageRange | utils/simple_sawtooth.py:53-77 | raises exactly when vref is 0; otherwise the codes are the conversions of the stored voltages, ordered within 0 to 1023, and a running generator is restarted |
| SimpleSawtooth.CurrentVoltage | utils/simple_sawtooth.py:115-117 | the voltage of an in-range code lies in [0, vref] and converts back to that code |
| SimpleSawtooth.SetReferenceVoltage | utils/simple_sawtooth.py:119-124 | the codes are kept and the new voltages convert back to them under the new reference |
| BlePeripheral.SplitLabel | ble/ble_simple_peripheral.py:99 | the message splits exactly when it holds a ':'; the label is the text before the first ':' and the content everything after it |
| BlePeripheral.OnRx | ble/ble_simple_peripheral.py:93-117 | an undecodable message or one without ':' changes nothing; `stop` is set once all three values are non-empty, and never cleared |
| BlePeripheral.OnRxStoresLabel | ble/ble_simple_peripheral.py:105-110 | a message with label SSID, PASSWORD or IP sets exactly that value to the stripped content |
| BlePeripheral.SplitLabelOf | ble/ble_simple_peripheral.py:99 | `label:content` with no ':' in the label splits back into the label and the content |
| BlePeripheral.OnRxIgnoresOtherLabels | ble/ble_simple_peripheral.py:104-110 | any other label leaves the three values as they were |
| BlePeripheral.OnRxOverwrites | ble/ble_simple_peripheral.py:105-106 | a later SSID message overwrites the earlier value |
| BlePeripheral.ThreeMessagesStop | ble/ble_simple_peripheral.py:93-117 | receiving the three labelled, non-empty values sets `stop` and stores each of them |
| BlePeripheral.Irq | ble/ble_simple_peripheral.py:52-67 | a connect adds the handle; a disconnect removes it, or raises `KeyError` for an unknown handle; the write callback receives the value exactly for a write to the RX handle with a callback registered |
| BlePeripheral.ConnectDisconnect | ble/ble_simple_peripheral.py:52-74 | after a connect the peripheral is connected, and disconnecting the same fresh handle restores the earlier state |
| BlePeripheral.Send | ble/ble_simple_peripheral.py:69-71 | one notification on the TX handle with the data for each open connection, and no connection notified twice |
| BlePeripheral.EnumeratesSize | ble/ble_simple_peripheral.py:70 | an iteration over a set visits as many handles as the set holds |
| BluetoothHandler.Save | bluetoothHandler.py:48-53 | a record is written exactly when both credentials are non-empty, and it holds exactly those two credentials |
| BluetoothHandler.Load | bluetoothHandler.py:55-65 | a missing or unparsable file changes nothing; a JSON value that is not an object raises `AttributeError`; an object replaces both credentials only when both are non-empty |
| BluetoothHandler.SaveLoadRoundTrip | bluetoothHandler.py:48-65 | loading a saved file into any handler restores the saved credentials |
| BluetoothHandler.BtCallback | bluetoothHandler.py:67-95 | an empty write or one that does not split into exactly three '\|'-fields is ignored; two non-empty first fields are stored stripped, saved, signalled and joined; the join's address is written back; a `ValueError` from the join is caught and any other exception escapes |
| BluetoothHandler.CallbackStoresCredentials | bluetoothHandler.py:79-84 | a write `ssid\|password\|url` with clean credentials stores and saves exactly those credentials |
| BluetoothHandler.BlankFieldsStoredEmpty | bluetoothHandler.py:79-84 | blank fields pass the emptiness test before stripping, are stored as empty strings, and are then not saved |
| BluetoothHandler.WaitFastPath | bluetoothHandler.py:97-104 | after loading, present credentials return the address at once and absent ones wait; only a non-object file raises |
| BluetoothHandler.SavedFileSkipsWait | bluetoothHandler.py:48-104 | a saved file lets the next start return the address without waiting, whatever the handler held |
| BluetoothHandler.DeviceName | bluetoothHandler.py:20 | the name is "LICN-" followed by five decimal digits |
| BluetoothHandler.DeviceNameInjective | bluetoothHandler.py:20 | distinct draws give distinct names |
| BluetoothHandler.AdvertisingData | bluetoothHandler.py:40 | the payload is 15 bytes: the Flags structure 02 01 06, then the name's length plus one and the Complete Local Name type 0x09 |
| BluetoothHandler.AdvertisingDataParses | bluetoothHandler.py:38-40 | the payload reads back as exactly the Flags structure with value 0x06 and the device name as a Complete Local Name |
| BluetoothHandler.ParseAdOne | bluetoothHandler.py:40 | a structure whose length octet counts its type and data, in front of a payload that parses, parses to that structure in front |
| WifiConnect.Strategy | wifi/wifi_connect.py:55-62 | attempts 0 and 1 use their own strategy and every later attempt the third |
| WifiConnect.Timeout | wifi/wifi_connect.py:65 | the five attempts wait between 20 and 40 s for the link |
| WifiConnect.Backoff | wifi/wifi_connect.py:76 | the backoff is between 1 and 16 s |
| WifiConnect.BackoffSchedule | wifi/wifi_connect.py:74-78 | the backoffs after attempts 0 to 3 are 1, 2, 4 and 8 s |
| WifiConnect.AttemptsOutcome | wifi/wifi_connect.py:39-81 | the attempts succeed exactly when one of them joins, with the address of the first that does; otherwise they raise "WiFi connection failed after all attempts" |
| WifiConnect.AttemptsLog | wifi/wifi_connect.py:39-78 | the log is this attempt's events, followed by the later attempts' unless this one joined |
| WifiConnect.AttemptEventsBounds | wifi/wifi_connect.py:43-78 | one attempt joins at most once, with one of the three strategies and a timeout between 20 and 40 s |
| WifiConnect.AttemptsBounds | wifi/wifi_connect.py:38-78 | from attempt k on there is at most one join per remaining attempt, each with a valid strategy and timeout |
| WifiConnect.ConnectToWifi | wifi/wifi_connect.py:8-81 | a missing or empty SSID or password raises before the radio is touched; otherwise the radio comes up and 2 s pass before the attempts; at most five joins |
| WifiConnect.AllAttemptsFail | wifi/wifi_connect.py:38-81 | with the network always visible and the link never up, the radio tries the five strategy and timeout pairs with backoffs 1, 2, 4 and 8 s, then raises |
| WifiConnect.InvisibleAttemptOnlySleeps | wifi/wifi_connect.py:43-46 | an attempt whose network is not visible only waits 2 s, with no join and no backoff |
| WifiConnect.DecodeStatus | wifi/wifi_connect.py:130-140 | a code outside the table, 2 included, reads as "Unknown (code)" |
| WifiConnect.DecodeStatusKnown | wifi/wifi_connect.py:132-139 | the six known codes get six distinct messages, none of the "Unknown" form |
| WifiConnect.DecodeStatusUnknownInjective | wifi/wifi_connect.py:140 | unknown codes are told apart by their messages |
| WifiConnect.GetIpAddress | wifi/wifi_connect.py:142-147 | the station's address when connected, "Not Connected" otherwise |
| WifiConnect.WriteCredentials | wifi/wifi_connect.py:149-161 | the record has exactly the keys ssid, password and central_ip, holding the three values given |
| WifiConnect.CredentialsReadBack | wifi/wifi_connect.py:149-158 | looking up ssid, password and central_ip in the written record gives back the values written, and no key occurs twice |
| HttpServer.Query | wifi/http_server.py:34 | the query is the text between the first and the second '?' and holds no '?' |
| HttpServer.QueryOfPath | wifi/http_server.py:34 | for a path `p?q` the query is `q` |
| HttpServer.QueryDropsAfterSecond | wifi/http_server.py:34 | whatever follows a second '?' is not part of the query |
| HttpServer.Params | wifi/http_server.py:35 | the parameters have unique keys, a later key overwriting an earlier one; a piece with two or more '=' raises `ValueError` |
| HttpServer.ParamsSkipsBare | wifi/http_server.py:35 | pieces without '=' never contribute |
| HttpServer.SingleParam | wifi/http_server.py:35 | a query `k=v` yields exactly that one parameter |
| HttpServer.ModuleTypesOf | wifi/http_server.py:28 | the `/modules` body lists every live identity with its class name, in table order |
| HttpServer.Handle | wifi/http_server.py:6-77 | an empty request, or a first line that does not split into three words, closes without a response; GET /test and GET /modules answer 200; POST /test, POST /modules, other methods and unknown paths 404; a missing uuid 400; a malformed query, a body that is not JSON, a scalar body and an array or string body holding "state" close without a response; only a state change alters the manager |
| HttpServer.RequestLineParses | wifi/http_server.py:15-16 | a request line of three non-empty words without white space, followed by CRLF, splits back into those words |
| HttpServer.StatePath | wifi/http_server.py:33-36 | the path `/module/state?uuid=U` has no white space, is routed to the state handler, and carries the identity U |
| HttpServer.GetStateRoute | wifi/http_server.py:33-43 | a GET under `/module/state` with a uuid answers 200 with that module's state and changes nothing |
| HttpServer.StateRouteIsNotOther | wifi/http_server.py:22-33 | a path under `/module/state` is neither `/test` nor `/modules` |
| HttpServer.PostStateRoute | wifi/http_server.py:46-66 | a POST with a uuid closes without a response for a body that is not JSON, a scalar, or an array or string holding "state"; answers 400 for an object or sequence without "state"; otherwise passes the object's state to the manager and answers 200 with its reply |
| HttpServer.UnknownRoute | wifi/http_server.py:67-69 | any path that is not `/test`, `/modules` or under `/module/state` answers 404 and changes nothing |
| HttpServer.GetStateRequest | wifi/http_server.py:6-43 | end to end, `GET /module/state?uuid=U HTTP/1.1` answers 200 with module U's state |
| HttpServer.ReportRequestLineParses | wifi/http_server.py:15-16 | the report the board posts to the central server has a request line this handler splits into POST, the endpoint and HTTP/1.1 |
| Identity.GenerateUuid | module/module_manager.py:10-12 | the identity is 16 lower-case hex digits that parse back to the 8 random bytes it was drawn from |
| Identity.UuidInjective | module/module_manager.py:10-12 | distinct random draws give distinct identities |
| Identity.RegistryKeyInjective | module/module_manager.py:234-237 | the key `kind_address` determines both the kind and the address, even for a kind that contains '_' |
| Identity.Migrate | module/module_manager.py:197-209 | an old-format list migrates to one key per record, each key holding the identity of the last record with that key |
| Identity.Load | module/module_manager.py:191-222 | a missing or unreadable file loads as the empty registry; an old-format list becomes the active list with its migrated index; a document loads as it is |
| Identity.Save | module/module_manager.py:225-231 | a write that cannot open the file leaves it as it was; a dump that fails after the open leaves a file that no longer parses |
| Identity.TruncatedSaveLoadsEmpty | module/module_manager.py:191-231 | after a dump that fails part of the way through, the next load is the empty registry |
| Identity.LoadSaved | module/module_manager.py:191-231 | what a successful save writes is what the next load returns |
| Identity.Clear | module/module_manager.py:532-539 | after clearing, the registry loads as empty unless the file could not be opened, which leaves it as it was |
| Identity.GetOrCreateUuid | module/module_manager.py:234-250 | a known key returns its identity and writes nothing; an unknown key draws a fresh identity, adds that key and saves |
| Identity.GetOrCreateAddsOneKey | module/module_manager.py:244-248 | on a miss the saved registry gains exactly the new key; the active list and every other key are unchanged |
| Identity.GetOrCreateStable | module/module_manager.py:238-243 | asking again for the same kind and address returns the same identity, whatever the new random draw, and writes nothing |
| Identity.GetOrCreateSeparatesPairs | module/module_manager.py:234-250 | issuing an identity for one pair does not change the identity of another known pair |
| Identity.TruncatedSaveForgetsIdentities | module/module_manager.py:191-250 | once a new identity's save fails after the open, the next request for any pair, one issued before included, draws a fresh identity |
| Manager.FirstAt | module/module_manager.py:473-474 | the first live module, in table order, with the address; none exactly when no live module has it |
| Manager.Records | module/module_manager.py:260-267 | one record per live module, in table order, with its identity, class name and address |
| Manager.Peripherals | module/module_manager.py:321-328 | one report entry per live module, in table order, with its class name and identity |
| Manager.SaveModules | module/module_manager.py:253-275 | a module without an address aborts before anything is written; otherwise the active list is replaced by the live table, the index kept, and the report sent exactly when the credentials file is readable |
| Manager.SaveStep | module/module_manager.py:253-275 | the step changes only the registry file and carries the report of the save |
| Manager.LoadModules | module/module_manager.py:283-313 | an empty active list changes nothing; otherwise each saved record the factory accepts is rebuilt into the table and the new table reported; nothing else changes and nothing is written to the bus |
| Manager.SaveLoadRoundTrip | module/module_manager.py:253-313 | after a save and a reboot, load restores under each identity exactly the module the factory rebuilds from the saved kind and address, and nothing under any other identity |
| Manager.LoadAsWrittenRestoresNothing | module/module_manager.py:300 | with the factory as written, loading leaves the table as it was |
| Manager.AsWrittenByAddressCall | module/module_manager.py:409 | the factory call with three arguments raises `TypeError` for every kind |
| Manager.CreateByAddress | module/module_manager.py:393-419 | nothing changes when a live module has the address, when the address is unmapped or when the factory raises; otherwise the module goes in under its registry identity and the table is saved |
| Manager.CreateByAddressAsWritten | module/module_manager.py:393-419 | as written, detecting a device never adds a module, never writes the registry and never reports |
| Manager.CreateByAddressKeepsInvariants | module/module_manager.py:396-413 | creation by address keeps table keys unique and addresses distinct |
| Manager.FirstFree | module/module_manager.py:426-439 | the first mapped address for the kind that no live module uses; none exactly when every address mapped to the kind is in use |
| Manager.Create | module/module_manager.py:422-455 | without an address the first free mapped address is used, and without one nothing happens; when there is one and the factory accepts it, a module is returned; an accepted module gets the bus, goes in under its registry identity, is saved and returned; a refused one changes nothing |
| Manager.CreateKeepsInvariants | module/module_manager.py:422-452 | for any factory that builds at the requested address, creation at the first free mapped address keeps table keys unique and addresses distinct, and a created module is live at that address |
| Manager.CreateAsWritten | module/module_manager.py:444-455 | with the factory as written, manual creation returns None and changes nothing |
| Manager.CreateExplicitAddressCanDuplicate | module/module_manager.py:424-446 | an explicit address is not checked, so a second module can be created at an occupied address |
| Manager.Remove | module/module_manager.py:458-467 | an unknown identity changes nothing; a known one is removed, shut down and the table saved |
| Manager.RemoveByAddress | module/module_manager.py:470-482 | without a live module at the address nothing changes; otherwise only the first one is removed, shut down and the table saved |
| Manager.RemoveByAddressRemovesOne | module/module_manager.py:473-482 | exactly one entry goes, the first at the address; every other identity keeps its module |
| Manager.RemoveByAddressClears | module/module_manager.py:470-482 | with distinct addresses, no module is left at the address |
| Manager.RemoveByAddressKeepsInvariants | module/module_manager.py:470-482 | removal keeps keys unique and addresses distinct and frees addresses only |
| Manager.GetModule | module/module_manager.py:485-488 | a module is found exactly for a live identity, and it is that identity's module |
| Manager.GetModuleState | module/module_manager.py:497-503 | a live module's own state report; the error body for an unknown identity |
| Manager.SetModuleState | module/module_manager.py:506-513 | only a live control module changes, and the request is echoed; anything else gets the error body and nothing changes |
| Manager.SetModuleStateKeepsTable | module/module_manager.py:506-513 | a state change keeps the identities, their order and every other module |
| Manager.AddMapping | module/module_manager.py:516-519 | the address now maps to the kind, every other address keeps its kind, nothing else changes |
| Manager.SetScanInterval | module/module_manager.py:160-163 | the interval is the one asked for, but never below 0.1 s |
| Manager.ClearRegistry | module/module_manager.py:532-539 | after clearing, the registry loads as empty unless the file could not be opened, and nothing else changes |
| Scanner.ScanDiff | module/module_manager.py:60-70 | the new addresses are those scanned but not known, the vanished ones those known but not scanned |
| Scanner.ScanDiffReconstructs | module/module_manager.py:60-77 | the two differences are disjoint and together turn the known set into the scan |
| Scanner.HandleNew | module/module_manager.py:94-108 | a mapped, non-empty kind leads to creation by address; an unmapped address changes nothing |
| Scanner.HandleAdded | module/module_manager.py:62-67 | the new-device loop keeps the mapping, the known set, the interval and the bus |
| Scanner.HandleDropped | module/module_manager.py:69-74 | the vanished-device loop keeps the mapping, the known set, the interval and the bus |
| Scanner.Cycle | module/module_manager.py:57-91 | a failed scan changes nothing; otherwise the known set becomes the scan and the configuration is kept |
| Scanner.HandleDroppedClears | module/module_manager.py:69-74 | after the removals no module is left at any vanished address, and the state stays valid with distinct addresses |
| Scanner.HandleAddedAsWritten | module/module_manager.py:62-67 | with the factory call as written, the new-device loop changes nothing |
| Scanner.CycleAsWritten | module/module_manager.py:57-91 | after one pass no module is at an address that vanished, none appears at a new address, and the state stays valid |
| Scanner.EightEachTail | module/module_manager.py:62-67 | each later creation in the loop still draws eight random bytes |
| Scanner.HandleNewKeepsInUse | module/module_manager.py:94-108 | handling a new address under an identity that is not live leaves every occupied address occupied |
| Scanner.HandleNewPlaces | module/module_manager.py:94-108 | a mapped new address whose factory call succeeds is occupied once handled |
| Scanner.HandleAddedKeepsInvariants | module/module_manager.py:62-67 | for any factory that builds at the requested address, the new-device loop keeps table keys unique and addresses distinct |
| Scanner.HandleAddedPlaces | module/module_manager.py:62-67 | with identities that are not live, the new-device loop keeps every occupied address occupied and occupies every new address the factory accepts |
| Scanner.RemoveByAddressKeepsOthers | module/module_manager.py:69-74 | removing the module at one address leaves every other occupied address occupied |
| Scanner.HandleDroppedKeepsOthers | module/module_manager.py:69-74 | the vanished-device loop leaves every address it does not visit occupied as it was |
| Scanner.CycleGeneral | module/module_manager.py:57-91 | for any factory that builds at the requested address: after one pass the known set is the scan, no module is at a vanished address, every new mapped address the factory accepts is occupied, and the state stays valid with distinct addresses |
| Reporter.Refresh | module/module_manager.py:316-390 | the first event is an attempt, and the call returns True exactly when an attempt from `retry_count` to `max(retry_count + 1, max_retries) - 1` succeeds |
| Reporter.RefreshResetsLast | module/module_manager.py:372-390 | credential deletion and reset happen exactly when every attempt failed, once each, as the last two events |
| Reporter.RefreshAttemptBound | module/module_manager.py:364-370 | at least one and at most `max(1, max_retries - retry_count)` attempts are made |
| Reporter.RefreshSleepsBetweenFailures | module/module_manager.py:364-370 | every pause lasts 2 s and lies between a failed attempt and the next attempt |
| Reporter.DefaultsAllFail | module/module_manager.py:316-390 | with the defaults and a silent server: three attempts 2 s apart, then credentials deleted and reset |
| Reporter.SuccessStopsRetrying | module/module_manager.py:316-363 | success on an attempt returns True after exactly that many attempts |
| Reporter.Payload | module/module_manager.py:321-328 | one entry per peripheral, in order, with its type, identity and this board's address on port 8080 |
| Reporter.RequestText | module/module_manager.py:340-349 | the request starts with the POST request line and ends with the JSON body |
| Reporter.ContentLengthReadsBack | module/module_manager.py:345 | the Content-Length header reads back as the body's length |
| Text.Lower | module/module.py:31 | each character lower-cased, the length kept |
| Text.TrimStart | ble/ble_simple_peripheral.py:99 | the suffix of the text that starts at its first non-space character |
| Text.TrimEnd | ble/ble_simple_peripheral.py:99 | the prefix of the text that ends at its last non-space character |
| Text.StripIdempotent | ble/ble_simple_peripheral.py:99-110 | stripping twice is stripping once |
| Text.Split | wifi/http_server.py:15 | at least one piece; joining the pieces with the separator rebuilds the text, and no piece holds the separator |
| Text.SplitJoinChar | bluetoothHandler.py:79 | splitting a join of separator-free parts on a one-character separator gives the parts back |
| Text.SplitWhitespaceWords | wifi/http_server.py:16 | every piece of `split()` is a non-empty run of non-space characters |
| Text.SplitWhitespaceJoin | wifi/http_server.py:16 | splitting a single-space join of such words gives the words back |
| Text.AfterFirst | wifi/http_server.py:55 | the text after the first separator, or all of it when there is none |
| Text.Hex | module/module_manager.py:12 | two lower-case hex digits per byte |
| Text.UnHexOfHex | module/module_manager.py:12 | parsing the hex rendering gives the bytes back |
| Text.HexInjective | module/module_manager.py:12 | distinct byte strings render differently |
| Text.DecimalRoundTrip | module/module_manager.py:345 | reading back the decimal rendering of a number gives the number |
| Text.IntTextInjective | module/module_manager.py:237 | distinct integers render differently |
| Values.Trunc | module/controls/led.py:23 | truncation toward zero: within one of the argument, on the side of zero |
| OrderedDict.Get | module/module_manager.py:485-488 | found exactly for a present key, with the value stored under it |
| OrderedDict.Put | module/module_manager.py:449 | the key now maps to the value, every other key keeps its value, and the key set gains the key |
| OrderedDict.PutShape | module/module_manager.py:449 | a new key is appended at the end, an existing key stays in place, and keys stay unique |
| OrderedDict.Pop | module/module_manager.py:461 | the key's entry goes, the others keep their order and values, and an absent key changes nothing |
| OrderedDict.PopAppended | module/module_manager.py:449-461 | popping a key just appended gives back the dictionary as it was |
| Values.ToFloat | module/controls/led.py:19 | an integer converts to the same number; `None`, arrays and objects make `float()` raise |

## Left out

- Printing, logging and the `_lock` of both managers: they only serialise callers and do
  not change what an operation computes.
- Concurrency between the scan loop, the HTTP server and the BLE callbacks: each operation
  is modelled as one atomic transition.
- `asyncio.sleep` and the timers: a pause is an event in a log or simply the next
  transition, and a timer is a field that the callback transitions read.
- Floating-point rounding and `round(..., 2)`: arithmetic is over exact reals.
- JSON encoding and decoding: a decoded body is an input (`Values.Value`), and the registry
  file is a `Stored` value.
- Errors while reading a file other than "missing" and "unreadable": any such file loads
  as a missing one.
- `Identity.Load`: a stored document always holds both keys. A JSON object without
  `"module_registry"`, which makes `_get_or_create_uuid` raise `KeyError`, and a JSON
  number, string, boolean or null, on which the `"active_modules"` assignment in
  `save_modules` raises `TypeError` (caught there, so nothing is written or reported), are
  not represented.
- The radio, the BLE stack and the network: join results, scan results, connection events
  and socket outcomes are inputs.
- `bluetoothHandler.get_ip_address` and `wifi_connect.get_central_ip`: their results are
  parameters (`CentralIp` in the manager).
- `ModuleManager._try_identify_i2c_device` and `_check_common_device_patterns`: they only
  probe and print, and change no state.
- `ModuleManager.initialize_i2c` and `manual_i2c_scan`: bus set-up and a diagnostic scan;
  the bus handle is an input and a failed scan is `None`.
- `get_modules`, `get_i2c_mappings` and `get_module_registry`: they return copies of state
  the model exposes directly.
- The order in which Python iterates a set: the new and vanished addresses are visited in
  an order given as an input.
- `main.py`, the root `module.py` and the root `wifi_connect.py`: start-up wiring and older
  duplicates of modelled files.
- `BluetoothHandler.BtCallback`: the model takes `bluetooth._IRQ_GATTS_WRITE` to be the
  write event (3). MicroPython's `bluetooth` module does not define that name, so as written
  every event raises `AttributeError` at the comparison before any field is read; the
  firmware's own `ble_simple_peripheral.py` defines the constant itself. The model describes
  the handler as it behaves once the name resolves.
- `BluetoothHandler.BtCallback`: the written value is taken as text. `decode("utf-8")` raises
  `UnicodeError` on bytes that are not UTF-8, and that exception escapes the callback; the
  `received` input cannot express it.
- `LedControl.ClampPercent`: the clamped value is a real. Python's `max(0, min(100, x))`
  returns the int 0 or 100 when `x` is at or beyond a bound, so `get_state` then shows `0`
  or `100` where the model's value is `0.0` or `100.0`; the number is the same, only its
  JSON text differs. The same holds for the LED state stored through `Devices.SetState`.
- `Values.ToFloat`: exact reals hold no infinity and no NaN, so texts such as "inf" or
  "nan", which `float()` accepts, are not modelled. On the root `led.py` such a state is
  stored and then `int(percent * 65535)` raises `OverflowError` for an infinity and
  `ValueError` for NaN; on the driver LED the clamp turns "inf" and "nan" into 100 and
  "-inf" into 0.
- `HttpServer.Handle`: the accept loop of `start_server` is not modelled; one call
  handles one request.
- The `await` in `read_pins` of `rezistance_detector.py`: `remove_module_by_port` and
  `create_module` are plain functions that return `None`, and awaiting `None` raises
  `TypeError`. As written the polling task therefore ends at the first removal or creation
  command, once that manager call has taken effect; a removal command comes from any empty
  port. `ResistanceDetector.Apply` models the manager call alone, and
  `ResistanceDetector.PlugUnplug` describes the manager, not that loop.
- `BlePeripheral`: the random device name and the `advertising_payload` helper of the
  simple peripheral are not modelled; the advertising payload of `bluetoothHandler.py` is.
- `SimpleSawtooth`: the module-level wrapper functions and `get_voltage_range` only
  forward to a generator instance.
- `Sawtooth.New`: the pins are taken to start low, and `timer.init` is taken to fail
  only through the division by a zero frequency.
- `WifiConnect.AttemptsOutcome`: an `OSError` while waiting for the link is treated like a
  timeout of that attempt.
- `Devices.Construct`: `Led`, `Relay` and `TemperatureSensor` raise `TypeError` in their
  `super().__init__` call, so the rest of their constructors never runs. The LED's initial
  brightness of 0 is therefore not modelled, and the relay's closing drive-off appears only
  as `RelayControl.DriveOff`.

=== FILE: battery.dfy ===
/** `utils/battery.py`: the Li-Po charge estimate every driver reports as `batteryLevel`.
    The 16-bit ADC reading is scaled to the 3.3 V reference, undone through the 2.2/3.2
    voltage divider, mapped linearly from the 3.0 V cut-off to the 4.2 V full charge, clamped
    to [0, 100] and truncated. Float rounding is not modelled: arithmetic is exact. */
module Battery {
  import opened Values

  const AdcFullScale: real := 65535.0
  const ReferenceVolts: real := 3.3
  const MinVolts: real := 3.0
  const MaxVolts: real := 4.2

  /** The voltage at the ADC pin. */
  function PinVoltage(raw: int): real {
    (raw as real / AdcFullScale) * ReferenceVolts
  }

  /** The battery voltage before the divider. */
  function BatteryVoltage(raw: int): real {
    PinVoltage(raw) * (3.2 / 2.2)
  }

  /** Python `max(lo, min(hi, x))`. */
  function Clamp(x: real, lo: real, hi: real): real {
    if x > hi then hi else if x < lo then lo else x
  }

  /** `getBatteryPercentage()` for the ADC reading `raw`. */
  function Percentage(raw: int): (p: int)
    ensures 0 <= p <= 100
  {
    var percentage := ((BatteryVoltage(raw) - MinVolts) / (MaxVolts - MinVolts)) * 100.0;
    Trunc(Clamp(percentage, 0.0, 100.0))
  }

  /** The same estimate in integer arithmetic: 400·raw/65535 − 250, floored and clamped. */
  function IntegerPercentage(raw: int): int {
    var p := (400 * raw) / 65535 - 250;
    if p > 100 then 100 else if p < 0 then 0 else p
  }

  /** The firmware's percentage agrees with the integer formula on every reading. */
  lemma PercentageIsIntegerFormula(raw: int)
    ensures Percentage(raw) == IntegerPercentage(raw)
  {
    var x := raw as real * 400.0 / 65535.0;
    var percentage := ((BatteryVoltage(raw) - MinVolts) / (MaxVolts - MinVolts)) * 100.0;
    assert percentage == x - 250.0;
    var q := (400 * raw) / 65535;
    assert q * 65535 <= 400 * raw < q * 65535 + 65535;
    assert q as real <= x < q as real + 1.0;
    assert x.Floor == q;
  }

  /** A higher reading never gives a lower percentage. */
  lemma PercentageMonotone(a: int, b: int)
    requires a <= b
    ensures Percentage(a) <= Percentage(b)
  {
    PercentageIsIntegerFormula(a);
    PercentageIsIntegerFormula(b);
    assert 400 * a <= 400 * b;
  }

  /** The end points: an empty reading is 0 %, a full-scale reading (4.8 V at the battery)
      saturates at 100 %, and the 100 % threshold is the first reading at or above 4.2 V. */
  lemma PercentageEndPoints()
    ensures BatteryVoltage(65535) == 4.8
    ensures Percentage(0) == 0 && Percentage(65535) == 100
    ensures Percentage(57343) == 99 && Percentage(57344) == 100
    ensures Percentage(41123) == 0 && Percentage(41124) == 1
  {
    PercentageIsIntegerFormula(0);
    PercentageIsIntegerFormula(65535);
    PercentageIsIntegerFormula(57343);
    PercentageIsIntegerFormula(57344);
    PercentageIsIntegerFormula(41123);
    PercentageIsIntegerFormula(41124);
  }
}

=== FILE: ble_peripheral.dfy ===
/** `ble/ble_simple_peripheral.py`: the Nordic-UART-style BLE peripheral that receives the
    WiFi credentials and the central server's address as labelled text messages
    (`SSID:…`, `PASSWORD:…`, `IP:…`). The radio is not modelled: connection events and
    written values arrive as inputs, and a notification is an output record. */
module BlePeripheral {
  import opened Wrappers
  import opened Text
  import opened Values

  // ---------------------------------------------------------------------------------------
  // The labelled-message accumulator `on_rx`

  /** The three values `receive_credentials` collects (`None` until received) and its `stop`
      flag. */
  datatype Collected = Collected(ssid: Option<string>, password: Option<string>, centralIp: Option<string>, stop: bool)

  const Initial := Collected(None, None, None, false)

  /** Python truthiness of an optional string: present and non-empty. */
  predicate Set(v: Option<string>) {
    v.Some? && v.value != ""
  }

  /** `text.split(":", 1)` unpacked into two names: the text before the first ':' and the text
      after it; `None` when there is no ':' (the unpacking raises `ValueError`). */
  function SplitLabel(text: string): (r: Option<(string, string)>)
    ensures r.Some? <==> Contains(text, ":")
    ensures r.Some? ==> text == r.value.0 + ":" + r.value.1 && ':' !in r.value.0
  {
    if Contains(text, ":") then
      var tag := BeforeFirst(text, ":");
      NoCharNotContains(tag, ':');
      Some((tag, AfterFirst(text, ":")))
    else None
  }

  /** `on_rx(v)`. `message` is `v.decode()`, `None` when the bytes are not valid UTF-8. Any
      exception inside the handler is caught and printed, so a message that does not
      decode or has no ':' changes nothing. A known label stores its stripped content, a
      later message overwriting an earlier one; any other label stores nothing. `stop` is
      set once all three values are non-empty and is never cleared. */
  function OnRx(c: Collected, message: Option<string>): (r: Collected)
    ensures message.None? || !Contains(Strip(message.value), ":") ==> r == c
    ensures r.stop <==> c.stop || (r != c && Set(r.ssid) && Set(r.password) && Set(r.centralIp))
    ensures c.stop ==> r.stop
  {
    match message
    case None => c
    case Some(text) =>
      match SplitLabel(Strip(text))
      case None => c
      case Some(parts) =>
        var tag := parts.0;
        var content := Strip(parts.1);
        var stored :=
          if tag == "SSID" then c.(ssid := Some(content))
          else if tag == "PASSWORD" then c.(password := Some(content))
          else if tag == "IP" then c.(centralIp := Some(content))
          else c;
        if Set(stored.ssid) && Set(stored.password) && Set(stored.centralIp) then stored.(stop := true)
        else stored
  }

  /** A message with a known label sets exactly that value to the stripped content. */
  lemma OnRxStoresLabel(c: Collected, tag: string, content: string)
    requires tag in {"SSID", "PASSWORD", "IP"}
    requires content == [] || !IsSpace(content[|content| - 1])
    ensures var r := OnRx(c, Some(tag + ":" + content));
      && (tag == "SSID" ==> r.ssid == Some(Strip(content)) && r.password == c.password && r.centralIp == c.centralIp)
      && (tag == "PASSWORD" ==> r.password == Some(Strip(content)) && r.ssid == c.ssid && r.centralIp == c.centralIp)
      && (tag == "IP" ==> r.centralIp == Some(Strip(content)) && r.ssid == c.ssid && r.password == c.password)
  {
    var text := tag + ":" + content;
    assert text[0] == tag[0];
    StripUnchanged(text);
    SplitLabelOf(tag, content);
    assert SplitLabel(Strip(text)) == Some((tag, content));
    var stored :=
      if tag == "SSID" then c.(ssid := Some(Strip(content)))
      else if tag == "PASSWORD" then c.(password := Some(Strip(content)))
      else c.(centralIp := Some(Strip(content)));
    var r := OnRx(c, Some(text));
    assert r == stored || r == stored.(stop := true);
  }

  /** Splitting `label:content` at the first ':' gives the label back when it holds no ':'. */
  lemma SplitLabelOf(tag: string, content: string)
    requires ':' !in tag
    ensures SplitLabel(tag + ":" + content) == Some((tag, content))
  {
    var text := tag + ":" + content;
    FindFirstAfterClean(tag, ":", content);
    assert OccursAt(text, ":", |tag|);
    assert BeforeFirst(text, ":") == text[..|tag|] == tag;
    assert AfterFirst(text, ":") == text[|tag| + 1..] == content;
  }

  /** Any other label leaves the three values as they were. */
  lemma OnRxIgnoresOtherLabels(c: Collected, tag: string, content: string)
    requires ':' !in tag && tag !in {"SSID", "PASSWORD", "IP"}
    requires |tag| > 0 && !IsSpace(tag[0])
    requires content == [] || !IsSpace(content[|content| - 1])
    ensures var r := OnRx(c, Some(tag + ":" + content));
      r.ssid == c.ssid && r.password == c.password && r.centralIp == c.centralIp
  {
    var text := tag + ":" + content;
    assert text[0] == tag[0];
    StripUnchanged(text);
    SplitLabelOf(tag, content);
  }

  /** A later message with the same label overwrites the earlier value. */
  lemma OnRxOverwrites(c: Collected, first: string, second: string)
    requires second == [] || !IsSpace(second[|second| - 1])
    requires first == [] || !IsSpace(first[|first| - 1])
    ensures OnRx(OnRx(c, Some("SSID:" + first)), Some("SSID:" + second)).ssid == Some(Strip(second))
  {
    assert "SSID:" + first == "SSID" + ":" + first;
    assert "SSID:" + second == "SSID" + ":" + second;
    OnRxStoresLabel(c, "SSID", first);
    OnRxStoresLabel(OnRx(c, Some("SSID:" + first)), "SSID", second);
  }

  /** Receiving the three labelled values in any order, each non-empty after stripping, sets
      `stop`. */
  lemma ThreeMessagesStop(ssid: string, password: string, ip: string)
    requires NoSpace(ssid) && NoSpace(password) && NoSpace(ip)
    requires ssid != "" && password != "" && ip != ""
    ensures var c := OnRx(OnRx(OnRx(Initial, Some("SSID:" + ssid)), Some("PASSWORD:" + password)), Some("IP:" + ip));
      c.stop && c.ssid == Some(ssid) && c.password == Some(password) && c.centralIp == Some(ip)
  {
    assert "SSID:" + ssid == "SSID" + ":" + ssid;
    assert "PASSWORD:" + password == "PASSWORD" + ":" + password;
    assert "IP:" + ip == "IP" + ":" + ip;
    StripUnchanged(ssid);
    StripUnchanged(password);
    StripUnchanged(ip);
    var c1 := OnRx(Initial, Some("SSID:" + ssid));
    OnRxStoresLabel(Initial, "SSID", ssid);
    var c2 := OnRx(c1, Some("PASSWORD:" + password));
    OnRxStoresLabel(c1, "PASSWORD", password);
    var c3 := OnRx(c2, Some("IP:" + ip));
    OnRxStoresLabel(c2, "IP", ip);
    assert c3 != c2;
  }

  // ---------------------------------------------------------------------------------------
  // Connection tracking `_irq`, `send`, `is_connected`

  const IrqCentralConnect := 1
  const IrqCentralDisconnect := 2
  const IrqGattsWrite := 3

  /** The peripheral's state: the open connection handles, the two attribute handles the
      service registration returned, and whether a write callback is registered. */
  datatype Peripheral = Peripheral(connections: set<int>, txHandle: int, rxHandle: int, hasCallback: bool)

  /** A BLE event with its data tuple: `(conn_handle, _, _)` for a connect or disconnect,
      `(conn_handle, value_handle)` for a write. */
  datatype Event = Event(code: int, connHandle: int, valueHandle: int)

  /** What `_irq` did: the peripheral afterwards, and the value passed to the write callback
      if it was called. A disconnect of a handle not in the set raises `KeyError`. */
  function Irq(p: Peripheral, e: Event, value: seq<byte>): (r: Result<(Peripheral, Option<seq<byte>>), Fault>)
    ensures e.code == IrqCentralConnect ==> r == Success((p.(connections := p.connections + {e.connHandle}), None))
    ensures e.code == IrqCentralDisconnect ==>
      if e.connHandle in p.connections
      then r == Success((p.(connections := p.connections - {e.connHandle}), None))
      else r.Failure? && r.error.KeyError?
    ensures r.Success? ==>
      r.value.0.txHandle == p.txHandle && r.value.0.rxHandle == p.rxHandle && r.value.0.hasCallback == p.hasCallback
    ensures r.Success? && r.value.1.Some? <==>
      e.code == IrqGattsWrite && e.valueHandle == p.rxHandle && p.hasCallback
    ensures r.Success? && r.value.1.Some? ==> r.value.1.value == value
    ensures e.code !in {IrqCentralConnect, IrqCentralDisconnect} ==> r.Success? && r.value.0 == p
  {
    if e.code == IrqCentralConnect then
      Success((p.(connections := p.connections + {e.connHandle}), None))
    else if e.code == IrqCentralDisconnect then
      if e.connHandle in p.connections then Success((p.(connections := p.connections - {e.connHandle}), None))
      else Failure(KeyError("set.remove(x): x not in set"))
    else if e.code == IrqGattsWrite then
      Success((p, if e.valueHandle == p.rxHandle && p.hasCallback then Some(value) else None))
    else Success((p, None))
  }

  /** `is_connected()`. */
  predicate IsConnected(p: Peripheral) {
    |p.connections| > 0
  }

  /** A connect makes the peripheral connected; a disconnect after a fresh connect restores
      the earlier connection set. */
  lemma ConnectDisconnect(p: Peripheral, h: int, a: int, b: int)
    requires h !in p.connections
    ensures var c := Irq(p, Event(IrqCentralConnect, h, a), []).value.0;
      && IsConnected(c)
      && Irq(c, Event(IrqCentralDisconnect, h, b), []) == Success((p, None))
  {
    var c := Irq(p, Event(IrqCentralConnect, h, a), []).value.0;
    assert h in c.connections;
    assert c.connections - {h} == p.connections;
  }

  /** A GATT notification: `gatts_notify(conn_handle, value_handle, data)`. */
  datatype Notify = Notify(connHandle: int, valueHandle: int, data: seq<byte>)

  /** `order` lists the elements of `s` once each: Python's iteration order over a set. */
  predicate Enumerates(order: seq<int>, s: set<int>) {
    (forall i, j :: 0 <= i < j < |order| ==> order[i] != order[j]) && (forall k :: 0 <= k < |order| ==> order[k] in s) && (forall h :: h in s ==> h in order)
  }

  /** `send(data)`: one notification on the TX handle per connection, in the order the set is
      iterated. */
  method Send(p: Peripheral, order: seq<int>, data: seq<byte>) returns (sent: seq<Notify>)
    requires Enumerates(order, p.connections)
    ensures |sent| == |p.connections|
    ensures forall k :: 0 <= k < |sent| ==> sent[k].valueHandle == p.txHandle && sent[k].data == data
    ensures forall h :: h in p.connections <==> exists k :: 0 <= k < |sent| && sent[k].connHandle == h
    ensures forall i, j :: 0 <= i < j < |sent| ==> sent[i].connHandle != sent[j].connHandle
  {
    sent := [];
    var i := 0;
    while i < |order|
      invariant 0 <= i <= |order| && |sent| == i
      invariant forall k :: 0 <= k < i ==> sent[k] == Notify(order[k], p.txHandle, data)
    {
      sent := sent + [Notify(order[i], p.txHandle, data)];
      i := i + 1;
    }
    EnumeratesSize(order, p.connections);
    forall h | h in p.connections ensures exists k :: 0 <= k < |sent| && sent[k].connHandle == h {
      var k :| 0 <= k < |order| && order[k] == h;
      assert sent[k].connHandle == h;
    }
  }

  lemma {:induction false} EnumeratesSize(order: seq<int>, s: set<int>)
    requires Enumerates(order, s)
    ensures |order| == |s|
  {
    if order != [] {
      var rest := order[1..];
      var t := s - {order[0]};
      assert order == [order[0]] + rest;
      forall i, j | 0 <= i < j < |rest| ensures rest[i] != rest[j] {
        assert rest[i] == order[i + 1] && rest[j] == order[j + 1];
      }
      forall k | 0 <= k < |rest| ensures rest[k] in t {
        assert rest[k] == order[k + 1];
      }
      forall h | h in t ensures h in rest {
        var k :| 0 <= k < |order| && order[k] == h;
        assert k != 0;
        assert rest[k - 1] == h;
      }
      EnumeratesSize(rest, t);
    } else {
      forall h | h in s ensures false {
      }
    }
  }
}

=== FILE: bluetooth_handler.dfy ===
/** `bluetoothHandler.py`: the older BLE credential receiver. A phone writes
    `ssid|password|central_url` to the RX characteristic; the handler keeps the stripped
    WiFi credentials, saves them, signals the waiting task, joins the network and writes the
    IP address back. It advertises as `LICN-nnnnn` with a hand-built advertising payload. The
    radio, the file and the WiFi join are inputs. */
module BluetoothHandler {
  import opened Wrappers
  import opened Text
  import opened Values

  /** What the handler holds: the two credentials and whether `credentials_event` is set. */
  datatype Handler = Handler(ssid: Option<string>, password: Option<string>, eventSet: bool)

  const Initial := Handler(None, None, false)

  /** Python truthiness of an optional string. */
  predicate Set(v: Option<string>) {
    v.Some? && v.value != ""
  }

  // ---------------------------------------------------------------------------------------
  // The credentials file

  /** The record `save_credentials` writes: exactly the keys `ssid` and `password`. */
  datatype Saved = Saved(ssid: string, password: string)

  /** What `open(CREDENTIALS_FILE)` and `json.load` find: no file (`OSError`), text that is
      not JSON (`ValueError`), JSON that is not an object (it has no `.get`), or an object
      with the values of its "ssid" and "password" members. */
  datatype File = Missing | NotJson | NotObject | Object(ssid: Option<string>, password: Option<string>)

  /** `save_credentials()`: the record written, only when both credentials are non-empty. */
  function Save(h: Handler): (w: Option<Saved>)
    ensures w.Some? <==> Set(h.ssid) && Set(h.password)
    ensures w.Some? ==> Some(w.value.ssid) == h.ssid && Some(w.value.password) == h.password
  {
    if Set(h.ssid) && Set(h.password) then Some(Saved(h.ssid.value, h.password.value)) else None
  }

  /** `load_credentials()`. A missing or unparsable file is reported and changes nothing; an
      object replaces both credentials only when both members are non-empty. A JSON value
      that is not an object raises `AttributeError`, which is not caught. */
  function Load(h: Handler, f: File): (r: Result<Handler, Fault>)
    ensures f.Missing? || f.NotJson? ==> r == Success(h)
    ensures f.NotObject? ==> r.Failure? && r.error.AttributeError?
    ensures f.Object? ==> r.Success? && r.value.eventSet == h.eventSet
    ensures f.Object? && Set(f.ssid) && Set(f.password) ==>
      r.value.ssid == f.ssid && r.value.password == f.password
    ensures f.Object? && !(Set(f.ssid) && Set(f.password)) ==> r == Success(h)
  {
    match f
    case Missing => Success(h)
    case NotJson => Success(h)
    case NotObject => Failure(AttributeError("'list' object has no attribute 'get'"))
    case Object(s, p) =>
      if Set(s) && Set(p) then Success(h.(ssid := s, password := p)) else Success(h)
  }

  /** The file as `json.dump` leaves it after a save. */
  function Written(w: Saved): File {
    Object(Some(w.ssid), Some(w.password))
  }

  /** Saving then loading into any handler restores the saved credentials. */
  lemma SaveLoadRoundTrip(h: Handler, other: Handler)
    requires Set(h.ssid) && Set(h.password)
    ensures var r := Load(other, Written(Save(h).value));
      r.Success? && r.value.ssid == h.ssid && r.value.password == h.password
  {
  }

  // ---------------------------------------------------------------------------------------
  // The write callback `bt_callback`

  /** What one callback did: the handler afterwards, the record saved, whether the WiFi join
      was started, the bytes written back on the TX characteristic, and the exception that
      escaped the callback, if any. */
  datatype Outcome = Outcome(handler: Handler, saved: Option<Saved>, joined: bool, reply: Option<string>, raised: Option<Fault>)

  function Quiet(h: Handler): Outcome {
    Outcome(h, None, false, None, None)
  }

  /** `bt_callback(event, data)` for a write carrying the text `received` (`isWrite` is
      false for every other event). `join` is what `wifi_connect.connect_to_wifi(ssid,
      password)` returns or raises. An empty write is ignored; so is a write that does not
      split on '|' into exactly three fields (the unpacking raises `ValueError`, which is
      caught). The first two fields are checked for emptiness BEFORE they are stripped, so
      fields of blanks are accepted and stored as empty strings. The third field is
      discarded. A `ValueError` from the join is caught too; any other exception escapes. */
  function BtCallback(h: Handler, isWrite: bool, received: string, join: Result<string, Fault>): (o: Outcome)
    ensures !isWrite || received == "" ==> o == Quiet(h)
    ensures |Split(received, "|")| != 3 ==> o == Quiet(h)
    ensures o.handler != h ==> o.joined
    ensures o.joined <==>
      isWrite && received != "" && |Split(received, "|")| == 3
      && Split(received, "|")[0] != "" && Split(received, "|")[1] != ""
    ensures o.joined ==>
      var fields := Split(received, "|");
      && o.handler == Handler(Some(Strip(fields[0])), Some(Strip(fields[1])), true)
      && o.saved == Save(o.handler)
      && (o.reply.Some? <==> join.Success?)
      && (o.reply.Some? ==> o.reply.value == join.value)
      && (o.raised.Some? <==> join.Failure? && !join.error.ValueError?)
  {
    if !isWrite || received == "" then Quiet(h)
    else
      var fields := Split(received, "|");
      if |fields| != 3 then Quiet(h)
      else if fields[0] != "" && fields[1] != "" then
        var h' := Handler(Some(Strip(fields[0])), Some(Strip(fields[1])), true);
        match join
        case Success(ip) => Outcome(h', Save(h'), true, Some(ip), None)
        case Failure(e) => Outcome(h', Save(h'), true, None, if e.ValueError? then None else Some(e))
      else Quiet(h)
  }

  /** A well-formed write `ssid|password|url` with credentials free of '|' and of surrounding
      blanks stores exactly those credentials and saves them. */
  lemma CallbackStoresCredentials(h: Handler, ssid: string, password: string, url: string, join: Result<string, Fault>)
    requires '|' !in ssid && '|' !in password && '|' !in url
    requires |ssid| > 0 && !IsSpace(ssid[0]) && !IsSpace(ssid[|ssid| - 1])
    requires |password| > 0 && !IsSpace(password[0]) && !IsSpace(password[|password| - 1])
    ensures var o := BtCallback(h, true, ssid + "|" + password + "|" + url, join);
      && o.handler == Handler(Some(ssid), Some(password), true)
      && o.saved == Some(Saved(ssid, password))
  {
    var parts := [ssid, password, url];
    JoinThree(ssid, password, url);
    SplitJoinChar(parts, '|');
    StripUnchanged(ssid);
    StripUnchanged(password);
  }

  /** Fields of blanks pass the emptiness test and are stored as empty credentials, which
      `save_credentials` then refuses to write. */
  lemma BlankFieldsStoredEmpty(h: Handler, url: string, join: Result<string, Fault>)
    requires '|' !in url
    ensures var o := BtCallback(h, true, " " + "|" + " " + "|" + url, join);
      o.handler == Handler(Some(""), Some(""), true) && o.saved == None && o.joined
  {
    JoinThree(" ", " ", url);
    SplitJoinChar([" ", " ", url], '|');
    assert Strip(" ") == "" by {
      assert TrimStart(" ") == TrimStart(" "[1..]);
      assert " "[1..] == "";
    }
  }

  lemma JoinThree(a: string, b: string, c: string)
    ensures Join([a, b, c], "|") == a + "|" + b + "|" + c
  {
    assert [a, b, c][1..] == [b, c] && [b, c][1..] == [c];
    assert Join([c], "|") == c;
    assert Join([b, c], "|") == b + "|" + Join([c], "|");
    assert Join([a, b, c], "|") == a + "|" + Join([b, c], "|");
  }

  // ---------------------------------------------------------------------------------------
  // `wait_for_credentials`

  /** The fast path of `wait_for_credentials`: after loading the file, credentials that are
      both present return the current IP address at once (`ip` is what `get_ip_address`
      returns); otherwise the coroutine waits for the event, which is `None` here. */
  function WaitFastPath(h: Handler, f: File, ip: string): (r: Result<(Handler, Option<string>), Fault>)
    ensures r.Success? ==> (r.value.1.Some? <==> Set(r.value.0.ssid) && Set(r.value.0.password))
    ensures r.Success? && r.value.1.Some? ==> r.value.1.value == ip
    ensures f.NotObject? <==> r.Failure?
  {
    var loaded :- Load(h, f);
    if Set(loaded.ssid) && Set(loaded.password) then Success((loaded, Some(ip))) else Success((loaded, None))
  }

  /** A saved file lets the next start skip the wait, whatever the handler held. */
  lemma SavedFileSkipsWait(h: Handler, other: Handler, ip: string)
    requires Set(h.ssid) && Set(h.password)
    ensures WaitFastPath(other, Written(Save(h).value), ip) == Success((other.(ssid := h.ssid, password := h.password), Some(ip)))
  {
  }

  // ---------------------------------------------------------------------------------------
  // Device name and advertising payload

  /** `f"LICN-{random.randint(10000, 99999)}"`; the random draw is the parameter. */
  function DeviceName(n: int): (name: string)
    requires 10000 <= n <= 99999
    ensures |name| == 10 && name[..5] == "LICN-"
    ensures forall i :: 5 <= i < 10 ==> IsDigit(name[i])
  {
    DecimalFiveDigits(n);
    "LICN-" + Decimal(n)
  }

  lemma {:induction false} DecimalFiveDigits(n: nat)
    requires 10000 <= n <= 99999
    ensures |Decimal(n)| == 5
  {
    assert Decimal(n) == Decimal(n / 10) + [DigitChar(n % 10)];
    assert Decimal(n / 10) == Decimal(n / 100) + [DigitChar(n / 10 % 10)];
    assert Decimal(n / 100) == Decimal(n / 1000) + [DigitChar(n / 100 % 10)];
    assert Decimal(n / 1000) == Decimal(n / 10000) + [DigitChar(n / 1000 % 10)];
    assert Decimal(n / 10000) == [DigitChar(n / 10000)];
  }

  /** Distinct draws give distinct names. */
  lemma DeviceNameInjective(m: int, n: int)
    requires 10000 <= m <= 99999 && 10000 <= n <= 99999
    ensures DeviceName(m) == DeviceName(n) ==> m == n
  {
    if DeviceName(m) == DeviceName(n) {
      assert Decimal(m) == DeviceName(m)[5..];
      assert Decimal(n) == DeviceName(n)[5..];
      DecimalInjective(m, n);
    }
  }

  /** `s.encode()` for text whose characters are all ASCII: one byte per character. */
  function Ascii(s: string): (r: seq<byte>)
    requires forall i :: 0 <= i < |s| ==> s[i] as int < 128
    ensures |r| == |s| && forall i :: 0 <= i < |s| ==> r[i] as int == s[i] as int
  {
    seq(|s|, i requires 0 <= i < |s| => s[i] as int as byte)
  }

  /** AD type Flags (section 1.3 of Part A of the Bluetooth Core Specification Supplement)
      and its value: LE General Discoverable Mode, BR/EDR Not Supported. */
  const AdFlags: byte := 0x01
  const FlagsValue: byte := 0x06
  /** AD type Complete Local Name (section 1.2 of Part A of the Supplement). */
  const AdCompleteLocalName: byte := 0x09

  /** `b"\x02\x01\x06" + struct.pack("<B", len(name) + 1) + b"\x09" + name.encode()`. */
  function AdvertisingData(n: int): (data: seq<byte>)
    requires 10000 <= n <= 99999
    ensures |data| == 15
    ensures data[..3] == [0x02, AdFlags, FlagsValue]
    ensures data[3] as int == |DeviceName(n)| + 1 && data[4] == AdCompleteLocalName
  {
    var name := DeviceName(n);
    DecimalFiveDigits(n);
    assert forall i :: 0 <= i < |name| ==> name[i] as int < 128 by {
      forall i | 0 <= i < |name| ensures name[i] as int < 128 {
        if i >= 5 {
          assert IsDigit(name[i]);
        }
      }
    }
    [0x02, AdFlags, FlagsValue] + [(|name| + 1) as byte, AdCompleteLocalName] + Ascii(name)
  }

  /** One AD structure: its type and data (section 11 of Vol 3 Part C of the Bluetooth Core
      Specification). */
  datatype AdStructure = AdStructure(adType: byte, adData: seq<byte>)

  /** The inverse reading of an advertising payload: each structure is a length octet, then
      that many octets of which the first is the AD type. A zero length ends the significant
      part. `None` when a structure runs past the end. */
  function ParseAd(data: seq<byte>): (r: Option<seq<AdStructure>>)
    decreases |data|
  {
    if data == [] || data[0] == 0 then Some([])
    else
      var len := data[0] as int;
      if 1 + len > |data| then None
      else
        match ParseAd(data[1 + len..])
        case None => None
        case Some(rest) => Some([AdStructure(data[1], data[2..1 + len])] + rest)
  }

  /** The advertised payload reads back as exactly two structures: the Flags with value
      0x06 and the device name as a Complete Local Name. */
  lemma AdvertisingDataParses(n: int)
    requires 10000 <= n <= 99999
    ensures var name := DeviceName(n);
      ParseAd(AdvertisingData(n)) == Some([AdStructure(AdFlags, [FlagsValue]), AdStructure(AdCompleteLocalName, Ascii(name))])
  {
    var name := DeviceName(n);
    var st := AdStructure(AdCompleteLocalName, Ascii(name));
    var tail := [(|Ascii(name)| + 1) as byte, AdCompleteLocalName] + Ascii(name) + [];
    ParseAdOne(AdCompleteLocalName, Ascii(name), [], []);
    assert [st] + [] == [st];
    ParseAdOne(AdFlags, [FlagsValue], tail, [st]);
    assert [AdStructure(AdFlags, [FlagsValue])] + [st] == [AdStructure(AdFlags, [FlagsValue]), st];
    AdvertisingDataShape(n);
    Regroup(0x02, AdFlags, FlagsValue, (|name| + 1) as byte, AdCompleteLocalName, Ascii(name));
  }

  /** The payload is the Flags structure followed by the name structure. */
  lemma AdvertisingDataShape(n: int)
    requires 10000 <= n <= 99999
    ensures var name := DeviceName(n);
      AdvertisingData(n) == [0x02, AdFlags, FlagsValue] + [(|name| + 1) as byte, AdCompleteLocalName] + Ascii(name)
  {
  }

  lemma Regroup(a: byte, b: byte, c: byte, d: byte, e: byte, p: seq<byte>)
    ensures [a, b, c] + [d, e] + p == [a, b] + [c] + ([d, e] + p + [])
  {
    assert [d, e] + p + [] == [d, e] + p;
  }

  /** A structure whose length octet counts its type and data, in front of a payload that
      parses, parses to that structure in front. */
  lemma ParseAdOne(t: byte, payload: seq<byte>, rest: seq<byte>, parsed: seq<AdStructure>)
    requires |payload| + 1 < 256 && ParseAd(rest) == Some(parsed)
    ensures ParseAd([(|payload| + 1) as byte, t] + payload + rest) == Some([AdStructure(t, payload)] + parsed)
  {
    var data := [(|payload| + 1) as byte, t] + payload + rest;
    assert data[1 + |payload| + 1..] == rest;
    assert data[2..1 + |payload| + 1] == payload;
  }
}

=== FILE: devices.dfy ===
/** `module/module.py` and the four drivers as the manager sees them: the class hierarchy
    `Module` ← `Sensor`/`Control` ← drivers, what each constructor does with its arguments,
    and `ModuleFactory.create_module`.

    Constructors are modelled by argument count, which is what decides them here: each
    `__init__` either receives as many positional arguments as it declares or raises
    `TypeError` before running its body. `Led.__init__` declares none and passes none to
    `Control.__init__`, which needs one; `Relay` and `TemperatureSensor` declare two and pass
    both to a parent that takes one. Only `GasSensor` and the three base classes construct. */
module Devices {
  import opened Wrappers
  import opened Text
  import opened Values
  import LedControl
  import RelayControl
  import TemperatureSensor
  import GasSensor

  datatype Class =
    | ModuleClass
    | SensorClass
    | ControlClass
    | LedClass
    | RelayClass
    | GasSensorClass
    | TemperatureSensorClass

  /** `type(module).__name__`. */
  function TypeName(c: Class): string {
    match c
    case ModuleClass => "Module"
    case SensorClass => "Sensor"
    case ControlClass => "Control"
    case LedClass => "Led"
    case RelayClass => "Relay"
    case GasSensorClass => "GasSensor"
    case TemperatureSensorClass => "TemperatureSensor"
  }

  lemma TypeNameInjective(a: Class, b: Class)
    ensures TypeName(a) == TypeName(b) ==> a == b
  {
  }

  /** `isinstance(module, Control)`: the classes that have `set_state`. */
  predicate IsControl(c: Class) {
    c == ControlClass || c == LedClass || c == RelayClass
  }

  /** `isinstance(module, Sensor)`. */
  predicate IsSensor(c: Class) {
    c == SensorClass || c == GasSensorClass || c == TemperatureSensorClass
  }

  /** The base each class's `__init__` delegates to. */
  function Parent(c: Class): Class
    requires c != ModuleClass
  {
    match c
    case SensorClass => ModuleClass
    case ControlClass => ModuleClass
    case LedClass => ControlClass
    case RelayClass => ControlClass
    case GasSensorClass => SensorClass
    case TemperatureSensorClass => SensorClass
  }

  function Depth(c: Class): nat {
    if c == ModuleClass then 0 else if c == SensorClass || c == ControlClass then 1 else 2
  }

  /** Positional parameters each `__init__` declares after `self`. */
  function Arity(c: Class): nat {
    match c
    case LedClass => 0
    case RelayClass => 2
    case TemperatureSensorClass => 2
    case _ => 1
  }

  /** The arguments each `__init__` forwards to `super().__init__`. */
  function SuperArgs(c: Class, args: seq<Option<int>>): seq<Option<int>>
    requires c != ModuleClass && |args| == Arity(c)
  {
    match c
    case LedClass => []
    case RelayClass => args
    case TemperatureSensorClass => args
    case _ => args
  }

  /** A live module: its class, `self.state` (None until a control stores one), the I2C
      address and the bus handle (`None` until `set_i2c`). */
  datatype Module = Module(cls: Class, state: Value, address: Option<int>, bus: Option<BusHandle>)

  /** `Module.__init__(self, i2c_address)`. */
  function NewModule(address: Option<int>): (m: Module)
    ensures m.state == Null && m.address == address && m.bus == None
  {
    Module(ModuleClass, Null, address, None)
  }

  /** `set_i2c(i2c)`: only the bus handle changes. */
  function SetI2c(m: Module, bus: Option<BusHandle>): (r: Module)
    ensures r.bus == bus
    ensures r.cls == m.cls && r.state == m.state && r.address == m.address
  {
    m.(bus := bus)
  }

  /** Calling class `c` with positional arguments `args` (a bus handle or an address each,
      `None` for Python's `None`). */
  function Construct(c: Class, args: seq<Option<int>>): (r: Result<Module, Fault>)
    ensures r.Success? ==> r.value.cls == c && r.value.bus == None && r.value.state == Null
    ensures r.Success? ==> |args| == 1 && r.value.address == args[0]
    decreases Depth(c)
  {
    if |args| != Arity(c) then Failure(TypeError("__init__() takes a different number of arguments"))
    else if c == ModuleClass then Success(NewModule(args[0]))
    else
      var sup := Construct(Parent(c), SuperArgs(c, args));
      if sup.Failure? then sup
      else
        match c
        case SensorClass => Success(sup.value.(cls := SensorClass))
        case ControlClass => Success(sup.value.(cls := ControlClass))
        case GasSensorClass => Success(sup.value.(cls := GasSensorClass, bus := None, address := args[0]))
        case _ => assert false; sup
  }

  /** Which classes can be constructed at all: the three bases and `GasSensor`, each with
      exactly one argument. `Led`, `Relay` and `TemperatureSensor` raise `TypeError` for every
      argument list, so the initial brightness of 0 and the relay's drive-off at the end of
      their constructors are never reached. */
  lemma ConstructOutcomes(c: Class, args: seq<Option<int>>)
    ensures Construct(c, args).Success? <==> |args| == 1 && !(c in {LedClass, RelayClass, TemperatureSensorClass})
    ensures c in {LedClass, RelayClass, TemperatureSensorClass} ==> Construct(c, args).error.TypeError?
  {
  }

  /** `ModuleFactory.create_module(module_type, i2c_address)`: `Led(i2c_address)` when the
      kind is "led" in any ASCII case, otherwise `ValueError`. */
  function CreateModule(kind: string, address: Option<int>): (r: Result<Module, Fault>)
    ensures Lower(kind) != "led" ==> r == Failure(ValueError("Invalid module type"))
    ensures Lower(kind) == "led" ==> r == Construct(LedClass, [address])
  {
    if Lower(kind) == "led" then Construct(LedClass, [address])
    else Failure(ValueError("Invalid module type"))
  }

  /** As written the factory never returns a module: `ValueError` for every kind but "led",
      `TypeError` from `Led(i2c_address)` for that one. */
  lemma CreateModuleAlwaysFails(kind: string, address: Option<int>)
    ensures CreateModule(kind, address).Failure?
    ensures CreateModule(kind, address).error.TypeError? <==> Lower(kind) == "led"
  {
    ConstructOutcomes(LedClass, [address]);
  }

  /** The spellings the factory treats as "led": exactly the three-letter case variants. */
  lemma LedSpellings(kind: string)
    ensures Lower(kind) == "led" <==>
      |kind| == 3 && (kind[0] == 'l' || kind[0] == 'L') && (kind[1] == 'e' || kind[1] == 'E')
      && (kind[2] == 'd' || kind[2] == 'D')
  {
    if |kind| == 3 {
      LowerCharIs(kind[0], 'l');
      LowerCharIs(kind[1], 'e');
      LowerCharIs(kind[2], 'd');
      ThreeChars(Lower(kind), 'l', 'e', 'd');
    }
  }

  lemma ThreeChars(r: string, a: char, b: char, c: char)
    requires |r| == 3
    ensures r == [a, b, c] <==> r[0] == a && r[1] == b && r[2] == c
  {
  }

  /** The brightness a LED module holds: its `state`, 0 before one is stored. */
  function Brightness(m: Module): real {
    match m.state
    case Float(b) => b
    case Int(i) => i as real
    case _ => 0.0
  }

  /** What a call on a module leaves behind: the module and the bus writes it issued. */
  datatype Effect = Effect(device: Module, writes: seq<Transfer>)

  /** `module.set_state(state)`. `Control.set_state` itself does nothing; the LED and relay
      overrides store and transmit; a sensor has no `set_state` and the call raises
      `AttributeError`. */
  function SetState(m: Module, request: Value): (r: Result<Effect, Fault>)
    ensures r.Failure? <==> !IsControl(m.cls)
    ensures r.Failure? ==> r.error.AttributeError?
    ensures r.Success? ==>
      r.value.device.cls == m.cls && r.value.device.address == m.address && r.value.device.bus == m.bus
    ensures m.cls == LedClass ==>
      r.value.device.state == (if ToFloat(request).Some? then Float(LedControl.ClampPercent(ToFloat(request).value)) else m.state)
    ensures m.cls == RelayClass ==> r.value.device.state == Int(if Truthy(request) then 1 else 0)
    ensures m.cls == ControlClass ==> r.value == Effect(m, [])
  {
    match m.cls
    case LedClass =>
      var o := LedControl.SetState(Brightness(m), m.bus, m.address, request);
      var state := if ToFloat(request).Some? then Float(o.brightness) else m.state;
      Success(Effect(m.(state := state), o.writes))
    case RelayClass =>
      var o := RelayControl.SetState(m.bus, m.address, request);
      Success(Effect(m.(state := Int(o.level)), o.writes))
    case ControlClass => Success(Effect(m, []))
    case _ => Failure(AttributeError("object has no attribute 'set_state'"))
  }

  /** The outside world a `get_state` sees: the sensor's reply and the battery ADC reading. */
  datatype Readings = Readings(reply: Result<(byte, byte), string>, batteryRaw: int)

  /** `module.get_state()`. The base classes inherit `Module.get_state`, which returns
      `None`. */
  function GetState(m: Module, env: Readings): (r: Report)
    ensures m.cls in {ModuleClass, SensorClass, ControlClass} <==> r == NoReport
    ensures m.cls == LedClass ==> r.LedState? && r.brightness == Brightness(m)
    ensures m.cls == RelayClass ==> r.RelayState? && (r.isOn <==> Truthy(m.state))
  {
    match m.cls
    case LedClass => LedControl.GetState(Brightness(m), env.batteryRaw)
    case RelayClass => RelayControl.GetState(if Truthy(m.state) then 1 else 0, env.batteryRaw)
    case GasSensorClass => GasSensor.GetState(m.bus, m.address, env.reply, env.batteryRaw)
    case TemperatureSensorClass => TemperatureSensor.GetState(m.bus, m.address, env.reply, env.batteryRaw)
    case _ => NoReport
  }

  /** `module.__del__()` as the manager calls it: the LED and the relay are driven off; the
      other classes have no `__del__`, the call raises and the manager ignores it. */
  function Shutdown(m: Module): (e: Effect)
    ensures e.device.cls == m.cls && e.device.address == m.address && e.device.bus == m.bus
    ensures m.cls == LedClass ==> e.device.state == Float(0.0)
    ensures m.cls == RelayClass ==> e.device.state == Int(0)
    ensures !(m.cls in {LedClass, RelayClass}) ==> e == Effect(m, [])
    ensures m.cls in {LedClass, RelayClass} && m.bus.Some? && m.address.Some? ==> |e.writes| == 1
  {
    match m.cls
    case LedClass =>
      var o := LedControl.Shutdown(Brightness(m), m.bus, m.address);
      Effect(m.(state := Float(o.brightness)), o.writes)
    case RelayClass =>
      var o := RelayControl.DriveOff(m.bus, m.address);
      Effect(m.(state := Int(o.level)), o.writes)
    case _ => Effect(m, [])
  }
}

=== FILE: gas_sensor.dfy ===
/** `module/sensors/gas.py`: the MQ-5 gas sensor behind a PCF8591-style converter. A read
    writes the control byte 0x40 (channel 0, DAC off), discards one byte (the previous
    conversion) and reports the next byte. */
module GasSensor {
  import opened Wrappers
  import opened Text
  import opened Values
  import Battery

  const ControlByte: byte := 0x40

  /** The transfers one `read_mq5_voltage` issues. */
  function ReadTransfers(address: int): (t: seq<Transfer>)
    ensures |t| == 3 && t[0] == WriteTo(address, [0x40])
    ensures t[1] == t[2] == ReadFrom(address, 1)
  {
    [WriteTo(address, [ControlByte]), ReadFrom(address, 1), ReadFrom(address, 1)]
  }

  /** `(value / 255) * 3.3`: the converter's byte as a voltage against a 3.3 V reference. */
  function Voltage(value: byte): (v: real)
    ensures 0.0 <= v <= 3.3
    ensures value == 0 ==> v == 0.0
    ensures value == 255 ==> v == 3.3
  {
    (value as real / 255.0) * 3.3
  }

  lemma VoltageMonotone(a: byte, b: byte)
    requires a <= b
    ensures Voltage(a) <= Voltage(b)
  {
  }

  /** `read_mq5_voltage()` on the two bytes the two one-byte reads return: the value is the
      second byte, the first is stale and ignored. */
  function ReadMq5(stale: byte, latest: byte): (r: (int, real))
    ensures r.0 == latest && r.1 == Voltage(latest)
  {
    (latest, Voltage(latest))
  }

  lemma StaleByteIgnored(s1: byte, s2: byte, latest: byte)
    ensures ReadMq5(s1, latest) == ReadMq5(s2, latest)
  {
  }

  /** `get_state()`: the raw converter byte as `gasValue` when a bus and an address are set,
      0 otherwise, and `{"error": msg}` when a transfer fails. */
  function GetState(bus: Option<BusHandle>, address: Option<int>, reply: Result<(byte, byte), string>, batteryRaw: int): (r: Report)
    ensures bus.None? || address.None? ==> r == GasState(0, Battery.Percentage(batteryRaw))
    ensures bus.Some? && address.Some? && reply.Failure? ==> r == ErrorState(reply.error)
    ensures bus.Some? && address.Some? && reply.Success? ==>
      r == GasState(reply.value.1, Battery.Percentage(batteryRaw))
    ensures r.GasState? ==> 0 <= r.gasValue <= 255 && 0 <= r.batteryLevel <= 100
  {
    if bus.Some? && address.Some? then
      match reply
      case Failure(msg) => ErrorState(msg)
      case Success((stale, latest)) => GasState(ReadMq5(stale, latest).0, Battery.Percentage(batteryRaw))
    else GasState(0, Battery.Percentage(batteryRaw))
  }
}

=== FILE: http_server.dfy ===
/** `wifi/http_server.py`: `handle_client` on one request. The request line is
    `method SP request-target SP HTTP-version` (section 3 of RFC 9112); the handler splits the
    first line on white space, routes on method and path, parses the query by hand and asks
    the manager for module state. A request it cannot take apart raises, and the connection is
    closed without a response. Decoding the JSON body is an input. MicroPython's `json`
    module raises `ValueError` on malformed text and has no `JSONDecodeError`, so matching
    the `except json.JSONDecodeError` clause raises `AttributeError`, which the outer handler
    catches: a malformed body closes the connection without a response. */
module HttpServer {
  import opened Wrappers
  import opened Text
  import opened Values
  import opened OrderedDict
  import opened Devices
  import opened Manager
  import Reporter

  /** What `json.loads(body)` makes of the body: not JSON; an object with or without a
      "state" member; a number, `true`, `false` or `null`, on which `"state" in data` raises
      `TypeError`; or an array or string, where `in` searches the elements or the text and
      `data["state"]` raises `TypeError`. */
  datatype Json =
    | NotJson
    | JsonObject(state: Option<Value>)
    | JsonScalar
    | JsonSequence(holdsState: bool)

  datatype Body =
    | Hello
    | ModuleTypes(types: seq<(string, string)>)
    | MissingUuid
    | ModuleState(report: Report)
    | StateChange(reply: StateReply)
    | MissingState
    | NotFound

  datatype Response = Response(status: int, body: Body)

  /** The manager state afterwards, the bus writes, and the response (`None` when the
      connection is closed without one). */
  datatype Handled = Handled(state: State, writes: seq<Transfer>, response: Option<Response>)

  /** `request.split("\r\n")[0].split()`. */
  function RequestLineTokens(request: string): seq<string> {
    SplitWhitespace(BeforeFirst(request, "\r\n"))
  }

  /** `path.split("?")[1] if "?" in path else ""`: the text between the first and the second
      '?', not everything after the first. */
  function Query(path: string): (q: string)
    ensures '?' !in q
  {
    if Contains(path, "?") then
      var pieces := Split(path, "?");
      SplitPieces(path, "?");
      NoCharNotContains(pieces[1], '?');
      pieces[1]
    else ""
  }

  /** `dict(param.split("=") for param in pieces if "=" in param)`: pieces without '=' are
      dropped, a later key overwrites an earlier one, and a piece with two or more '='
      raises `ValueError`. */
  function Params(pieces: seq<string>): (r: Result<Dict<string, string>, Fault>)
    ensures r.Success? ==> UniqueKeys(r.value)
    decreases |pieces|
  {
    if pieces == [] then Success([])
    else
      var init := Params(pieces[..|pieces| - 1]);
      var last := pieces[|pieces| - 1];
      if init.Failure? then init
      else if !Contains(last, "=") then init
      else
        var kv := Split(last, "=");
        if |kv| != 2 then Failure(ValueError("dictionary update sequence element has wrong length"))
        else
          PutShape(init.value, kv[0], kv[1]);
          Success(Put(init.value, kv[0], kv[1]))
  }

  /** Pieces without '=' never contribute. */
  lemma ParamsSkipsBare(pieces: seq<string>, bare: string)
    requires !Contains(bare, "=")
    ensures Params(pieces + [bare]) == Params(pieces)
  {
    assert (pieces + [bare])[..|pieces|] == pieces;
  }

  /** A query `k=v` with '&' and '=' in neither half yields exactly that parameter. */
  lemma SingleParam(k: string, v: string)
    requires '=' !in k && '=' !in v && '&' !in k && '&' !in v
    ensures Params(Split(k + "=" + v, "&")) == Success([(k, v)])
  {
    var piece := k + "=" + v;
    assert '&' !in piece;
    assert Join([piece], "&") == piece;
    SplitJoinChar([piece], '&');
    assert Join([k, v], "=") == piece;
    SplitJoinChar([k, v], '=');
    assert OccursAt(piece, "=", |k|) by {
      assert piece[|k|..|k| + 1] == "=";
    }
    var single: seq<string> := [piece];
    assert single[..0] == [];
  }

  /** `params.get("uuid")` counted as present only when truthy (`if not uuid`). */
  function UuidParam(path: string): Result<Option<string>, Fault> {
    match Params(Split(Query(path), "&"))
    case Failure(e) => Failure(e)
    case Success(d) => Success(match Get(d, "uuid") case Some(u) => if u != "" then Some(u) else None case None => None)
  }

  function Ok(body: Body): Response {
    Response(200, body)
  }

  /** The `/modules` body: every live identity with its type name, in table order. */
  function ModuleTypesOf(t: Table): (r: seq<(string, string)>)
    ensures |r| == |t| && forall i :: 0 <= i < |t| ==> r[i] == (t[i].0, TypeName(t[i].1.cls))
  {
    seq(|t|, i requires 0 <= i < |t| => (t[i].0, TypeName(t[i].1.cls)))
  }

  /** `handle_client` on the decoded request text. */
  function Handle(s: State, request: string, env: Readings, decode: string -> Json): (r: Handled)
    ensures request == "" ==> r == Handled(s, [], None)
    ensures |RequestLineTokens(request)| != 3 ==> r == Handled(s, [], None)
    ensures r.response.Some? ==> r.response.value.status in {200, 400, 404}
    ensures r.state != s ==> r.response.Some? && r.response.value.body.StateChange?
    ensures var toks := RequestLineTokens(request);
      request != "" && |toks| == 3 && toks[0] == "GET" && toks[1] == "/test" ==>
        r == Handled(s, [], Some(Ok(Hello)))
    ensures var toks := RequestLineTokens(request);
      request != "" && |toks| == 3 && toks[0] == "GET" && toks[1] == "/modules" ==>
        r == Handled(s, [], Some(Ok(ModuleTypes(ModuleTypesOf(s.table)))))
    ensures var toks := RequestLineTokens(request);
      request != "" && |toks| == 3 && !(toks[0] in {"GET", "POST"}) ==>
        r == Handled(s, [], Some(Response(404, NotFound)))
    ensures var toks := RequestLineTokens(request);
      request != "" && |toks| == 3 && toks[0] == "POST" && toks[1] in {"/test", "/modules"} ==>
        r == Handled(s, [], Some(Response(404, NotFound)))
    ensures var toks := RequestLineTokens(request);
      request != "" && |toks| == 3 && toks[0] in {"GET", "POST"} && StartsWith(toks[1], "/module/state") ==>
        && (UuidParam(toks[1]).Failure? ==> r == Handled(s, [], None))
        && (UuidParam(toks[1]) == Success(None) ==> r == Handled(s, [], Some(Response(400, MissingUuid))))
  {
    if request == "" then Handled(s, [], None)
    else
      var toks := RequestLineTokens(request);
      if |toks| != 3 then Handled(s, [], None)
      else
        var verb := toks[0];
        var path := toks[1];
        if verb == "GET" && path == "/test" then Handled(s, [], Some(Ok(Hello)))
        else if verb == "GET" && path == "/modules" then
          Handled(s, [], Some(Ok(ModuleTypes(ModuleTypesOf(s.table)))))
        else if (verb == "GET" || verb == "POST") && StartsWith(path, "/module/state") then
          match UuidParam(path)
          case Failure(_) => Handled(s, [], None)
          case Success(None) => Handled(s, [], Some(Response(400, MissingUuid)))
          case Success(Some(id)) =>
            if verb == "GET" then Handled(s, [], Some(Ok(ModuleState(GetModuleState(s, id, env)))))
            else
              match decode(AfterFirst(request, "\r\n\r\n"))
              case NotJson => Handled(s, [], None)
              case JsonScalar => Handled(s, [], None)
              case JsonSequence(holdsState) =>
                if holdsState then Handled(s, [], None) else Handled(s, [], Some(Response(400, MissingState)))
              case JsonObject(None) => Handled(s, [], Some(Response(400, MissingState)))
              case JsonObject(Some(v)) =>
                var (step, reply) := SetModuleState(s, id, v);
                Handled(step.state, step.writes, Some(Ok(StateChange(reply))))
        else Handled(s, [], Some(Response(404, NotFound)))
  }

  /** A request line `method SP target SP version` followed by CRLF splits back into its
      three parts when none of them is empty or holds white space. */
  lemma RequestLineParses(m: string, t: string, v: string, rest: string)
    requires |m| > 0 && |t| > 0 && |v| > 0 && NoSpace(m) && NoSpace(t) && NoSpace(v)
    ensures RequestLineTokens(m + " " + t + " " + v + "\r\n" + rest) == [m, t, v]
  {
    var line := m + " " + t + " " + v;
    RequestLineClean(m, t, v);
    BeforeFirstClean(line, "\r\n", rest);
    JoinThree(m, t, v);
    WordsThree(m, t, v);
    SplitWhitespaceJoin([m, t, v]);
  }

  lemma RequestLineClean(m: string, t: string, v: string)
    requires NoSpace(m) && NoSpace(t) && NoSpace(v)
    ensures '\r' !in m + " " + t + " " + v
  {
    assert IsSpace('\r');
    assert '\r' !in m && '\r' !in t && '\r' !in v;
  }

  lemma JoinThree(m: string, t: string, v: string)
    ensures Join([m, t, v], " ") == m + " " + t + " " + v
  {
    assert [m, t, v][1..] == [t, v] && [t, v][1..] == [v];
    assert Join([v], " ") == v;
    assert Join([t, v], " ") == t + " " + Join([v], " ");
  }

  lemma WordsThree(m: string, t: string, v: string)
    requires |m| > 0 && |t| > 0 && |v| > 0 && NoSpace(m) && NoSpace(t) && NoSpace(v)
    ensures Words([m, t, v])
  {
    WordsCons(v, []);
    WordsCons(t, [v]);
    WordsCons(m, [t, v]);
    assert [m] + ([t] + [v]) == [m, t, v];
  }

  /** The query is the text between the first and second '?'. */
  lemma QueryOfPath(p: string, q: string)
    requires '?' !in p && '?' !in q
    ensures Query(Join([p, q], "?")) == q
  {
    SplitJoinChar([p, q], '?');
  }

  /** Whatever follows a second '?' is not part of the query. */
  lemma QueryDropsAfterSecond(p: string, q: string, x: string)
    requires '?' !in p && '?' !in q && '?' !in x
    ensures Query(Join([p, q, x], "?")) == q
  {
    SplitJoinChar([p, q, x], '?');
  }

  /** `/module/state?uuid=U`, the path a client asks for module `U` with. */
  function StatePathOf(id: string): string {
    "/module/state" + "?" + ("uuid" + "=" + id)
  }

  /** The path `/module/state?uuid=U` has no white space, is routed to the state handler and
      carries the identity `U`. */
  lemma StatePath(id: string)
    requires |id| > 0 && NoSpace(id) && '?' !in id && '&' !in id && '=' !in id
    ensures var path := StatePathOf(id);
      && NoSpace(path) && StartsWith(path, "/module/state")
      && UuidParam(path) == Success(Some(id))
  {
    StatePathWord(id);
    StatePathRoutes(id);
    StatePathUuid(id);
  }

  lemma StatePathWord(id: string)
    requires NoSpace(id)
    ensures NoSpace(StatePathOf(id))
  {
    assert NoSpace("/module/state?uuid=");
    NoSpaceConcat("/module/state?uuid=", id);
    assert StatePathOf(id) == "/module/state?uuid=" + id;
  }

  lemma StatePathRoutes(id: string)
    ensures StartsWith(StatePathOf(id), "/module/state")
  {
    assert StatePathOf(id)[..|"/module/state"|] == "/module/state";
  }

  lemma StatePathUuid(id: string)
    requires '?' !in id && '&' !in id && '=' !in id && |id| > 0
    ensures UuidParam(StatePathOf(id)) == Success(Some(id))
  {
    var query := "uuid" + "=" + id;
    assert '?' !in query;
    assert Join(["/module/state", query], "?") == StatePathOf(id) by {
      assert ["/module/state", query][1..] == [query];
    }
    QueryOfPath("/module/state", query);
    SingleParam("uuid", id);
  }

  /** A GET whose path starts with `/module/state` and carries a uuid answers 200 with the
      module's state and changes nothing. */
  lemma GetStateRoute(s: State, request: string, id: string, env: Readings, decode: string -> Json)
    requires var toks := RequestLineTokens(request);
      |toks| == 3 && toks[0] == "GET" && StartsWith(toks[1], "/module/state")
      && UuidParam(toks[1]) == Success(Some(id))
    ensures Handle(s, request, env, decode) == Handled(s, [], Some(Ok(ModuleState(GetModuleState(s, id, env)))))
  {
    StateRouteIsNotOther(RequestLineTokens(request)[1]);
  }

  /** A path under `/module/state` is neither `/test` nor `/modules`. */
  lemma StateRouteIsNotOther(path: string)
    requires StartsWith(path, "/module/state")
    ensures path != "/test" && path != "/modules"
  {
    assert path[..13] == "/module/state";
    assert path[1] == 'm' && path[2] == 'o';
  }

  /** A POST to `/module/state` with a uuid: a body that is not JSON, a scalar, or an array
      or string that holds "state" closes the connection without a response; an object,
      array or string without "state" answers 400; and an object with "state" lets the
      manager's `set_module_state` decide the new state and the 200 reply. Only the last
      case can change anything. */
  lemma PostStateRoute(s: State, request: string, id: string, env: Readings, decode: string -> Json)
    requires var toks := RequestLineTokens(request);
      |toks| == 3 && toks[0] == "POST" && StartsWith(toks[1], "/module/state")
      && UuidParam(toks[1]) == Success(Some(id))
    ensures var body := decode(AfterFirst(request, "\r\n\r\n"));
      var r := Handle(s, request, env, decode);
      && (body == NotJson || body == JsonScalar || body == JsonSequence(true) ==> r == Handled(s, [], None))
      && (body == JsonObject(None) || body == JsonSequence(false) ==>
            r == Handled(s, [], Some(Response(400, MissingState))))
      && (body.JsonObject? && body.state.Some? ==>
            var sub := SetModuleState(s, id, body.state.value);
            r == Handled(sub.0.state, sub.0.writes, Some(Ok(StateChange(sub.1)))))
  {
  }

  /** Any GET or POST whose path is not `/test`, `/modules` or under `/module/state` answers
      404 and changes nothing. */
  lemma UnknownRoute(s: State, request: string, env: Readings, decode: string -> Json)
    requires var toks := RequestLineTokens(request);
      |toks| == 3 && toks[1] != "/test" && toks[1] != "/modules" && !StartsWith(toks[1], "/module/state")
    ensures Handle(s, request, env, decode) == Handled(s, [], Some(Response(404, NotFound)))
  {
  }

  /** End to end: `GET /module/state?uuid=U HTTP/1.1` answers 200 with the module's state
      for any non-empty identity free of '?', '&', '=' and white space. */
  lemma GetStateRequest(s: State, id: string, rest: string, env: Readings, decode: string -> Json)
    requires |id| > 0 && NoSpace(id) && '?' !in id && '&' !in id && '=' !in id
    ensures var path := StatePathOf(id);
      Handle(s, "GET" + " " + path + " " + "HTTP/1.1" + "\r\n" + rest, env, decode).response ==
        Some(Ok(ModuleState(GetModuleState(s, id, env))))
  {
    var path := StatePathOf(id);
    StatePath(id);
    LiteralsAreWords();
    RequestLineParses("GET", path, "HTTP/1.1", rest);
    GetStateRoute(s, "GET" + " " + path + " " + "HTTP/1.1" + "\r\n" + rest, id, env, decode);
  }

  /** The methods and the version the firmware uses hold no white space. */
  lemma LiteralsAreWords()
    ensures NoSpace("GET") && NoSpace("POST") && NoSpace("HTTP/1.1")
  {
    assert NoSpace("GET");
    assert NoSpace("POST");
    assert NoSpace("HTTP/1.1");
  }

  /** The report the board sends to the central server has a request line this handler
      would accept: `POST`, the endpoint, `HTTP/1.1`, for any endpoint without white space. */
  lemma ReportRequestLineParses(host: string, endpoint: string, json: string)
    requires |endpoint| > 0 && NoSpace(endpoint)
    ensures RequestLineTokens(Reporter.RequestText(host, endpoint, json)) == ["POST", endpoint, "HTTP/1.1"]
  {
    var rest := Reporter.Headers(host, |json|) + json;
    LiteralsAreWords();
    assert Reporter.RequestText(host, endpoint, json) == "POST" + " " + endpoint + " " + "HTTP/1.1" + "\r\n" + rest;
    RequestLineParses("POST", endpoint, "HTTP/1.1", rest);
  }

  /** In particular the report to `/rasberry/Peripheral/refreshPeripherals`. */
  lemma ReportEndpointParses(host: string, json: string)
    ensures RequestLineTokens(Reporter.RequestText(host, Reporter.Endpoint, json)) ==
      ["POST", Reporter.Endpoint, "HTTP/1.1"]
  {
    EndpointIsWord();
    ReportRequestLineParses(host, Reporter.Endpoint, json);
  }

  lemma EndpointIsWord()
    ensures |Reporter.Endpoint| > 0 && NoSpace(Reporter.Endpoint)
  {
    assert NoSpace(Reporter.Endpoint);
  }
}

=== FILE: identity.dfy ===
/** Module identities and the persisted registry (`modules.json`) of
    `module/module_manager.py`. An identity is 16 lower-case hex digits drawn from 8 random
    bytes; the registry file holds the list of active modules and a map from
    `"{kind}_{address}"` to the identity first issued for that pair, so a module unplugged and
    plugged back in keeps its identity. Older files hold only the list; they are migrated on
    load. */
module Identity {
  import opened Wrappers
  import opened Text

  /** `generate_uuid()` on the 8 bytes `os.urandom(8)` returned. */
  function GenerateUuid(entropy: seq<byte>): (id: string)
    requires |entropy| == 8
    ensures |id| == 16
    ensures forall i :: 0 <= i < |id| ==> IsLowerHex(id[i])
    ensures UnHex(id) == Some(entropy)
  {
    UnHexOfHex(entropy);
    Hex(entropy)
  }

  /** Distinct random draws give distinct identities. */
  lemma UuidInjective(a: seq<byte>, b: seq<byte>)
    requires |a| == 8 && |b| == 8 && a != b
    ensures GenerateUuid(a) != GenerateUuid(b)
  {
    HexInjective(a, b);
  }

  /** `f"{module_type}_{i2c_address}"`. */
  function RegistryKey(kind: string, address: int): string {
    kind + "_" + IntText(address)
  }

  /** The position of the last `c` in `s`. */
  function LastIndexOf(s: string, c: char): (r: Option<nat>)
    ensures r.Some? ==> r.value < |s| && s[r.value] == c
  {
    if s == [] then None
    else if s[|s| - 1] == c then Some(|s| - 1)
    else LastIndexOf(s[..|s| - 1], c)
  }

  lemma {:induction false} LastIndexOfAppend(k: string, c: char, t: string)
    requires c !in t
    ensures LastIndexOf(k + [c] + t, c) == Some(|k|)
    decreases |t|
  {
    var s := k + [c] + t;
    if t != [] {
      assert s[..|s| - 1] == k + [c] + t[..|t| - 1];
      assert s[|s| - 1] == t[|t| - 1];
      LastIndexOfAppend(k, c, t[..|t| - 1]);
    }
  }

  /** Distinct (kind, address) pairs get distinct registry keys, even for kinds that contain
      '_', because the address text never does. */
  lemma RegistryKeyInjective(k1: string, a1: int, k2: string, a2: int)
    ensures RegistryKey(k1, a1) == RegistryKey(k2, a2) ==> k1 == k2 && a1 == a2
  {
    var s1 := RegistryKey(k1, a1);
    var s2 := RegistryKey(k2, a2);
    if s1 == s2 {
      LastIndexOfAppend(k1, '_', IntText(a1));
      LastIndexOfAppend(k2, '_', IntText(a2));
      assert |k1| == |k2|;
      assert k1 == s1[..|k1|] == s2[..|k2|] == k2;
      assert IntText(a1) == s1[|k1| + 1..] == s2[|k2| + 1..] == IntText(a2);
      IntTextInjective(a1, a2);
    }
  }

  /** One element of `active_modules`. */
  datatype ModuleRecord = ModuleRecord(uuid: string, moduleType: string, address: int)

  function RecordKey(r: ModuleRecord): string {
    RegistryKey(r.moduleType, r.address)
  }

  /** The registry document: `active_modules` and `module_registry`. */
  datatype Registry = Registry(active: seq<ModuleRecord>, index: map<string, string>)

  const Empty := Registry([], map[])

  /** What `json.load` finds in `modules.json`. */
  datatype Stored =
    | Missing
    | Unreadable
    | LegacyList(records: seq<ModuleRecord>)
    | Document(registry: Registry)

  /** What a write of the file comes to. `open(..., "w")` either fails and leaves the file as
      it was, or empties it; `json.dump` then either writes the whole document or fails part
      of the way through (the flash is full, say), leaving a prefix that is not JSON. */
  datatype WriteOutcome = Writes | OpenFails | DumpFails

  /** The file and what writing it comes to. */
  datatype Disk = Disk(file: Stored, write: WriteOutcome)

  /** No later record shares the key of record `i`. */
  predicate IsLastWithKey(records: seq<ModuleRecord>, i: nat)
    requires i < |records|
  {
    forall j :: i < j < |records| ==> RecordKey(records[j]) != RecordKey(records[i])
  }

  /** The index a legacy list migrates to: one key per record, and for a key that occurs
      more than once the identity of its last record, since later assignments overwrite. */
  function Migrate(records: seq<ModuleRecord>): (index: map<string, string>)
    ensures index.Keys == set r | r in records :: RecordKey(r)
    ensures forall i :: 0 <= i < |records| && IsLastWithKey(records, i) ==>
      index[RecordKey(records[i])] == records[i].uuid
  {
    if records == [] then map[]
    else
      var init := records[..|records| - 1];
      var last := records[|records| - 1];
      assert records == init + [last];
      MigrateStep(init, last, Migrate(init));
      Migrate(init)[RecordKey(last) := last.uuid]
  }

  /** Appending one record to a legacy list extends its index by that record's key. */
  lemma MigrateStep(init: seq<ModuleRecord>, last: ModuleRecord, index: map<string, string>)
    requires index.Keys == (set r | r in init :: RecordKey(r))
    requires forall k :: 0 <= k < |init| && IsLastWithKey(init, k) ==> index[RecordKey(init[k])] == init[k].uuid
    ensures var after := index[RecordKey(last) := last.uuid];
      var records := init + [last];
      && after.Keys == (set r | r in records :: RecordKey(r))
      && forall i :: 0 <= i < |records| && IsLastWithKey(records, i) ==> after[RecordKey(records[i])] == records[i].uuid
  {
    MigrateKeysStep(init, last, index);
    forall i | 0 <= i < |init + [last]| && IsLastWithKey(init + [last], i)
      ensures index[RecordKey(last) := last.uuid][RecordKey((init + [last])[i])] == (init + [last])[i].uuid
    {
      MigrateLastStep(init, last, index, i);
    }
  }

  /** One more record: its key now maps to its identity, and the keys are those of the earlier
      records and this one. */
  lemma MigrateKeysStep(init: seq<ModuleRecord>, last: ModuleRecord, index: map<string, string>)
    requires index.Keys == (set r | r in init :: RecordKey(r))
    ensures index[RecordKey(last) := last.uuid].Keys == (set r | r in init + [last] :: RecordKey(r))
  {
    assert forall r :: r in init + [last] <==> r in init || r == last;
  }

  /** A record that is last with its key after one more record is appended was last among the
      earlier ones, unless it is the appended one: either way its entry is its identity. */
  lemma MigrateLastStep(init: seq<ModuleRecord>, last: ModuleRecord, index: map<string, string>, i: nat)
    requires index.Keys == (set r | r in init :: RecordKey(r))
    requires forall k :: 0 <= k < |init| && IsLastWithKey(init, k) ==> index[RecordKey(init[k])] == init[k].uuid
    requires i < |init + [last]| && IsLastWithKey(init + [last], i)
    ensures index[RecordKey(last) := last.uuid][RecordKey((init + [last])[i])] == (init + [last])[i].uuid
  {
    var records := init + [last];
    if i < |init| {
      assert records[i] == init[i];
      assert RecordKey(records[|init|]) != RecordKey(records[i]);
      assert IsLastWithKey(init, i) by {
        forall j | i < j < |init| ensures RecordKey(init[j]) != RecordKey(init[i]) {
          assert init[j] == records[j];
        }
      }
    }
  }

  /** `_load_module_registry()`. */
  function Load(file: Stored): (r: Registry)
    ensures file.Missing? || file.Unreadable? ==> r == Empty
    ensures file.LegacyList? ==>
      r.active == file.records && r.index.Keys == set m | m in file.records :: RecordKey(m)
    ensures file.Document? ==> r == file.registry
  {
    match file
    case Missing => Empty
    case Unreadable => Empty
    case LegacyList(records) => Registry(records, Migrate(records))
    case Document(registry) => registry
  }

  /** `_save_module_registry(registry)`: a failed write is reported and ignored. A failure to
      open leaves the file as it was; a dump that fails after the open leaves a truncated
      file, which no longer parses. */
  function Save(disk: Disk, registry: Registry): (d: Disk)
    ensures d.write == disk.write
    ensures disk.write.OpenFails? ==> d == disk
    ensures disk.write.DumpFails? ==> d.file == Unreadable
  {
    match disk.write
    case Writes => Disk(Document(registry), Writes)
    case OpenFails => disk
    case DumpFails => Disk(Unreadable, DumpFails)
  }

  /** What is saved is what is loaded next. */
  lemma LoadSaved(disk: Disk, registry: Registry)
    requires disk.write.Writes?
    ensures Load(Save(disk, registry).file) == registry
  {
  }

  /** A dump that fails after the open loses the whole registry: the next load is empty,
      whatever was saved before. */
  lemma TruncatedSaveLoadsEmpty(disk: Disk, registry: Registry)
    requires disk.write.DumpFails?
    ensures Load(Save(disk, registry).file) == Empty
  {
  }

  /** `clear_module_registry()`: the registry loads empty afterwards unless the file could not
      be opened, which leaves it as it was. */
  function Clear(disk: Disk): (d: Disk)
    ensures !disk.write.OpenFails? ==> Load(d.file) == Empty
    ensures disk.write.OpenFails? ==> d == disk
  {
    Save(disk, Empty)
  }

  /** `_get_or_create_uuid(kind, address)`: the identity and the disk afterwards. A key
      already in the registry returns its identity and writes nothing; otherwise a new
      identity is drawn from `entropy`, exactly that key is added and the registry saved. */
  function GetOrCreateUuid(disk: Disk, kind: string, address: int, entropy: seq<byte>): (r: (string, Disk))
    requires |entropy| == 8
    ensures var reg := Load(disk.file); var key := RegistryKey(kind, address);
      key in reg.index ==> r == (reg.index[key], disk)
    ensures var reg := Load(disk.file); var key := RegistryKey(kind, address);
      key !in reg.index ==>
        r.0 == GenerateUuid(entropy) && r.1 == Save(disk, reg.(index := reg.index[key := r.0]))
  {
    var reg := Load(disk.file);
    var key := RegistryKey(kind, address);
    if key in reg.index then (reg.index[key], disk)
    else
      var id := GenerateUuid(entropy);
      (id, Save(disk, reg.(index := reg.index[key := id])))
  }

  /** On a miss the saved registry differs from the loaded one by exactly the new key: the
      active list and every other key are unchanged. */
  lemma GetOrCreateAddsOneKey(disk: Disk, kind: string, address: int, entropy: seq<byte>)
    requires |entropy| == 8 && disk.write.Writes?
    requires RegistryKey(kind, address) !in Load(disk.file).index
    ensures var before := Load(disk.file);
      var after := Load(GetOrCreateUuid(disk, kind, address, entropy).1.file);
      && after.active == before.active
      && after.index.Keys == before.index.Keys + {RegistryKey(kind, address)}
      && (forall k :: k in before.index ==> after.index[k] == before.index[k])
  {
  }

  /** Identities are stable: once issued on a disk whose writes go through, asking again for the same
      (kind, address) returns the same identity, whatever the new random draw, and writes
      nothing. */
  lemma GetOrCreateStable(disk: Disk, kind: string, address: int, e1: seq<byte>, e2: seq<byte>)
    requires |e1| == 8 && |e2| == 8 && disk.write.Writes?
    ensures var (id1, d1) := GetOrCreateUuid(disk, kind, address, e1);
      GetOrCreateUuid(d1, kind, address, e2) == (id1, d1)
  {
  }

  /** Once a new identity's save fails part of the way through, every stored identity is
      forgotten: the next request for any pair, one issued before included, draws a fresh
      identity. */
  lemma TruncatedSaveForgetsIdentities(disk: Disk, k1: string, a1: int, k2: string, a2: int, e1: seq<byte>, e2: seq<byte>)
    requires |e1| == 8 && |e2| == 8 && disk.write.DumpFails?
    requires RegistryKey(k1, a1) !in Load(disk.file).index
    ensures var (_, d1) := GetOrCreateUuid(disk, k1, a1, e1);
      GetOrCreateUuid(d1, k2, a2, e2).0 == GenerateUuid(e2)
  {
  }

  /** A pair issued on a disk whose writes go through does not disturb the identity of another pair. */
  lemma GetOrCreateSeparatesPairs(disk: Disk, k1: string, a1: int, k2: string, a2: int, e1: seq<byte>, e2: seq<byte>)
    requires |e1| == 8 && |e2| == 8 && disk.write.Writes?
    requires RegistryKey(k2, a2) in Load(disk.file).index
    requires k1 != k2 || a1 != a2
    ensures var (_, d1) := GetOrCreateUuid(disk, k1, a1, e1);
      GetOrCreateUuid(d1, k2, a2, e2).0 == GetOrCreateUuid(disk, k2, a2, e2).0
  {
    RegistryKeyInjective(k1, a1, k2, a2);
  }
}

=== FILE: led_control.dfy ===
/** `module/controls/led.py`: the I2C LED. `set_state` converts the request with `float()`,
    clamps it into [0, 100] percent, stores it, and when a bus and an address are present
    sends the command byte 0x01 followed by the 8-bit PWM duty. A request `float()` rejects
    raises before anything is stored, and the error is swallowed. */
module LedControl {
  import opened Wrappers
  import opened Text
  import opened Values
  import Battery

  const CmdSetPwm: byte := 0x01

  /** Python `max(0, min(100, x))`. */
  function ClampPercent(x: real): (r: real)
    ensures 0.0 <= r <= 100.0
    ensures 0.0 <= x <= 100.0 ==> r == x
    ensures x < 0.0 ==> r == 0.0
    ensures x > 100.0 ==> r == 100.0
  {
    if x > 100.0 then 100.0 else if x < 0.0 then 0.0 else x
  }

  /** `int((state / 100.0) * 255)` for a stored (already clamped) brightness. */
  function Pwm(state: real): (duty: int)
    requires 0.0 <= state <= 100.0
    ensures 0 <= duty <= 255
    ensures duty as real <= state * 2.55 < duty as real + 1.0
  {
    Trunc((state / 100.0) * 255.0)
  }

  /** A brighter setting never gives a smaller duty; 0 % is off and 100 % is full on. */
  lemma PwmMonotone(a: real, b: real)
    requires 0.0 <= a <= b <= 100.0
    ensures Pwm(a) <= Pwm(b)
    ensures Pwm(0.0) == 0 && Pwm(100.0) == 255
  {
  }

  /** What one `set_state` call leaves behind: the stored brightness and the bus writes. */
  datatype Outcome = Outcome(brightness: real, writes: seq<Transfer>)

  /** `Led.set_state(state)` on a LED whose stored brightness is `current`. */
  function SetState(current: real, bus: Option<BusHandle>, address: Option<int>, request: Value): (o: Outcome)
    ensures ToFloat(request).None? ==> o.brightness == current && o.writes == []
    ensures ToFloat(request).Some? ==> o.brightness == ClampPercent(ToFloat(request).value)
    ensures bus.None? || address.None? ==> o.writes == []
    ensures ToFloat(request).Some? && bus.Some? && address.Some? ==>
      o.writes == [WriteTo(address.value, [CmdSetPwm, Pwm(o.brightness)])]
  {
    match ToFloat(request)
    case None => Outcome(current, [])
    case Some(f) =>
      var state := ClampPercent(f);
      var duty := Pwm(state);
      if bus.Some? && address.Some? then Outcome(state, [WriteTo(address.value, [CmdSetPwm, duty])])
      else Outcome(state, [])
  }

  /** Setting the same request twice stores the same brightness as setting it once, and the
      stored brightness is the request itself whenever the request is already a percentage. */
  lemma SetStateIdempotent(current: real, bus: Option<BusHandle>, address: Option<int>, request: Value)
    ensures var once := SetState(current, bus, address, request);
      SetState(once.brightness, bus, address, request) == once
    ensures request.Float? && 0.0 <= request.r <= 100.0 ==>
      SetState(current, bus, address, request).brightness == request.r
  {
  }

  /** `get_state()`: the stored brightness and the battery level. */
  function GetState(brightness: real, batteryRaw: int): (r: Report)
    ensures r.LedState? && r.brightness == brightness
    ensures 0 <= r.batteryLevel <= 100
  {
    LedState(brightness, Battery.Percentage(batteryRaw))
  }

  /** `__del__`: drive the LED to 0 %; with a bus and address that is the write [0x01, 0]. */
  function Shutdown(current: real, bus: Option<BusHandle>, address: Option<int>): (o: Outcome)
    ensures o.brightness == 0.0
    ensures bus.Some? && address.Some? ==> o.writes == [WriteTo(address.value, [0x01, 0])]
    ensures bus.None? || address.None? ==> o.writes == []
  {
    SetState(current, bus, address, Int(0))
  }
}

=== FILE: manager.dfy ===
/** The module lifecycle manager of `module/module_manager.py`: a live table from identity to
    module (in insertion order, as a Python dict keeps it), the address-to-kind mapping, the
    set of addresses seen on the last bus scan, the registry file and the bus handle. Every
    operation is a transition from one `State` to the next. The factory the manager calls is
    a parameter, so that the effect of the manager's own logic can be stated for any
    factory; `Devices.CreateModule` is the factory as written. Randomness, the
    credentials file and the report to the central server are inputs and outputs of the
    transitions. */
module Manager {
  import opened Wrappers
  import opened Text
  import opened Values
  import opened OrderedDict
  import opened Devices
  import opened Identity

  type Table = Dict<string, Module>

  /** `ModuleFactory.create_module` as the manager calls it with `(kind, address)`. */
  type Factory = (string, Option<int>) -> Result<Module, Fault>

  /** `i2c_module_mapping` at start-up. */
  const DefaultMapping: Dict<int, string> :=
    [(0x48, "Relay"), (0x4C, "GasSensor"), (0x49, "Led"), (0x4F, "TemperatureSensor")]

  const DefaultScanInterval: real := 1.0

  datatype State = State(
    table: Table,
    mapping: Dict<int, string>,
    known: set<int>,
    disk: Disk,
    scanInterval: real,
    bus: Option<BusHandle>)

  /** The shape every reachable state has: both dictionaries have unique keys. */
  predicate Valid(s: State) {
    UniqueKeys(s.table) && UniqueKeys(s.mapping)
  }

  /** What `get_central_ip()` finds: no readable credentials file, or the file's
      `central_ip` entry (`None` when the key is absent). */
  datatype CentralIp = NoCredentials | Central(host: Option<string>)

  /** One element of the report to the central server. */
  datatype Peripheral = Peripheral(peripheralType: string, uuid: string)

  /** The call `refresh_modules_of_server(central_ip, 5002, endpoint, modules)`. */
  datatype Refresh = Refresh(host: Option<string>, peripherals: seq<Peripheral>)

  /** The outcome of one manager operation: the next state, the bus writes it issued and the
      report it started, if any. */
  datatype Step = Step(state: State, writes: seq<Transfer>, refresh: Option<Refresh>)

  function Unchanged(s: State): Step {
    Step(s, [], None)
  }

  /** Two states agree on everything but the table and the registry file. */
  predicate SameConfig(a: State, b: State) {
    a.mapping == b.mapping && a.known == b.known && a.scanInterval == b.scanInterval && a.bus == b.bus
  }

  // ---------------------------------------------------------------------------------------
  // Lookups

  /** Some live module has address `a` (the `hasattr(module, 'i2c_address') and
      module.i2c_address == a` scan). */
  predicate InUse(t: Table, a: int) {
    exists i :: 0 <= i < |t| && t[i].1.address == Some(a)
  }

  /** The position of the first live module with address `a`. */
  function FirstAt(t: Table, a: int): (r: Option<nat>)
    ensures r.Some? ==> r.value < |t| && t[r.value].1.address == Some(a)
    ensures r.Some? ==> forall j :: 0 <= j < r.value ==> t[j].1.address != Some(a)
    ensures r.None? <==> !InUse(t, a)
  {
    if t == [] then None
    else if t[0].1.address == Some(a) then Some(0)
    else
      var rest := FirstAt(t[1..], a);
      assert forall j :: 1 <= j < |t| ==> t[j] == t[1..][j - 1];
      if rest.None? then None else Some(rest.value + 1)
  }

  /** Every live module has an address (saving formats each with `:02x`). */
  predicate AllAddressed(t: Table) {
    forall i :: 0 <= i < |t| ==> t[i].1.address.Some?
  }

  /** No two live modules share an address. */
  predicate DistinctAddresses(t: Table) {
    forall i, j :: 0 <= i < j < |t| && t[i].1.address.Some? ==> t[i].1.address != t[j].1.address
  }

  // ---------------------------------------------------------------------------------------
  // Saving and reporting

  /** The `active_modules` list `save_modules` builds, in table order. */
  function Records(t: Table): (r: seq<ModuleRecord>)
    requires AllAddressed(t)
    ensures |r| == |t|
    ensures forall i :: 0 <= i < |t| ==>
      r[i] == ModuleRecord(t[i].0, TypeName(t[i].1.cls), t[i].1.address.value)
  {
    seq(|t|, i requires 0 <= i < |t| => ModuleRecord(t[i].0, TypeName(t[i].1.cls), t[i].1.address.value))
  }

  /** The list `refresh_modules_of_server` sends, one element per live module in table
      order. */
  function Peripherals(t: Table): (r: seq<Peripheral>)
    ensures |r| == |t|
    ensures forall i :: 0 <= i < |t| ==> r[i] == Peripheral(TypeName(t[i].1.cls), t[i].0)
  {
    seq(|t|, i requires 0 <= i < |t| => Peripheral(TypeName(t[i].1.cls), t[i].0))
  }

  /** `save_modules()`: rewrite `active_modules` from the live table, keeping the identity
      index, then report to the central server. A module without an address makes the
      formatting raise before anything is written, and a missing credentials file stops the
      report; both are caught. */
  function SaveModules(s: State, ip: CentralIp): (r: (Disk, Option<Refresh>))
    ensures !AllAddressed(s.table) ==> r == (s.disk, None)
    ensures AllAddressed(s.table) ==>
      r.0 == Save(s.disk, Load(s.disk.file).(active := Records(s.table)))
    ensures r.1.Some? <==> AllAddressed(s.table) && ip.Central?
    ensures r.1.Some? ==> r.1.value == Refresh(ip.host, Peripherals(s.table))
  {
    if !AllAddressed(s.table) then (s.disk, None)
    else
      var registry := Load(s.disk.file);
      var disk := Save(s.disk, registry.(active := Records(s.table)));
      match ip
      case NoCredentials => (disk, None)
      case Central(host) => (disk, Some(Refresh(host, Peripherals(s.table))))
  }

  /** `save_modules()` on `s` as a step. */
  function SaveStep(s: State, writes: seq<Transfer>, ip: CentralIp): (r: Step)
    ensures r.state == s.(disk := SaveModules(s, ip).0)
    ensures r.writes == writes && r.refresh == SaveModules(s, ip).1
  {
    var (disk, refresh) := SaveModules(s, ip);
    Step(s.(disk := disk), writes, refresh)
  }

  // ---------------------------------------------------------------------------------------
  // Loading

  /** One record as `load_modules` restores it: the factory's module with the bus attached,
      or nothing when the factory raises. */
  function Restore(r: ModuleRecord, f: Factory, bus: Option<BusHandle>): Option<Module> {
    match f(r.moduleType, Some(r.address))
    case Success(m) => Some(SetI2c(m, bus))
    case Failure(_) => None
  }

  /** The loop of `load_modules` over `records`, applied to table `t`. */
  function LoadRecords(t: Table, records: seq<ModuleRecord>, f: Factory, bus: Option<BusHandle>): Table
    decreases |records|
  {
    if records == [] then t
    else
      var prior := LoadRecords(t, records[..|records| - 1], f, bus);
      var last := records[|records| - 1];
      match Restore(last, f, bus)
      case Some(m) => Put(prior, last.uuid, m)
      case None => prior
  }

  predicate DistinctUuids(records: seq<ModuleRecord>) {
    forall i, j :: 0 <= i < j < |records| ==> records[i].uuid != records[j].uuid
  }

  /** Each record with a distinct identity lands under that identity when the factory
      accepts it and leaves the table's entry alone when it does not; other identities are
      untouched. */
  lemma LoadRecordsGet(t: Table, records: seq<ModuleRecord>, f: Factory, bus: Option<BusHandle>)
    requires DistinctUuids(records)
    ensures forall i :: 0 <= i < |records| ==>
      Get(LoadRecords(t, records, f, bus), records[i].uuid) ==
        (if Restore(records[i], f, bus).Some? then Restore(records[i], f, bus) else Get(t, records[i].uuid))
    ensures forall u :: (forall i :: 0 <= i < |records| ==> records[i].uuid != u) ==>
      Get(LoadRecords(t, records, f, bus), u) == Get(t, u)
  {
    forall i | 0 <= i < |records|
      ensures Get(LoadRecords(t, records, f, bus), records[i].uuid) ==
        (if Restore(records[i], f, bus).Some? then Restore(records[i], f, bus) else Get(t, records[i].uuid))
    {
      LoadRecordsAt(t, records, f, bus, i);
    }
    forall u | forall i :: 0 <= i < |records| ==> records[i].uuid != u
      ensures Get(LoadRecords(t, records, f, bus), u) == Get(t, u)
    {
      LoadRecordsOther(t, records, f, bus, u);
    }
  }

  /** An identity no record carries keeps its entry. */
  lemma {:induction false} LoadRecordsOther(t: Table, records: seq<ModuleRecord>, f: Factory, bus: Option<BusHandle>, u: string)
    requires forall i :: 0 <= i < |records| ==> records[i].uuid != u
    ensures Get(LoadRecords(t, records, f, bus), u) == Get(t, u)
    decreases |records|
  {
    if records != [] {
      var init := records[..|records| - 1];
      assert forall i :: 0 <= i < |init| ==> init[i] == records[i];
      LoadRecordsOther(t, init, f, bus, u);
    }
  }

  /** The record at position `i` lands under its identity, or leaves that entry alone. */
  lemma {:induction false} LoadRecordsAt(t: Table, records: seq<ModuleRecord>, f: Factory, bus: Option<BusHandle>, i: nat)
    requires DistinctUuids(records) && i < |records|
    ensures Get(LoadRecords(t, records, f, bus), records[i].uuid) ==
      (if Restore(records[i], f, bus).Some? then Restore(records[i], f, bus) else Get(t, records[i].uuid))
    decreases |records|
  {
    var init := records[..|records| - 1];
    var last := records[|records| - 1];
    assert forall k :: 0 <= k < |init| ==> init[k] == records[k];
    if i == |records| - 1 {
      assert forall k :: 0 <= k < |init| ==> init[k].uuid != last.uuid;
      LoadRecordsOther(t, init, f, bus, last.uuid);
    } else {
      assert DistinctUuids(init);
      assert records[i].uuid != last.uuid;
      LoadRecordsAt(t, init, f, bus, i);
    }
  }

  /** `load_modules()`: rebuild modules from the saved `active_modules` list, skipping the
      records the factory rejects, then report. An empty list returns at once. Nothing is
      saved. */
  function LoadModules(s: State, f: Factory, ip: CentralIp): (r: Step)
    ensures Load(s.disk.file).active == [] ==> r == Unchanged(s)
    ensures r.state == s.(table := r.state.table) && r.writes == []
    ensures Load(s.disk.file).active != [] ==>
      r.state.table == LoadRecords(s.table, Load(s.disk.file).active, f, s.bus)
      && r.refresh == (if ip.Central? then Some(Refresh(ip.host, Peripherals(r.state.table))) else None)
  {
    var active := Load(s.disk.file).active;
    if active == [] then Unchanged(s)
    else
      var table := LoadRecords(s.table, active, f, s.bus);
      var refresh := if ip.Central? then Some(Refresh(ip.host, Peripherals(table))) else None;
      Step(s.(table := table), [], refresh)
  }

  /** What a table restores to after a reboot: each module the factory accepts, rebuilt by
      the factory from its kind and address. */
  function Restored(t: Table, f: Factory, bus: Option<BusHandle>, u: string): Option<Module> {
    match Get(t, u)
    case None => None
    case Some(m) =>
      match f(TypeName(m.cls), m.address)
      case Success(x) => Some(SetI2c(x, bus))
      case Failure(_) => None
  }

  /** Save then load: a freshly booted manager reading what `save_modules` wrote has, under
      each identity, exactly the module the factory rebuilds from the saved kind and
      address, and nothing under identities that were not live or whose kind the factory
      rejects. */
  lemma SaveLoadRoundTrip(s: State, boot: State, f: Factory, ip: CentralIp, ip2: CentralIp, u: string)
    requires UniqueKeys(s.table) && AllAddressed(s.table) && s.disk.write.Writes?
    requires boot.table == [] && boot.disk == SaveModules(s, ip).0
    ensures Get(LoadModules(boot, f, ip2).state.table, u) == Restored(s.table, f, boot.bus, u)
  {
    var recs := Records(s.table);
    SavedRecords(s, ip);
    RecordsDistinct(s.table);
    if recs == [] {
      assert s.table == [];
    } else if u in Keys(s.table) {
      var m := Get(s.table, u).value;
      var i :| 0 <= i < |s.table| && s.table[i] == (u, m);
      assert recs[i].uuid == u;
      LoadRecordsAt([], recs, f, boot.bus, i);
    } else {
      forall i | 0 <= i < |recs| ensures recs[i].uuid != u {
        assert s.table[i] in s.table;
      }
      LoadRecordsOther([], recs, f, boot.bus, u);
    }
  }

  lemma SavedRecords(s: State, ip: CentralIp)
    requires AllAddressed(s.table) && s.disk.write.Writes?
    ensures Load(SaveModules(s, ip).0.file).active == Records(s.table)
  {
  }

  lemma RecordsDistinct(t: Table)
    requires UniqueKeys(t) && AllAddressed(t)
    ensures DistinctUuids(Records(t))
  {
  }

  /** With the factory as written, loading restores nothing. */
  lemma LoadAsWrittenRestoresNothing(s: State, ip: CentralIp)
    ensures LoadModules(s, CreateModule, ip).state.table == s.table
  {
    var active := Load(s.disk.file).active;
    LoadRecordsFailing(s.table, active, CreateModule, s.bus);
  }

  lemma {:induction false} LoadRecordsFailing(t: Table, records: seq<ModuleRecord>, f: Factory, bus: Option<BusHandle>)
    requires forall k, a :: f(k, a).Failure?
    ensures LoadRecords(t, records, f, bus) == t
    decreases |records|
  {
    if records != [] {
      LoadRecordsFailing(t, records[..|records| - 1], f, bus);
    }
  }

  // ---------------------------------------------------------------------------------------
  // Creation

  /** The call `ModuleFactory.create_module(module_type, ModuleManager.i2c, i2c_address)` in
      `create_module_by_i2c_address`: the factory takes two arguments and is given three, so
      it raises `TypeError` whatever the kind. */
  function AsWrittenByAddressCall(kind: string, address: int): (r: Result<Module, Fault>)
    ensures r.Failure? && r.error.TypeError?
  {
    Failure(TypeError("create_module() takes 2 positional arguments but 3 were given"))
  }

  /** `create_module_by_i2c_address(a)` with `call` standing for the factory call. Nothing
      changes when a live module already has the address, when the address has no kind, or
      when the call raises; otherwise the module goes into the table under its registry
      identity and the table is saved. */
  function CreateByAddress(s: State, a: int, call: (string, int) -> Result<Module, Fault>, entropy: seq<byte>, ip: CentralIp): (r: Step)
    requires |entropy| == 8
    ensures SameConfig(s, r.state)
    ensures InUse(s.table, a) || Get(s.mapping, a).None? ==> r == Unchanged(s)
    ensures !InUse(s.table, a) && Get(s.mapping, a).Some? && call(Get(s.mapping, a).value, a).Failure? ==>
      r == Unchanged(s)
    ensures !InUse(s.table, a) && Get(s.mapping, a).Some? && call(Get(s.mapping, a).value, a).Success? ==>
      var kind := Get(s.mapping, a).value;
      var (id, disk) := GetOrCreateUuid(s.disk, kind, a, entropy);
      r == SaveStep(s.(table := Put(s.table, id, call(kind, a).value), disk := disk), [], ip)
  {
    if InUse(s.table, a) then Unchanged(s)
    else
      match Get(s.mapping, a)
      case None => Unchanged(s)
      case Some(kind) =>
        match call(kind, a)
        case Failure(_) => Unchanged(s)
        case Success(m) =>
          var (id, disk) := GetOrCreateUuid(s.disk, kind, a, entropy);
          SaveStep(s.(table := Put(s.table, id, m), disk := disk), [], ip)
  }

  /** As written, detecting a device never adds a module, never touches the registry and
      never reports. */
  lemma CreateByAddressAsWritten(s: State, a: int, entropy: seq<byte>, ip: CentralIp)
    requires |entropy| == 8
    ensures CreateByAddress(s, a, AsWrittenByAddressCall, entropy, ip) == Unchanged(s)
  {
  }

  /** A module created by address is the only one at that address, so creation by address
      keeps addresses distinct, and it keeps the table's keys unique. */
  lemma CreateByAddressKeepsInvariants(s: State, a: int, call: (string, int) -> Result<Module, Fault>, entropy: seq<byte>, ip: CentralIp)
    requires |entropy| == 8 && Valid(s) && DistinctAddresses(s.table)
    requires forall k :: call(k, a).Success? ==> call(k, a).value.address == Some(a)
    ensures var r := CreateByAddress(s, a, call, entropy, ip);
      Valid(r.state) && DistinctAddresses(r.state.table)
  {
    var r := CreateByAddress(s, a, call, entropy, ip);
    if !InUse(s.table, a) && Get(s.mapping, a).Some? && call(Get(s.mapping, a).value, a).Success? {
      var kind := Get(s.mapping, a).value;
      var m := call(kind, a).value;
      var (id, disk) := GetOrCreateUuid(s.disk, kind, a, entropy);
      PutShape(s.table, id, m);
      PutKeepsDistinct(s.table, id, m, a);
    }
  }

  /** Putting a module whose address no live module has keeps addresses distinct. */
  lemma {:induction false} PutKeepsDistinct(t: Table, id: string, m: Module, a: int)
    requires DistinctAddresses(t) && !InUse(t, a) && m.address == Some(a)
    ensures DistinctAddresses(Put(t, id, m))
    decreases |t|
  {
    if t != [] {
      DistinctTail(t, a);
      if t[0].0 != id {
        PutKeepsDistinct(t[1..], id, m, a);
        PutEntries(t[1..], id, m);
        assert forall p :: p in t[1..] ==> p in t;
        assert Put(t, id, m) == [t[0]] + Put(t[1..], id, m);
        ConsKeepsDistinct(t[0], Put(t[1..], id, m));
      } else {
        ConsKeepsDistinct((id, m), t[1..]);
      }
    }
  }

  /** The tail of a table keeps distinct addresses and leaves unused an address the table does
      not use. */
  lemma DistinctTail(t: Table, a: int)
    requires t != [] && DistinctAddresses(t) && !InUse(t, a)
    ensures DistinctAddresses(t[1..]) && !InUse(t[1..], a)
    ensures forall p :: p in t[1..] ==> p.1.address != Some(a) && (t[0].1.address.Some? ==> p.1.address != t[0].1.address)
  {
    forall i, j | 0 <= i < j < |t[1..]| && t[1..][i].1.address.Some?
      ensures t[1..][i].1.address != t[1..][j].1.address
    {
      assert t[1..][i] == t[i + 1] && t[1..][j] == t[j + 1];
    }
    forall p | p in t[1..]
      ensures p.1.address != Some(a) && (t[0].1.address.Some? ==> p.1.address != t[0].1.address)
    {
      var k :| 0 <= k < |t[1..]| && t[1..][k] == p;
      assert t[k + 1] == p;
    }
  }

  /** An entry whose address no later entry has, in front of a table with distinct
      addresses, keeps them distinct. */
  lemma ConsKeepsDistinct(x: (string, Module), p: Table)
    requires DistinctAddresses(p)
    requires x.1.address.Some? ==> forall e :: e in p ==> e.1.address != x.1.address
    ensures DistinctAddresses([x] + p)
  {
    var r := [x] + p;
    forall i, j | 0 <= i < j < |r| && r[i].1.address.Some? ensures r[i].1.address != r[j].1.address {
      if i == 0 {
        assert r[j] == p[j - 1] && r[j] in p;
      } else {
        assert r[i] == p[i - 1] && r[j] == p[j - 1];
      }
    }
  }

  /** Every entry of `Put(t, k, v)` is `(k, v)` or an entry of `t`. */
  lemma {:induction false} PutEntries<K(!new), V(!new)>(t: Dict<K, V>, k: K, v: V)
    ensures forall p :: p in Put(t, k, v) ==> p == (k, v) || p in t
    decreases |t|
  {
    if t != [] && t[0].0 != k {
      PutEntries(t[1..], k, v);
      assert Put(t, k, v) == [t[0]] + Put(t[1..], k, v);
      assert forall p :: p in t[1..] ==> p in t;
    }
  }

  /** The first address the mapping gives to `kind` that no live module uses, in mapping
      order. The kind must match exactly. */
  function FirstFree(mapping: Dict<int, string>, t: Table, kind: string): (r: Option<int>)
    ensures r.Some? ==> (r.value, kind) in mapping && !InUse(t, r.value)
    ensures r.None? ==> forall a :: (a, kind) in mapping ==> InUse(t, a)
  {
    if mapping == [] then None
    else if mapping[0].1 == kind && !InUse(t, mapping[0].0) then Some(mapping[0].0)
    else
      var rest := FirstFree(mapping[1..], t, kind);
      assert mapping == [mapping[0]] + mapping[1..];
      rest
  }

  /** `create_module(kind, address)` for manual creation: the step and the returned module.
      Without an address the first free mapped address for the kind is used, and when there
      is none nothing happens. The factory's module gets the bus, goes into the table under
      its registry identity, and the table is saved. An explicit address is used as given,
      whether or not a live module already has it. */
  function Create(s: State, kind: string, address: Option<int>, f: Factory, entropy: seq<byte>, ip: CentralIp): (r: (Step, Option<Module>))
    requires |entropy| == 8
    ensures SameConfig(s, r.0.state)
    ensures address.None? && FirstFree(s.mapping, s.table, kind).None? ==> r == (Unchanged(s), None)
    ensures r.1.None? ==> r.0 == Unchanged(s)
    ensures r.1.Some? ==>
      var a := if address.Some? then address.value else FirstFree(s.mapping, s.table, kind).value;
      var (id, disk) := GetOrCreateUuid(s.disk, kind, a, entropy);
      && f(kind, Some(a)).Success?
      && r.1.value == SetI2c(f(kind, Some(a)).value, s.bus)
      && r.0 == SaveStep(s.(table := Put(s.table, id, r.1.value), disk := disk), [], ip)
    ensures address.Some? && f(kind, address).Success? ==> r.1.Some?
    ensures (address.None? && FirstFree(s.mapping, s.table, kind).Some? &&
             f(kind, FirstFree(s.mapping, s.table, kind)).Success?) ==> r.1.Some?
  {
    var chosen := if address.Some? then address else FirstFree(s.mapping, s.table, kind);
    match chosen
    case None => (Unchanged(s), None)
    case Some(a) =>
      match f(kind, Some(a))
      case Failure(_) => (Unchanged(s), None)
      case Success(m) =>
        var created := SetI2c(m, s.bus);
        var (id, disk) := GetOrCreateUuid(s.disk, kind, a, entropy);
        (SaveStep(s.(table := Put(s.table, id, created), disk := disk), [], ip), Some(created))
  }

  /** Creation at the first free mapped address keeps the table's keys unique and addresses
      distinct, and a created module is then live at that address. */
  lemma CreateKeepsInvariants(s: State, kind: string, f: Factory, entropy: seq<byte>, ip: CentralIp)
    requires |entropy| == 8 && Valid(s) && DistinctAddresses(s.table)
    requires forall a :: f(kind, Some(a)).Success? ==> f(kind, Some(a)).value.address == Some(a)
    ensures var r := Create(s, kind, None, f, entropy, ip);
      && Valid(r.0.state) && DistinctAddresses(r.0.state.table)
      && (r.1.Some? ==> InUse(r.0.state.table, FirstFree(s.mapping, s.table, kind).value))
  {
    var r := Create(s, kind, None, f, entropy, ip);
    if r.1.Some? {
      var a := FirstFree(s.mapping, s.table, kind).value;
      var (id, disk) := GetOrCreateUuid(s.disk, kind, a, entropy);
      PutShape(s.table, id, r.1.value);
      PutKeepsDistinct(s.table, id, r.1.value, a);
      PutInUse(s.table, id, r.1.value, a);
    }
  }

  /** A module put into a table is live at its address. */
  lemma PutInUse(t: Table, id: string, m: Module, a: int)
    requires m.address == Some(a)
    ensures InUse(Put(t, id, m), a)
  {
    var r := Put(t, id, m);
    assert (id, m) in r;
    var i :| 0 <= i < |r| && r[i] == (id, m);
    assert r[i].1.address == Some(a);
  }

  /** As written, manual creation never adds a module. */
  lemma CreateAsWritten(s: State, kind: string, address: Option<int>, entropy: seq<byte>, ip: CentralIp)
    requires |entropy| == 8
    ensures Create(s, kind, address, CreateModule, entropy, ip) == (Unchanged(s), None)
  {
    var chosen := if address.Some? then address else FirstFree(s.mapping, s.table, kind);
    if chosen.Some? {
      CreateModuleAlwaysFails(kind, Some(chosen.value));
    }
  }

  /** An explicit address is not checked: with a factory that accepts, a second module is
      created at an address a live module already occupies, and the table then holds two
      modules at that address. */
  lemma CreateExplicitAddressCanDuplicate(s: State, i: nat, kind: string, a: int, f: Factory, entropy: seq<byte>, ip: CentralIp)
    requires |entropy| == 8
    requires i < |s.table| && s.table[i].1.address == Some(a)
    requires f(kind, Some(a)).Success? && f(kind, Some(a)).value.address == Some(a)
    requires GetOrCreateUuid(s.disk, kind, a, entropy).0 !in Keys(s.table)
    ensures var r := Create(s, kind, Some(a), f, entropy, ip);
      && r.1.Some?
      && |r.0.state.table| == |s.table| + 1
      && !DistinctAddresses(r.0.state.table)
  {
    var r := Create(s, kind, Some(a), f, entropy, ip);
    var id := GetOrCreateUuid(s.disk, kind, a, entropy).0;
    PutShape(s.table, id, r.1.value);
    var t := r.0.state.table;
    assert t == s.table + [(id, r.1.value)];
    assert t[i].1.address == t[|s.table|].1.address == Some(a);
  }

  // ---------------------------------------------------------------------------------------
  // Removal

  /** `remove_module(uuid)`: an unknown identity changes nothing and saves nothing; a known
      one is taken out of the table, shut down (`__del__`) and the table saved. */
  function Remove(s: State, id: string, ip: CentralIp): (r: Step)
    ensures SameConfig(s, r.state)
    ensures Get(s.table, id).None? ==> r == Unchanged(s)
    ensures Get(s.table, id).Some? ==>
      r == SaveStep(s.(table := Pop(s.table, id)), Shutdown(Get(s.table, id).value).writes, ip)
  {
    match Get(s.table, id)
    case None => Unchanged(s)
    case Some(m) => SaveStep(s.(table := Pop(s.table, id)), Shutdown(m).writes, ip)
  }

  /** `remove_module_by_i2c_address(a)`: the first live module at `a`, in table order, is
      taken out, shut down and the table saved; without one nothing changes. */
  function RemoveByAddress(s: State, a: int, ip: CentralIp): (r: Step)
    ensures SameConfig(s, r.state)
    ensures !InUse(s.table, a) ==> r == Unchanged(s)
    ensures InUse(s.table, a) ==>
      var i := FirstAt(s.table, a).value;
      r == SaveStep(s.(table := Pop(s.table, s.table[i].0)), Shutdown(s.table[i].1).writes, ip)
  {
    match FirstAt(s.table, a)
    case None => Unchanged(s)
    case Some(i) => SaveStep(s.(table := Pop(s.table, s.table[i].0)), Shutdown(s.table[i].1).writes, ip)
  }

  /** Removing by address takes out exactly one module, the first at that address, and
      leaves every other identity's module and every other part of the state as it was. */
  lemma RemoveByAddressRemovesOne(s: State, a: int, ip: CentralIp)
    requires Valid(s) && InUse(s.table, a)
    ensures var i := FirstAt(s.table, a).value;
      var t := RemoveByAddress(s, a, ip).state.table;
      && |t| == |s.table| - 1
      && Get(t, s.table[i].0).None?
      && (forall u :: u != s.table[i].0 ==> Get(t, u) == Get(s.table, u))
      && UniqueKeys(t)
  {
    var i := FirstAt(s.table, a).value;
    assert s.table[i] in s.table;
  }

  /** With distinct addresses, removal by address leaves no module at that address. */
  lemma RemoveByAddressClears(s: State, a: int, ip: CentralIp)
    requires Valid(s) && DistinctAddresses(s.table)
    ensures !InUse(RemoveByAddress(s, a, ip).state.table, a)
  {
    if InUse(s.table, a) {
      PopFirstAtClears(s.table, a);
    }
  }

  lemma PopFirstAtClears(t: Table, a: int)
    requires UniqueKeys(t) && DistinctAddresses(t) && InUse(t, a)
    ensures !InUse(Pop(t, t[FirstAt(t, a).value].0), a)
  {
    var i := FirstAt(t, a).value;
    var r := Pop(t, t[i].0);
    PopEntries(t, t[i].0);
    forall j | 0 <= j < |r| ensures r[j].1.address != Some(a) {
      assert r[j] in r;
      var k :| 0 <= k < |t| && t[k] == r[j];
      if k > i {
        assert t[i].1.address != t[k].1.address;
      }
    }
  }

  /** A table whose entries all come from a table with distinct addresses, and whose keys
      are unique, has distinct addresses too. */
  lemma SubTableKeepsDistinct(r: Table, d: Table)
    requires UniqueKeys(r) && DistinctAddresses(d)
    requires forall p :: p in r ==> p in d
    ensures DistinctAddresses(r)
    ensures forall b :: InUse(r, b) ==> InUse(d, b)
  {
    forall i, j | 0 <= i < j < |r| && r[i].1.address.Some? ensures r[i].1.address != r[j].1.address {
      assert r[i] in r && r[j] in r;
      var k :| 0 <= k < |d| && d[k] == r[i];
      var l :| 0 <= l < |d| && d[l] == r[j];
      assert r[i].0 != r[j].0;
      assert k != l;
      if k < l {
        assert d[k].1.address != d[l].1.address;
      } else {
        assert d[l].1.address.Some? ==> d[l].1.address != d[k].1.address;
      }
    }
    forall b | InUse(r, b) ensures InUse(d, b) {
      var i :| 0 <= i < |r| && r[i].1.address == Some(b);
      assert r[i] in r;
      var k :| 0 <= k < |d| && d[k] == r[i];
    }
  }

  /** Removal keeps the state valid and addresses distinct, and frees addresses only. */
  lemma RemoveByAddressKeepsInvariants(s: State, a: int, ip: CentralIp)
    requires Valid(s) && DistinctAddresses(s.table)
    ensures var t := RemoveByAddress(s, a, ip).state.table;
      && Valid(RemoveByAddress(s, a, ip).state) && DistinctAddresses(t)
      && (forall b :: InUse(t, b) ==> InUse(s.table, b))
  {
    var t := RemoveByAddress(s, a, ip).state.table;
    SubTableKeepsDistinct(t, s.table);
  }

  // ---------------------------------------------------------------------------------------
  // State access and configuration

  /** `get_module(uuid)`. */
  function GetModule(s: State, id: string): (r: Option<Module>)
    ensures r.Some? <==> id in Keys(s.table)
    ensures r.Some? ==> (id, r.value) in s.table
  {
    Get(s.table, id)
  }

  /** `get_module_state(uuid)`. */
  function GetModuleState(s: State, id: string, env: Readings): (r: Report)
    ensures id !in Keys(s.table) ==> r == ErrorState("Module not found")
    ensures id in Keys(s.table) ==> r == GetState(Get(s.table, id).value, env)
  {
    match Get(s.table, id)
    case None => ErrorState("Module not found")
    case Some(m) => GetState(m, env)
  }

  /** The body `set_module_state` returns. */
  datatype StateReply = NewState(state: Value) | NotSupported

  const NotSupportedMessage := "Invalid module or module does not support state changes"

  /** `set_module_state(uuid, state)`: only a live `Control` module is asked to change; it
      is updated in place and the request is echoed back. A missing identity or a sensor
      gets the error body and nothing changes. */
  function SetModuleState(s: State, id: string, request: Value): (r: (Step, StateReply))
    ensures r.1.NewState? <==> id in Keys(s.table) && IsControl(Get(s.table, id).value.cls)
    ensures r.1.NewState? ==> r.1.state == request
    ensures r.1.NotSupported? ==> r.0 == Unchanged(s)
    ensures r.1.NewState? ==>
      var e := SetState(Get(s.table, id).value, request).value;
      r.0 == Step(s.(table := Put(s.table, id, e.device)), e.writes, None)
  {
    match Get(s.table, id)
    case None => (Unchanged(s), NotSupported)
    case Some(m) =>
      if IsControl(m.cls) then
        var e := SetState(m, request).value;
        (Step(s.(table := Put(s.table, id, e.device)), e.writes, None), NewState(request))
      else (Unchanged(s), NotSupported)
  }

  /** A state change keeps the table's identities, their order and every other module. */
  lemma SetModuleStateKeepsTable(s: State, id: string, request: Value)
    requires Valid(s)
    ensures var t := SetModuleState(s, id, request).0.state.table;
      && Keys(t) == Keys(s.table) && |t| == |s.table| && UniqueKeys(t)
      && (forall u :: u != id ==> Get(t, u) == Get(s.table, u))
  {
    if id in Keys(s.table) && IsControl(Get(s.table, id).value.cls) {
      PutShape(s.table, id, SetState(Get(s.table, id).value, request).value.device);
    }
  }

  /** `add_i2c_mapping(a, kind)`. */
  function AddMapping(s: State, a: int, kind: string): (r: State)
    ensures Get(r.mapping, a) == Some(kind)
    ensures forall b :: b != a ==> Get(r.mapping, b) == Get(s.mapping, b)
    ensures r == s.(mapping := r.mapping)
    ensures Valid(s) ==> Valid(r)
  {
    PutShape(s.mapping, a, kind);
    s.(mapping := Put(s.mapping, a, kind))
  }

  /** `set_i2c_scan_interval(x)`: never below 100 ms. */
  function SetScanInterval(s: State, x: real): (r: State)
    ensures r.scanInterval >= 0.1
    ensures x >= 0.1 ==> r.scanInterval == x
    ensures x < 0.1 ==> r.scanInterval == 0.1
    ensures r == s.(scanInterval := r.scanInterval)
  {
    s.(scanInterval := if x > 0.1 then x else 0.1)
  }

  /** `clear_module_registry()`. */
  function ClearRegistry(s: State): (r: State)
    ensures !s.disk.write.OpenFails? ==> Load(r.disk.file) == Empty
    ensures r == s.(disk := r.disk)
  {
    s.(disk := Clear(s.disk))
  }
}

=== FILE: ordered_dict.dfy ===
/** Python's `dict` keeps its entries in insertion order, and the firmware relies on that order
    (the first module found at an address is the one removed; the saved module list follows
    the table). A dictionary is therefore modelled as its sequence of entries; `Put` is
    `d[k] = v` (in place for an existing key, appended otherwise) and `Pop` is
    `d.pop(k, None)`. */
module OrderedDict {
  import opened Wrappers

  type Dict<K, V> = seq<(K, V)>

  function Keys<K(==), V(==)>(d: Dict<K, V>): set<K> {
    set p | p in d :: p.0
  }

  /** No key occurs twice: the shape every Python dict has. */
  predicate UniqueKeys<K(==), V>(d: Dict<K, V>) {
    forall i, j :: 0 <= i < j < |d| ==> d[i].0 != d[j].0
  }

  lemma KeysCons<K, V>(x: (K, V), d: Dict<K, V>)
    ensures Keys([x] + d) == {x.0} + Keys(d)
  {
    assert forall p :: p in [x] + d <==> p == x || p in d;
  }

  /** Unique keys: the first key does not recur in the tail, and the tail's keys are unique. */
  lemma UniqueTail<K, V>(d: Dict<K, V>)
    requires d != [] && UniqueKeys(d)
    ensures d[0].0 !in Keys(d[1..]) && UniqueKeys(d[1..])
  {
    forall p | p in d[1..] ensures p.0 != d[0].0 {
      var j :| 0 <= j < |d[1..]| && d[1..][j] == p;
      assert d[j + 1] == p;
    }
  }

  lemma UniqueCons<K, V>(x: (K, V), t: Dict<K, V>)
    requires x.0 !in Keys(t) && UniqueKeys(t)
    ensures UniqueKeys([x] + t)
  {
    var r := [x] + t;
    forall i, j | 0 <= i < j < |r| ensures r[i].0 != r[j].0 {
      if i == 0 {
        assert r[j] == t[j - 1];
        assert t[j - 1] in t;
      }
    }
  }

  /** `d.get(k)`. */
  function Get<K(==,!new), V(==,!new)>(d: Dict<K, V>, k: K): (r: Option<V>)
    ensures r.Some? <==> k in Keys(d)
    ensures r.Some? ==> (k, r.value) in d
    ensures UniqueKeys(d) ==> forall v :: (k, v) in d ==> r == Some(v)
  {
    if d == [] then None
    else
      KeysCons(d[0], d[1..]);
      assert d == [d[0]] + d[1..];
      if d[0].0 == k then Some(d[0].1) else Get(d[1..], k)
  }

  lemma GetCons<K(!new), V(!new)>(x: (K, V), t: Dict<K, V>, k: K)
    ensures Get([x] + t, k) == if x.0 == k then Some(x.1) else Get(t, k)
  {
    assert ([x] + t)[1..] == t;
  }

  /** `d[k] = v`: afterwards `k` maps to `v` and every other key maps to what it mapped to
      before. */
  function Put<K(==,!new), V(==,!new)>(d: Dict<K, V>, k: K, v: V): (r: Dict<K, V>)
    ensures Get(r, k) == Some(v)
    ensures forall k' :: k' != k ==> Get(r, k') == Get(d, k')
    ensures Keys(r) == Keys(d) + {k}
  {
    if d == [] then [(k, v)]
    else
      KeysCons(d[0], d[1..]);
      assert d == [d[0]] + d[1..];
      if d[0].0 == k then
        var r := [(k, v)] + d[1..];
        KeysCons((k, v), d[1..]);
        GetCons((k, v), d[1..], k);
        assert forall k' :: k' != k ==> Get(r, k') == Get(d, k') by {
          forall k' | k' != k ensures Get(r, k') == Get(d, k') {
            GetCons((k, v), d[1..], k');
            GetCons(d[0], d[1..], k');
          }
        }
        r
      else
        var t := Put(d[1..], k, v);
        var r := [d[0]] + t;
        KeysCons(d[0], t);
        GetCons(d[0], t, k);
        assert forall k' :: k' != k ==> Get(r, k') == Get(d, k') by {
          forall k' | k' != k ensures Get(r, k') == Get(d, k') {
            GetCons(d[0], t, k');
            GetCons(d[0], d[1..], k');
          }
        }
        r
  }

  /** `d[k] = v` keeps an existing key at its position and appends a new key at the end, so
      a dictionary's keys stay unique. */
  lemma {:induction false} PutShape<K(!new), V(!new)>(d: Dict<K, V>, k: K, v: V)
    ensures k !in Keys(d) ==> Put(d, k, v) == d + [(k, v)]
    ensures UniqueKeys(d) ==> UniqueKeys(Put(d, k, v))
    ensures UniqueKeys(d) && k in Keys(d) ==> |Put(d, k, v)| == |d|
  {
    if d != [] {
      KeysCons(d[0], d[1..]);
      assert d == [d[0]] + d[1..];
      if UniqueKeys(d) {
        UniqueTail(d);
      }
      if d[0].0 == k {
        if UniqueKeys(d) {
          UniqueCons((k, v), d[1..]);
        }
      } else {
        var t := Put(d[1..], k, v);
        PutShape(d[1..], k, v);
        if UniqueKeys(d) {
          UniqueCons(d[0], t);
        }
        assert k !in Keys(d) ==> [d[0]] + (d[1..] + [(k, v)]) == d + [(k, v)];
      }
    }
  }

  /** `d.pop(k, None)` with the popped entry discarded: the first entry with key `k` is
      removed and the others keep their order. With unique keys, `k` is then absent and every
      other key maps to what it mapped to before. */
  function Pop<K(==,!new), V(==,!new)>(d: Dict<K, V>, k: K): (r: Dict<K, V>)
    ensures k !in Keys(d) ==> r == d
    ensures k in Keys(d) ==> |r| == |d| - 1
    ensures forall p :: p in r ==> p in d
    ensures forall k' :: k' != k ==> Get(r, k') == Get(d, k')
    ensures UniqueKeys(d) ==> UniqueKeys(r) && Get(r, k).None?
  {
    if d == [] then []
    else
      KeysCons(d[0], d[1..]);
      assert d == [d[0]] + d[1..];
      assert UniqueKeys(d) ==> d[0].0 !in Keys(d[1..]) && UniqueKeys(d[1..]) by {
        if UniqueKeys(d) {
          UniqueTail(d);
        }
      }
      if d[0].0 == k then d[1..]
      else
        var t := Pop(d[1..], k);
        KeysCons(d[0], t);
        assert UniqueKeys(d) ==> UniqueKeys([d[0]] + t) by {
          if UniqueKeys(d) {
            assert Keys(t) <= Keys(d[1..]);
            UniqueCons(d[0], t);
          }
        }
        [d[0]] + t
  }

  /** Popping the key that was just appended gives back the dictionary as it was. */
  lemma {:induction false} PopAppended<K(!new), V(!new)>(d: Dict<K, V>, k: K, v: V)
    requires k !in Keys(d)
    ensures Pop(d + [(k, v)], k) == d
  {
    if d == [] {
    } else {
      KeysCons(d[0], d[1..]);
      assert (d + [(k, v)])[1..] == d[1..] + [(k, v)];
      PopAppended(d[1..], k, v);
      assert [d[0]] + d[1..] == d;
    }
  }

  /** With unique keys, every entry left after popping `k` was in the dictionary and has
      another key. */
  lemma PopEntries<K(!new), V(!new)>(d: Dict<K, V>, k: K)
    requires UniqueKeys(d)
    ensures forall p :: p in Pop(d, k) ==> p in d && p.0 != k
  {
    var r := Pop(d, k);
    forall p | p in r ensures p.0 != k {
      assert p.0 in Keys(r);
    }
  }
}

=== FILE: port_led.dfy ===
/** `led.py`: the LED of the older, port-based firmware, driven by PWM on its port's first
    working pin. Unlike the I2C LED, `set_state` does not clamp: the stored state is whatever
    `float()` makes of the request, and the 16-bit duty is `int(state / 100 * 65535)`. */
module PortLed {
  import opened Wrappers
  import opened Values
  import opened Ports
  import Battery

  /** The LED: the identification pin of its port, the PWM pin it drives, its stored state
      and the last duty written to the PWM pin. */
  datatype Led = Led(portPin: int, pwmPin: int, state: real, duty: int)

  /** `int(state / 100 * 65535)`, truncated toward zero. */
  function Duty(state: real): (d: int)
    ensures 0.0 <= state <= 100.0 ==> 0 <= d <= 65535
    ensures 0.0 <= state ==> d as real <= state / 100.0 * 65535.0 < d as real + 1.0
  {
    Trunc(state / 100.0 * 65535.0)
  }

  /** A larger non-negative state never gives a smaller duty; 0 is off and 100 is full on. */
  lemma DutyMonotone(a: real, b: real)
    requires 0.0 <= a <= b
    ensures Duty(a) <= Duty(b)
    ensures Duty(0.0) == 0 && Duty(100.0) == 65535
  {
  }

  /** `float(state)` raising: `ValueError` for text, `TypeError` for everything else. */
  function FloatError(v: Value): Fault {
    if v.Str? then ValueError("could not convert string to float") else TypeError("can't convert to float")
  }

  /** `set_state(state)`: the stored state is `float(state)`, unclamped, and the duty follows
      it. When `float()` raises, nothing is stored and the exception propagates. */
  function SetState(led: Led, request: Value): (r: Result<Led, Fault>)
    ensures r.Success? <==> ToFloat(request).Some?
    ensures r.Success? ==>
      && r.value.state == ToFloat(request).value
      && r.value.duty == Duty(r.value.state)
      && r.value.portPin == led.portPin && r.value.pwmPin == led.pwmPin
  {
    match ToFloat(request)
    case None => Failure(FloatError(request))
    case Some(f) => Success(led.(state := f, duty := Duty(f)))
  }

  /** A request above 100 is stored as given, and its duty leaves the 16-bit range. */
  lemma SetStateDoesNotClamp(led: Led)
    ensures var r := SetState(led, Int(200));
      r.Success? && r.value.state == 200.0 && r.value.duty == 131070
  {
  }

  /** `Led(port)`: state 0 and duty 0 on the port's first working pin. A port without
      working pins makes `working_pins[0]` raise. */
  function Construct(port: Port): (r: Result<Led, Fault>)
    ensures r.Success? <==> |port.workingPins| > 0
    ensures r.Success? ==> r.value == Led(port.identificationPin, port.workingPins[0], 0.0, 0)
  {
    if |port.workingPins| == 0 then Failure(IndexError("list index out of range"))
    else
      var led := Led(port.identificationPin, port.workingPins[0], 0.0, 0);
      Success(SetState(led, Int(0)).value)
  }

  /** `get_state()`: the stored state and the battery level. */
  function GetState(led: Led, batteryRaw: int): (r: Report)
    ensures r.LedState? && r.brightness == led.state
    ensures 0 <= r.batteryLevel <= 100
  {
    LedState(led.state, Battery.Percentage(batteryRaw))
  }

  /** `__del__`: drive the LED to 0. */
  function Shutdown(led: Led): (r: Led)
    ensures r.state == 0.0 && r.duty == 0
    ensures r.portPin == led.portPin && r.pwmPin == led.pwmPin
  {
    SetState(led, Int(0)).value
  }
}

=== FILE: port_manager.dfy ===
/** `module_manager.py` at the repository root: the module table of the older, port-based
    firmware. Modules are LEDs bound to the ports of `ports.py`; the table is an
    insertion-ordered dict from identity to LED, and each port remembers the identity of the
    module it holds. The lock only serialises callers and is not modelled. */
module PortManager {
  import opened Wrappers
  import opened Text
  import opened Values
  import opened OrderedDict
  import opened Ports
  import PortLed
  import Identity

  type Led = PortLed.Led

  datatype State = State(modules: Dict<string, Led>, ports: map<int, Port>)

  const Initial := State([], AvailablePorts())

  /** `create_module(module_type, port_number)`. `entropy` is what `os.urandom(8)` returns. An
      unknown port number makes `ports.available_ports.get` return `None`, and the
      `get_module` call on it raises `AttributeError`. A port that already holds a module
      makes the call do nothing. Only 'led' is a known type; any other raises `ValueError`
      before anything changes. Otherwise a LED is built on the port, stored under a fresh
      identity, and the port is bound to it. */
  function CreateModule(s: State, kind: string, portNumber: int, entropy: seq<byte>): (r: Result<State, Fault>)
    requires |entropy| == 8
    ensures portNumber !in s.ports ==> r.Failure? && r.error.AttributeError?
    ensures portNumber in s.ports && s.ports[portNumber].bound.Some? ==> r == Success(s)
    ensures portNumber in s.ports && s.ports[portNumber].bound.None? && kind != "led" ==>
      r == Failure(ValueError("Invalid module type"))
  {
    if portNumber !in s.ports then Failure(AttributeError("'NoneType' object has no attribute 'get_module'"))
    else
      var port := s.ports[portNumber];
      if port.bound.Some? then Success(s)
      else if kind != "led" then Failure(ValueError("Invalid module type"))
      else
        match PortLed.Construct(port)
        case Failure(e) => Failure(e)
        case Success(led) =>
          var id := Identity.GenerateUuid(entropy);
          Success(State(Put(s.modules, id, led), s.ports[portNumber := SetModule(port, id)]))
  }

  /** A successful creation on a free port stores a LED at state 0 under the new identity,
      binds the port to that identity, adds exactly one entry when the identity is new, and
      changes no other entry and no other port. */
  lemma CreateModuleAdds(s: State, portNumber: int, entropy: seq<byte>)
    requires |entropy| == 8
    requires portNumber in s.ports && s.ports[portNumber].bound.None?
    requires |s.ports[portNumber].workingPins| > 0
    ensures var id := Identity.GenerateUuid(entropy);
      var r := CreateModule(s, "led", portNumber, entropy);
      && r.Success?
      && Get(r.value.modules, id) == Some(PortLed.Led(s.ports[portNumber].identificationPin, s.ports[portNumber].workingPins[0], 0.0, 0))
      && r.value.ports[portNumber].bound == Some(id)
      && (forall p :: p in s.ports && p != portNumber ==> p in r.value.ports && r.value.ports[p] == s.ports[p])
      && (forall k :: k != id ==> Get(r.value.modules, k) == Get(s.modules, k))
      && (id !in Keys(s.modules) ==> r.value.modules == s.modules + [(id, Get(r.value.modules, id).value)])
  {
    var id := Identity.GenerateUuid(entropy);
    var led := PortLed.Construct(s.ports[portNumber]).value;
    PutShape(s.modules, id, led);
  }

  /** `remove_module(uuid)`. An unknown identity changes nothing. A known one is popped from
      the table, and then the call raises `NameError`: `available_ports` and `port` are not
      defined in this file. The port therefore stays bound to the removed identity. */
  function RemoveModule(s: State, id: string): (r: (State, Option<Fault>))
    ensures id !in Keys(s.modules) ==> r == (s, None)
    ensures id in Keys(s.modules) ==>
      r == (s.(modules := Pop(s.modules, id)), Some(NameError("name 'available_ports' isn't defined")))
  {
    if id in Keys(s.modules) then
      (s.(modules := Pop(s.modules, id)), Some(NameError("name 'available_ports' isn't defined")))
    else (s, None)
  }

  /** After `remove_module` of a known identity the port still holds it, so a later
      `create_module` on that port does nothing: the port stays blocked. */
  lemma RemoveModuleBlocksPort(s: State, id: string, portNumber: int, kind: string, entropy: seq<byte>)
    requires UniqueKeys(s.modules) && id in Keys(s.modules)
    requires portNumber in s.ports && s.ports[portNumber].bound == Some(id)
    requires |entropy| == 8
    ensures var after := RemoveModule(s, id).0;
      && Get(after.modules, id).None?
      && after.ports[portNumber].bound == Some(id)
      && CreateModule(after, kind, portNumber, entropy) == Success(after)
  {
  }

  /** The index of the first module, in table order, whose port has identification pin
      `pin`. */
  function FirstOnPort(t: Dict<string, Led>, pin: int): (r: Option<nat>)
    ensures r.Some? ==> r.value < |t| && t[r.value].1.portPin == pin
    ensures r.Some? ==> forall j :: 0 <= j < r.value ==> t[j].1.portPin != pin
    ensures r.None? ==> forall j :: 0 <= j < |t| ==> t[j].1.portPin != pin
  {
    if t == [] then None
    else if t[0].1.portPin == pin then Some(0)
    else match FirstOnPort(t[1..], pin)
      case None => None
      case Some(i) => Some(i + 1)
  }

  /** What `remove_module_by_port` did: the state afterwards, the LED it switched off by
      calling its `__del__`, and the exception it raised, if any. */
  datatype Removal = Removal(state: State, switchedOff: Option<Led>, raised: Option<Fault>)

  /** `remove_module_by_port(identification_pin)`: the first module in table order on that
      port is switched off, popped, and its port unbound; the loop then stops, so at most one
      module goes. Nothing happens when no module is on that port. A module whose port is not
      in the port table makes the unbinding raise `KeyError` after the pop, so the module is
      already switched off and gone from the table when the exception leaves. */
  function RemoveModuleByPort(s: State, pin: int): (r: Removal)
    ensures FirstOnPort(s.modules, pin).None? ==> r == Removal(s, None, None)
    ensures FirstOnPort(s.modules, pin).Some? ==>
      var i := FirstOnPort(s.modules, pin).value;
      && r.switchedOff == Some(PortLed.Shutdown(s.modules[i].1))
      && r.state.modules == Pop(s.modules, s.modules[i].0)
    ensures FirstOnPort(s.modules, pin).Some? && pin in s.ports ==>
      r.raised.None? && r.state.ports == s.ports[pin := Ports.RemoveModule(s.ports[pin])]
    ensures FirstOnPort(s.modules, pin).Some? && pin !in s.ports ==>
      r.raised.Some? && r.raised.value.KeyError? && r.state.ports == s.ports
  {
    match FirstOnPort(s.modules, pin)
    case None => Removal(s, None, None)
    case Some(i) =>
      var (id, led) := s.modules[i];
      var off := PortLed.Shutdown(led);
      if pin in s.ports then
        Removal(State(Pop(s.modules, id), s.ports[pin := Ports.RemoveModule(s.ports[pin])]), Some(off), None)
      else Removal(State(Pop(s.modules, id), s.ports), Some(off), Some(KeyError(IntText(pin))))
  }

  /** With unique identities, removing by port removes exactly one entry, leaves every other
      identity's module as it was, and frees the port. */
  lemma RemoveModuleByPortRemovesOne(s: State, pin: int)
    requires UniqueKeys(s.modules)
    requires FirstOnPort(s.modules, pin).Some?
    ensures var r := RemoveModuleByPort(s, pin).state;
      var id := s.modules[FirstOnPort(s.modules, pin).value].0;
      && |r.modules| == |s.modules| - 1
      && Get(r.modules, id).None?
      && (forall k :: k != id ==> Get(r.modules, k) == Get(s.modules, k))
      && (pin in s.ports ==> r.ports[pin].bound.None?)
  {
    var i := FirstOnPort(s.modules, pin).value;
    assert s.modules[i] in s.modules;
  }

  /** `get_module(uuid)`: a plain lookup. */
  function GetModule(s: State, id: string): (r: Option<Led>)
    ensures r.Some? <==> id in Keys(s.modules)
    ensures UniqueKeys(s.modules) && r.Some? ==> (id, r.value) in s.modules
  {
    Get(s.modules, id)
  }
}

=== FILE: ports.dfy ===
/** `ports.py`: the three analogue ports of the older, port-based firmware. Each port has an
    identification pin (an ADC input) and three working pins, and holds at most one module.
    The module a port holds is identified here by the identity it was registered under. */
module Ports {
  import opened Wrappers

  datatype Port = Port(identificationPin: int, workingPins: seq<int>, bound: Option<string>)

  /** `Port(identification_pin, working_pins)`: a new port holds no module. */
  function NewPort(identificationPin: int, workingPins: seq<int>): (p: Port)
    ensures p.bound.None?
    ensures p.identificationPin == identificationPin && p.workingPins == workingPins
  {
    Port(identificationPin, workingPins, None)
  }

  /** `set_module(m)`. */
  function SetModule(p: Port, m: string): (r: Port)
    ensures r.identificationPin == p.identificationPin && r.workingPins == p.workingPins
    ensures GetModule(r) == Some(m)
  {
    p.(bound := Some(m))
  }

  /** `get_module()`. */
  function GetModule(p: Port): Option<string> {
    p.bound
  }

  /** `remove_module()`. */
  function RemoveModule(p: Port): (r: Port)
    ensures r.identificationPin == p.identificationPin && r.workingPins == p.workingPins
    ensures GetModule(r).None?
  {
    p.(bound := None)
  }

  /** Setting a module and then removing it gives back the empty port, whatever it held. */
  lemma SetRemove(p: Port, m: string)
    ensures RemoveModule(SetModule(p, m)) == RemoveModule(p)
    ensures RemoveModule(SetModule(NewPort(p.identificationPin, p.workingPins), m)) ==
      NewPort(p.identificationPin, p.workingPins)
  {
  }

  /** `available_ports`: pin 28 with working pins 0-2, 27 with 3-5 and 26 with 6-8. */
  function AvailablePorts(): (ports: map<int, Port>)
    ensures ports.Keys == {28, 27, 26}
    ensures forall pin :: pin in ports ==>
      ports[pin].identificationPin == pin && ports[pin].bound.None? && |ports[pin].workingPins| == 3
  {
    map[28 := NewPort(28, [0, 1, 2]), 27 := NewPort(27, [3, 4, 5]), 26 := NewPort(26, [6, 7, 8])]
  }

  /** No working pin is shared between two ports, and none is an identification pin. */
  lemma AvailablePortsDisjoint(a: int, b: int, i: int, j: int)
    requires a in AvailablePorts() && b in AvailablePorts() && a != b
    requires 0 <= i < 3 && 0 <= j < 3
    ensures AvailablePorts()[a].workingPins[i] != AvailablePorts()[b].workingPins[j]
    ensures AvailablePorts()[a].workingPins[i] !in AvailablePorts().Keys
  {
  }
}

=== FILE: relay_control.dfy ===
/** `module/controls/relay.py`: the I2C relay. `set_state` stores 1 for a truthy request and
    0 otherwise, and when a bus and an address are present sends the command byte 0x50
    followed by 255 (on) or 0 (off). */
module RelayControl {
  import opened Wrappers
  import opened Text
  import opened Values
  import Battery

  const CmdSetRelay: byte := 0x50

  /** What one `set_state` call leaves behind: the stored level (1 or 0) and the bus writes. */
  datatype Outcome = Outcome(level: int, writes: seq<Transfer>)

  /** The command byte pair for a relay level. */
  function Command(on: bool): seq<byte> {
    [CmdSetRelay, if on then 255 else 0]
  }

  /** `Relay.set_state(state)`. */
  function SetState(bus: Option<BusHandle>, address: Option<int>, request: Value): (o: Outcome)
    ensures o.level == 1 <==> Truthy(request)
    ensures o.level == 0 <==> !Truthy(request)
    ensures bus.Some? && address.Some? ==> o.writes == [WriteTo(address.value, Command(Truthy(request)))]
    ensures bus.None? || address.None? ==> o.writes == []
  {
    var on := Truthy(request);
    var level := if on then 1 else 0;
    if bus.Some? && address.Some? then Outcome(level, [WriteTo(address.value, Command(on))])
    else Outcome(level, [])
  }

  /** Two requests with the same truthiness leave the relay in the same state. */
  lemma SetStateDependsOnlyOnTruthiness(bus: Option<BusHandle>, address: Option<int>, a: Value, b: Value)
    requires Truthy(a) == Truthy(b)
    ensures SetState(bus, address, a) == SetState(bus, address, b)
  {
  }

  /** `get_state()`: `isOn` is `bool(state)`. */
  function GetState(level: int, batteryRaw: int): (r: Report)
    ensures r.RelayState? && (r.isOn <==> level != 0)
    ensures 0 <= r.batteryLevel <= 100
  {
    RelayState(level != 0, Battery.Percentage(batteryRaw))
  }

  /** `__del__` and the end of `__init__`: `set_state(0)`, which drives the relay off. */
  function DriveOff(bus: Option<BusHandle>, address: Option<int>): (o: Outcome)
    ensures o.level == 0
    ensures bus.Some? && address.Some? ==> o.writes == [WriteTo(address.value, [0x50, 0])]
    ensures bus.None? || address.None? ==> o.writes == []
  {
    SetState(bus, address, Int(0))
  }
}

=== FILE: reporter.dfy ===
/** `ModuleManager.refresh_modules_of_server`: the report of the live modules to the central
    server, retried after a 2 s pause while attempts remain; once the last attempt fails the
    stored WiFi credentials are deleted and the board is reset. The outcome of each attempt
    (address lookup, connect, send, receive) is an input, and the side effects are an event
    log. */
module Reporter {
  import opened Wrappers
  import opened Text
  import Manager

  datatype Event =
    | Attempt(retry: nat)
    | Sleep(seconds: nat)
    | DeleteCredentials
    | Reset

  /** The number of network attempts in a log. */
  function AttemptCount(events: seq<Event>): (n: nat)
    ensures n <= |events|
  {
    if events == [] then 0 else (if events[0].Attempt? then 1 else 0) + AttemptCount(events[1..])
  }

  function Max(a: int, b: int): int {
    if a >= b then a else b
  }

  /** Some attempt numbered `from` up to (excluding) `limit` succeeds. */
  predicate SucceedsBefore(succeeds: nat -> bool, from: nat, limit: int) {
    exists k: nat :: from <= k < limit && succeeds(k)
  }

  /** `refresh_modules_of_server(..., retry_count, max_retries)` where attempt `k` succeeds iff
      `succeeds(k)`: whether it returned True, and what it did. It returns True exactly when
      one of the attempts `retry_count` up to `max(retry_count + 1, max_retries) - 1`
      succeeds. */
  function Refresh(retryCount: nat, maxRetries: int, succeeds: nat -> bool): (r: (bool, seq<Event>))
    ensures r.1 != [] && r.1[0] == Attempt(retryCount)
    ensures r.0 <==> SucceedsBefore(succeeds, retryCount, Max(retryCount + 1, maxRetries))
    decreases maxRetries - retryCount
  {
    if succeeds(retryCount) then (true, [Attempt(retryCount)])
    else if retryCount < maxRetries - 1 then
      var sub := Refresh(retryCount + 1, maxRetries, succeeds);
      var ok := sub.0;
      assert ok ==> SucceedsBefore(succeeds, retryCount, Max(retryCount + 1, maxRetries)) by {
        if ok {
          var k: nat :| retryCount + 1 <= k < Max(retryCount + 2, maxRetries) && succeeds(k);
        }
      }
      assert !ok ==> !SucceedsBefore(succeeds, retryCount, Max(retryCount + 1, maxRetries)) by {
        if !ok {
          forall k: nat | retryCount <= k < Max(retryCount + 1, maxRetries) ensures !succeeds(k) {
            if k > retryCount {
              assert !(retryCount + 1 <= k < Max(retryCount + 2, maxRetries) && succeeds(k));
            }
          }
        }
      }
      (ok, [Attempt(retryCount), Sleep(2)] + sub.1)
    else (false, [Attempt(retryCount), DeleteCredentials, Reset])
  }

  /** Credential deletion and reset happen exactly when every attempt failed, once each, as
      the last two events. */
  lemma {:induction false} RefreshResetsLast(retryCount: nat, maxRetries: int, succeeds: nat -> bool)
    ensures var (ok, ev) := Refresh(retryCount, maxRetries, succeeds);
      && (ok ==> DeleteCredentials !in ev && Reset !in ev)
      && (!ok ==> |ev| >= 3 && ev[|ev| - 2..] == [DeleteCredentials, Reset]
                  && DeleteCredentials !in ev[..|ev| - 2] && Reset !in ev[..|ev| - 2])
    decreases maxRetries - retryCount
  {
    if !succeeds(retryCount) && retryCount < maxRetries - 1 {
      RefreshResetsLast(retryCount + 1, maxRetries, succeeds);
      var (ok, rest) := Refresh(retryCount + 1, maxRetries, succeeds);
      var ev := [Attempt(retryCount), Sleep(2)] + rest;
      if !ok {
        assert ev[|ev| - 2..] == rest[|rest| - 2..];
        assert ev[..|ev| - 2] == [Attempt(retryCount), Sleep(2)] + rest[..|rest| - 2];
      }
    }
  }

  /** At least one and at most `max(1, max_retries - retry_count)` attempts are made. */
  lemma {:induction false} RefreshAttemptBound(retryCount: nat, maxRetries: int, succeeds: nat -> bool)
    ensures 1 <= AttemptCount(Refresh(retryCount, maxRetries, succeeds).1) <= Max(1, maxRetries - retryCount)
    decreases maxRetries - retryCount
  {
    var ev := Refresh(retryCount, maxRetries, succeeds).1;
    if succeeds(retryCount) {
      assert ev == [Attempt(retryCount)];
    } else if retryCount < maxRetries - 1 {
      RefreshAttemptBound(retryCount + 1, maxRetries, succeeds);
      var rest := Refresh(retryCount + 1, maxRetries, succeeds).1;
      assert ev[1..][1..] == rest;
    } else {
      assert ev == [Attempt(retryCount), DeleteCredentials, Reset];
      assert AttemptCount(ev[2..]) == 0 by {
        assert ev[2..][1..] == [];
      }
      assert AttemptCount(ev[1..]) == 0 by {
        assert ev[1..][1..] == ev[2..];
      }
    }
  }

  /** The sleep at `i` lasts 2 s and sits between a failed attempt and the next attempt. */
  predicate SleepFits(ev: seq<Event>, i: int, succeeds: nat -> bool)
    requires 0 <= i < |ev|
  {
    && 0 < i < |ev| - 1 && ev[i].Sleep? && ev[i].seconds == 2
    && ev[i - 1].Attempt? && !succeeds(ev[i - 1].retry)
    && ev[i + 1] == Attempt(ev[i - 1].retry + 1)
  }

  /** Every sleep in `ev` lasts 2 s and sits between a failed attempt and the next
      attempt. */
  predicate SleepsBetweenFailures(ev: seq<Event>, succeeds: nat -> bool) {
    forall i :: 0 <= i < |ev| && ev[i].Sleep? ==> SleepFits(ev, i, succeeds)
  }

  lemma {:induction false} RefreshSleepsBetweenFailures(retryCount: nat, maxRetries: int, succeeds: nat -> bool)
    ensures SleepsBetweenFailures(Refresh(retryCount, maxRetries, succeeds).1, succeeds)
    decreases maxRetries - retryCount
  {
    var ev := Refresh(retryCount, maxRetries, succeeds).1;
    if succeeds(retryCount) {
      assert ev == [Attempt(retryCount)];
    } else if retryCount < maxRetries - 1 {
      RefreshSleepsBetweenFailures(retryCount + 1, maxRetries, succeeds);
      var rest := Refresh(retryCount + 1, maxRetries, succeeds).1;
      SleepAfterFailure(retryCount, rest, succeeds);
    } else {
      assert ev == [Attempt(retryCount), DeleteCredentials, Reset];
    }
  }

  /** A failed attempt and a 2 s sleep in front of a log that starts with the next attempt
      keep every sleep between failures. */
  lemma SleepAfterFailure(retry: nat, rest: seq<Event>, succeeds: nat -> bool)
    requires !succeeds(retry) && rest != [] && rest[0] == Attempt(retry + 1)
    requires SleepsBetweenFailures(rest, succeeds)
    ensures SleepsBetweenFailures([Attempt(retry), Sleep(2)] + rest, succeeds)
  {
    var ev := [Attempt(retry), Sleep(2)] + rest;
    forall i | 0 <= i < |ev| && ev[i].Sleep? ensures SleepFits(ev, i, succeeds) {
      if i == 1 {
        assert ev[2] == rest[0];
      } else {
        SleepShifted(retry, rest, succeeds, i);
      }
    }
  }

  lemma SleepShifted(retry: nat, rest: seq<Event>, succeeds: nat -> bool, i: int)
    requires SleepsBetweenFailures(rest, succeeds)
    requires 0 <= i < |rest| + 2 && i != 1 && ([Attempt(retry), Sleep(2)] + rest)[i].Sleep?
    ensures SleepFits([Attempt(retry), Sleep(2)] + rest, i, succeeds)
  {
    var ev := [Attempt(retry), Sleep(2)] + rest;
    assert ev[i] == rest[i - 2];
    assert SleepFits(rest, i - 2, succeeds);
    assert ev[i - 1] == rest[i - 3];
    assert ev[i + 1] == rest[i - 1];
  }

  /** With the defaults (`retry_count=0`, `max_retries=3`) and a server that never answers,
      the firmware makes three attempts two seconds apart, then deletes the credentials and
      resets. */
  lemma DefaultsAllFail(succeeds: nat -> bool)
    requires forall k :: !succeeds(k)
    ensures Refresh(0, 3, succeeds) ==
      (false, [Attempt(0), Sleep(2), Attempt(1), Sleep(2), Attempt(2), DeleteCredentials, Reset])
  {
    assert Refresh(2, 3, succeeds) == (false, [Attempt(2), DeleteCredentials, Reset]);
    assert !succeeds(1) && !succeeds(0);
    var r1 := Refresh(1, 3, succeeds);
    assert r1.1 == [Attempt(1), Sleep(2)] + Refresh(2, 3, succeeds).1;
    assert r1.0 == false;
    assert [Attempt(1), Sleep(2)] + [Attempt(2), DeleteCredentials, Reset] == [Attempt(1), Sleep(2), Attempt(2), DeleteCredentials, Reset];
    assert r1 == (false, [Attempt(1), Sleep(2), Attempt(2), DeleteCredentials, Reset]);
    var r0 := Refresh(0, 3, succeeds);
    assert r0.1 == [Attempt(0), Sleep(2)] + r1.1;
    assert r0.1 == [Attempt(0), Sleep(2), Attempt(1), Sleep(2), Attempt(2), DeleteCredentials, Reset];
  }

  /** Success on any attempt returns True after exactly that many attempts. */
  lemma SuccessStopsRetrying(retryCount: nat, maxRetries: int, succeeds: nat -> bool, k: nat)
    requires retryCount <= k < maxRetries && succeeds(k)
    requires forall j :: retryCount <= j < k ==> !succeeds(j)
    ensures Refresh(retryCount, maxRetries, succeeds).0
    ensures AttemptCount(Refresh(retryCount, maxRetries, succeeds).1) == k - retryCount + 1
    decreases k - retryCount
  {
    if k > retryCount {
      SuccessStopsRetrying(retryCount + 1, maxRetries, succeeds, k);
      var rest := Refresh(retryCount + 1, maxRetries, succeeds).1;
      var events := [Attempt(retryCount), Sleep(2)] + rest;
      assert events[1..][1..] == rest;
    }
  }

  /** One element of the JSON list sent: type name, identity and this board's URL. */
  datatype PayloadEntry = PayloadEntry(peripheralType: string, uuid: string, url: string)

  /** The `json_data` list: one entry per live module, in table order, each pointing at this
      board's HTTP server on port 8080. */
  function Payload(peripherals: seq<Manager.Peripheral>, ip: string): (p: seq<PayloadEntry>)
    ensures |p| == |peripherals|
    ensures forall i :: 0 <= i < |p| ==>
      p[i] == PayloadEntry(peripherals[i].peripheralType, peripherals[i].uuid, ip + ":8080")
  {
    seq(|peripherals|, i requires 0 <= i < |peripherals| =>
      PayloadEntry(peripherals[i].peripheralType, peripherals[i].uuid, ip + ":8080"))
  }

  const Endpoint := "/rasberry/Peripheral/refreshPeripherals"
  const CentralPort := 5002

  /** The request line of the report. */
  function RequestLine(endpoint: string): string {
    "POST" + " " + endpoint + " " + "HTTP/1.1"
  }

  /** The header block after the request line, ending with the blank line. */
  function Headers(host: string, bodyLength: nat): string {
    "Host: " + host + "\r\n"
    + "Accept: */*\r\n"
    + "Content-Type: application/json\r\n"
    + "Content-Length: " + Decimal(bodyLength) + "\r\n"
    + "Connection: close\r\n"
    + "\r\n"
  }

  /** The request text the report sends. `Content-Length` is the length of the JSON text in
      characters. */
  function RequestText(host: string, endpoint: string, json: string): (t: string)
    ensures StartsWith(t, RequestLine(endpoint) + "\r\n")
    ensures |t| >= |json| && t[|t| - |json|..] == json
  {
    RequestLine(endpoint) + "\r\n" + Headers(host, |json|) + json
  }

  /** The `Content-Length` value read back is the body's length. */
  lemma ContentLengthReadsBack(json: string)
    ensures DigitsValue(Decimal(|json|)) == |json|
  {
    DecimalRoundTrip(|json|);
  }
}

=== FILE: resistance_detector.dfy ===
/** `rezistance_detector.py`: the polling loop of the older, port-based firmware that recognises
    what is plugged into each port by the resistor it carries. Each port's identification pin
    is the lower half of a divider with a 10 kOhm reference resistor on 3.3 V: the module's
    resistance follows from the voltage read. A voltage under 0.1 V means nothing is plugged
    in, and the port's module is removed; a resistance within a module type's tolerance band
    creates a module of that type. The ADC readings are inputs; floating-point rounding and
    `round(..., 2)` are not modelled, so the arithmetic is over exact reals. */
module ResistanceDetector {
  import opened Wrappers
  import opened Text
  import opened Values
  import opened OrderedDict
  import Ports
  import PortLed
  import PortManager
  import Identity

  const Vref: real := 3.3
  const ReferenceResistor: real := 10000.0
  /** Below this voltage a port is taken to be empty. */
  const Threshold: real := 0.1

  /** `available_modules`: each type with its nominal resistance and relative tolerance. */
  const ModuleTypes: seq<(string, (real, real))> := [("led", (100000.0, 0.3))]

  /** `adc_pins`, in the order the loop visits them. */
  const Pins: seq<int> := [28, 27, 26]

  /** `(raw_value / 65535) * VREF`. */
  function Voltage(raw: int): (v: real)
    ensures 0 <= raw <= 65535 ==> 0.0 <= v <= Vref
  {
    raw as real / 65535.0 * Vref
  }

  /** The resistance whose divider with the reference resistor gives voltage `v`. */
  function Resistance(v: real): real
    requires v != 0.0
  {
    Vref * ReferenceResistor / v - ReferenceResistor
  }

  /** The resistance seen at a reading is `10000 * (65535 - raw) / raw` ohms: it falls as the
      reading rises. */
  lemma ResistanceOfReading(raw: int)
    requires raw > 0
    ensures Resistance(Voltage(raw)) * raw as real == ReferenceResistor * (65535 - raw) as real
  {
    var v := Voltage(raw);
    assert v == raw as real * (3.3 / 65535.0);
    assert Vref * ReferenceResistor / v * v == Vref * ReferenceResistor;
    assert Vref * ReferenceResistor / v * raw as real == Vref * ReferenceResistor * 65535.0 / 3.3 / v * v by {
      assert raw as real == v * 65535.0 / 3.3;
    }
  }

  /** Whether `r` lies in the band `nominal * (1 - tolerance) <= r <= nominal * (1 + tolerance)`. */
  predicate InBand(r: real, band: (real, real)) {
    band.0 * (1.0 - band.1) <= r <= band.0 * (1.0 + band.1)
  }

  /** The index of the first type, in table order, whose band holds `r`; the loop stops at
      it. */
  function FirstMatch(types: seq<(string, (real, real))>, r: real): (m: Option<nat>)
    ensures m.Some? ==> m.value < |types| && InBand(r, types[m.value].1)
    ensures m.Some? ==> forall j :: 0 <= j < m.value ==> !InBand(r, types[j].1)
    ensures m.None? ==> forall j :: 0 <= j < |types| ==> !InBand(r, types[j].1)
  {
    if types == [] then None
    else if InBand(r, types[0].1) then Some(0)
    else match FirstMatch(types[1..], r)
      case None => None
      case Some(i) => Some(i + 1)
  }

  /** What one reading asks of the module manager. */
  datatype Command = RemoveByPort | Create(kind: string) | Nothing

  /** One reading of one port: remove under 0.1 V, otherwise create the first type whose band
      holds the resistance, if any. */
  function Classify(raw: int): (c: Command)
    ensures c.RemoveByPort? <==> Voltage(raw) < Threshold
    ensures c.Create? ==> c.kind == "led"
  {
    var v := Voltage(raw);
    if v < Threshold then RemoveByPort
    else
      match FirstMatch(ModuleTypes, Resistance(v))
      case Some(i) => Create(ModuleTypes[i].0)
      case None => Nothing
  }

  /** In whole ADC counts: a reading of at most 1985 removes, a reading from 4682 to 8191
      creates an LED (between 70 and 130 kOhm), and every other reading does nothing. */
  lemma ClassifyThresholds(raw: int)
    requires 0 <= raw <= 65535
    ensures Classify(raw) == RemoveByPort <==> raw <= 1985
    ensures Classify(raw) == Create("led") <==> 4682 <= raw <= 8191
    ensures Classify(raw) == Nothing <==> (1986 <= raw <= 4681 || 8192 <= raw)
  {
    var v := Voltage(raw);
    assert v < Threshold <==> raw <= 1985;
    if raw > 1985 {
      var r := Resistance(v);
      ResistanceOfReading(raw);
      assert InBand(r, ModuleTypes[0].1) <==> 70000.0 <= r <= 130000.0;
      assert 70000.0 <= r <==> raw <= 8191 by {
        ProductBound(r, 70000.0, raw as real, 10000.0 * (65535 - raw) as real);
      }
      assert r <= 130000.0 <==> 4682 <= raw by {
        ProductBound(r, 130000.0, raw as real, 10000.0 * (65535 - raw) as real);
      }
    }
  }

  /** Comparing a quotient with a bound by comparing products, for a positive divisor. */
  lemma ProductBound(r: real, b: real, d: real, p: real)
    requires d > 0.0 && r * d == p
    ensures b <= r <==> b * d <= p
    ensures r <= b <==> p <= b * d
  {
    if b <= r {
      assert b * d <= r * d;
    }
    if r < b {
      assert r * d < b * d;
    }
  }

  /** One pass of `read_pins` over the ports, in the order 28, 27, 26: the command each reading
      gives, paired with its pin. `readings` is what `read_u16` returns on each pin. */
  function Sweep(readings: int -> int): (cs: seq<(int, Command)>)
    ensures |cs| == |Pins|
    ensures forall i :: 0 <= i < |cs| ==> cs[i] == (Pins[i], Classify(readings(Pins[i])))
  {
    [(28, Classify(readings(28))), (27, Classify(readings(27))), (26, Classify(readings(26)))]
  }

  /** Hands one command to the module manager; `entropy` is the identity a creation draws. The
      result is the state afterwards and the exception that ends the loop, if any. */
  function Apply(s: PortManager.State, pin: int, c: Command, entropy: seq<byte>): (r: (PortManager.State, Option<Fault>))
    requires |entropy| == 8
    ensures c.Nothing? ==> r == (s, None)
    ensures c.Create? && PortManager.CreateModule(s, c.kind, pin, entropy).Success? ==>
      r == (PortManager.CreateModule(s, c.kind, pin, entropy).value, None)
    ensures c.Create? && PortManager.CreateModule(s, c.kind, pin, entropy).Failure? ==>
      r == (s, Some(PortManager.CreateModule(s, c.kind, pin, entropy).error))
    ensures c.RemoveByPort? ==>
      r == (PortManager.RemoveModuleByPort(s, pin).state, PortManager.RemoveModuleByPort(s, pin).raised)
  {
    match c
    case Nothing => (s, None)
    case Create(kind) =>
      (match PortManager.CreateModule(s, kind, pin, entropy)
       case Success(t) => (t, None)
       case Failure(e) => (s, Some(e)))
    case RemoveByPort =>
      var removal := PortManager.RemoveModuleByPort(s, pin);
      (removal.state, removal.raised)
  }

  /** Plugging an LED into a free port and then unplugging it gives back the state from before:
      the reading in the LED's band creates one module bound to the port, and the reading of
      an empty port switches that module off, removes it and frees the port. */
  lemma PlugUnplug(s: PortManager.State, pin: int, plugged: int, unplugged: int, entropy: seq<byte>)
    requires |entropy| == 8
    requires 4682 <= plugged <= 8191 && 0 <= unplugged <= 1985
    requires pin in s.ports && s.ports[pin].identificationPin == pin
    requires s.ports[pin].bound.None? && |s.ports[pin].workingPins| > 0
    requires PortManager.FirstOnPort(s.modules, pin).None?
    requires Identity.GenerateUuid(entropy) !in Keys(s.modules)
    ensures var created := Apply(s, pin, Classify(plugged), entropy);
      && created.1.None?
      && PortManager.GetModule(created.0, Identity.GenerateUuid(entropy)).Some?
      && created.0.ports[pin].bound == Some(Identity.GenerateUuid(entropy))
      && Apply(created.0, pin, Classify(unplugged), entropy) == (s, None)
  {
    ClassifyThresholds(plugged);
    ClassifyThresholds(unplugged);
    var id := Identity.GenerateUuid(entropy);
    var led := PortLed.Construct(s.ports[pin]).value;
    PortManager.CreateModuleAdds(s, pin, entropy);
    var created := PortManager.CreateModule(s, "led", pin, entropy).value;
    assert created.modules == s.modules + [(id, led)];
    FirstOnPortAppended(s.modules, (id, led), pin);
    PopAppended(s.modules, id, led);
    assert s.ports[pin := Ports.RemoveModule(created.ports[pin])] == s.ports;
    assert created.ports[pin := Ports.RemoveModule(created.ports[pin])] == s.ports;
  }

  /** A module appended after the last one on no port `pin` is the first on `pin`. */
  lemma {:induction false} FirstOnPortAppended(t: Dict<string, PortLed.Led>, x: (string, PortLed.Led), pin: int)
    requires PortManager.FirstOnPort(t, pin).None? && x.1.portPin == pin
    ensures PortManager.FirstOnPort(t + [x], pin) == Some(|t|)
  {
    if t != [] {
      assert (t + [x])[1..] == t[1..] + [x];
      FirstOnPortAppended(t[1..], x, pin);
    }
  }
}

=== FILE: sawtooth.dfy ===
/** `utils/sawtooth.py`: a triangle-wave generator that shows a counter in binary on GPIO pins
    6 to 12. A periodic timer calls back at the set frequency; each call writes the current
    value to the pins and then counts one step up or down between 0 and 100. The timer is a
    field saying which callback, if any, is armed and at what period; the callbacks
    themselves are the functions `Tick` and `CycleTick`, which the environment applies. */
module Sawtooth {
  import opened Wrappers
  import opened Values

  /** GPIO pins 6 to 12: pin `6 + i` shows bit `i`. */
  const PinCount := 7

  /** Which callback the timer runs. */
  datatype Callback = Continuous | SingleCycle

  datatype Timer = Off | Periodic(periodMs: int, callback: Callback)

  /** The generator: the counter, its direction, whether `start` is in effect, the levels
      last written to the seven pins, the frequency in Hz and the hardware timer. */
  datatype Counter = Counter(value: int, up: bool, running: bool, pins: seq<int>, frequency: real, timer: Timer)

  /** What an operation leaves behind, with the exception it raised part-way, if any. */
  datatype Outcome = Outcome(counter: Counter, raised: Option<Fault>)

  /** `Sawtooth(frequency)`: counting up from 0, not running, timer idle. The pins are
      taken to start low. */
  function New(frequency: real): (c: Counter)
    ensures c.value == 0 && c.up && !c.running && c.timer == Off
    ensures |c.pins| == PinCount && forall i :: 0 <= i < PinCount ==> c.pins[i] == 0
  {
    Counter(0, true, false, [0, 0, 0, 0, 0, 0, 0], frequency, Off)
  }

  /** Python's `v >> i`: `i` halvings, each rounding toward negative infinity. */
  function Shr(v: int, i: nat): int {
    if i == 0 then v else Shr(v, i - 1) / 2
  }

  /** `write_binary(v)`: pin `i` is set to `(v >> i) & 1` for the seven pins. */
  function Binary(v: int): (pins: seq<int>)
    ensures |pins| == PinCount
    ensures forall i :: 0 <= i < PinCount ==> pins[i] == Shr(v, i) % 2
  {
    seq(PinCount, i requires 0 <= i < PinCount => Shr(v, i) % 2)
  }

  /** The number the pins show, bit `i` weighing `2^i`. */
  function PinsValue(pins: seq<int>): int {
    if pins == [] then 0 else pins[0] + 2 * PinsValue(pins[1..])
  }

  /** Every value the counter takes, 0 to 100, is shown exactly on the seven pins. */
  lemma CounterShownExactly(v: int)
    requires 0 <= v <= 100
    ensures PinsValue(Binary(v)) == v
  {
    BinaryShowsValue(v);
    assert v % 128 == v;
  }

  /** The pins show the value modulo 128. */
  lemma BinaryShowsValue(v: int)
    ensures PinsValue(Binary(v)) == v % 128
  {
    var v1, v2, v3, v4, v5, v6 := Shr(v, 1), Shr(v, 2), Shr(v, 3), Shr(v, 4), Shr(v, 5), Shr(v, 6);
    BinaryBits(v);
    PinsValueOfSeven(v % 2, v1 % 2, v2 % 2, v3 % 2, v4 % 2, v5 % 2, v6 % 2);
    ShrSteps(v);
    BitsSum(v, v1, v2, v3, v4, v5, v6);
  }

  lemma BinaryBits(v: int)
    ensures Binary(v) == [v % 2, Shr(v, 1) % 2, Shr(v, 2) % 2, Shr(v, 3) % 2, Shr(v, 4) % 2, Shr(v, 5) % 2, Shr(v, 6) % 2]
  {
  }

  lemma ShrSteps(v: int)
    ensures Shr(v, 1) == v / 2 && Shr(v, 2) == Shr(v, 1) / 2 && Shr(v, 3) == Shr(v, 2) / 2
    ensures Shr(v, 4) == Shr(v, 3) / 2 && Shr(v, 5) == Shr(v, 4) / 2 && Shr(v, 6) == Shr(v, 5) / 2
  {
  }

  /** Seven pins weigh 1, 2, 4, ..., 64. */
  lemma PinsValueOfSeven(b0: int, b1: int, b2: int, b3: int, b4: int, b5: int, b6: int)
    ensures PinsValue([b0, b1, b2, b3, b4, b5, b6]) == b0 + 2 * (b1 + 2 * (b2 + 2 * (b3 + 2 * (b4 + 2 * (b5 + 2 * b6)))))
  {
    var b := [b0, b1, b2, b3, b4, b5, b6];
    assert PinsValue(b[6..]) == b6 by {
      assert b[6..][1..] == [];
    }
    assert PinsValue(b[5..]) == b5 + 2 * PinsValue(b[6..]) by {
      assert b[5..][1..] == b[6..];
    }
    assert PinsValue(b[4..]) == b4 + 2 * PinsValue(b[5..]) by {
      assert b[4..][1..] == b[5..];
    }
    assert PinsValue(b[3..]) == b3 + 2 * PinsValue(b[4..]) by {
      assert b[3..][1..] == b[4..];
    }
    assert PinsValue(b[2..]) == b2 + 2 * PinsValue(b[3..]) by {
      assert b[2..][1..] == b[3..];
    }
    assert PinsValue(b[1..]) == b1 + 2 * PinsValue(b[2..]) by {
      assert b[1..][1..] == b[2..];
    }
  }

  /** The low bits of `v`, lowest first, add up to `v % 128`. */
  lemma BitsSum(v: int, v1: int, v2: int, v3: int, v4: int, v5: int, v6: int)
    requires v1 == v / 2 && v2 == v1 / 2 && v3 == v2 / 2 && v4 == v3 / 2 && v5 == v4 / 2 && v6 == v5 / 2
    ensures v % 2 + 2 * (v1 % 2 + 2 * (v2 % 2 + 2 * (v3 % 2 + 2 * (v4 % 2 + 2 * (v5 % 2 + 2 * (v6 % 2)))))) == v % 128
  {
    var b0, b1, b2, b3, b4, b5, b6 := v % 2, v1 % 2, v2 % 2, v3 % 2, v4 % 2, v5 % 2, v6 % 2;
    var top := v6 / 2;
    assert v == 2 * v1 + b0 && v1 == 2 * v2 + b1 && v2 == 2 * v3 + b2 && v3 == 2 * v4 + b3;
    assert v4 == 2 * v5 + b4 && v5 == 2 * v6 + b5 && v6 == 2 * top + b6;
    var sum := b0 + 2 * (b1 + 2 * (b2 + 2 * (b3 + 2 * (b4 + 2 * (b5 + 2 * b6)))));
    assert v == 128 * top + sum;
    ModOfMultiple(v, top, sum);
  }

  lemma ModOfMultiple(v: int, k: int, r: int)
    requires v == 128 * k + r && 0 <= r < 128
    ensures v % 128 == r
  {
  }

  /** One step of the counter, as both callbacks do it while counting up, and as
      `_timer_callback` does it while counting down. */
  function Step(value: int, up: bool): (r: (int, bool))
    ensures up && value >= 100 ==> r == (99, false)
    ensures !up && value <= 0 ==> r == (1, true)
    ensures 0 <= value <= 100 ==> 0 <= r.0 <= 100
    ensures up && value < 100 ==> r == (value + 1, true)
    ensures !up && value > 0 ==> r == (value - 1, false)
  {
    if up then
      if value >= 100 then (99, false) else (value + 1, true)
    else
      if value <= 0 then (1, true) else (value - 1, false)
  }

  /** `_timer_callback`: show the value, then step it. A counter in [0, 100] stays there. */
  function Tick(c: Counter): (r: Counter)
    ensures r.pins == Binary(c.value)
    ensures 0 <= c.value <= 100 ==> 0 <= r.value <= 100
    ensures r.running == c.running && r.timer == c.timer && r.frequency == c.frequency
  {
    var (v, up) := Step(c.value, c.up);
    c.(pins := Binary(c.value), value := v, up := up)
  }

  /** `n` timer periods of `_timer_callback`. */
  function Ticks(c: Counter, n: nat): Counter {
    if n == 0 then c else Tick(Ticks(c, n - 1))
  }

  /** Where the counter is after `n` periods from 0 counting up: up from 1 to 100 over the
      first hundred periods of each cycle of 200, then down from 99 to 0. */
  function Wave(n: nat): (int, bool) {
    if n == 0 then (0, true)
    else
      var m := (n - 1) % 200 + 1;
      if m <= 100 then (m, true) else (200 - m, false)
  }

  lemma WaveStep(n: nat)
    ensures Step(Wave(n).0, Wave(n).1) == Wave(n + 1)
  {
    if n > 0 {
      var m := (n - 1) % 200 + 1;
      if m < 200 {
        assert n % 200 + 1 == m + 1;
      } else {
        assert n % 200 + 1 == 1;
      }
    }
  }

  /** From 0 counting up, the counter follows the triangle wave: it reaches 100 after 100
      periods, turns at 99, reaches 0 after 200 and turns at 1. */
  lemma {:induction false} TicksFollowWave(c: Counter, n: nat)
    requires c.value == 0 && c.up
    ensures (Ticks(c, n).value, Ticks(c, n).up) == Wave(n)
  {
    if n > 0 {
      TicksFollowWave(c, n - 1);
      WaveStep(n - 1);
    }
  }

  /** After the first period the counter repeats every 200 periods; the start, 0 counting
      up, is never seen again. */
  lemma TicksRepeat(c: Counter, n: nat)
    requires c.value == 0 && c.up && n >= 1
    ensures (Ticks(c, n + 200).value, Ticks(c, n + 200).up) == (Ticks(c, n).value, Ticks(c, n).up)
    ensures (Ticks(c, n).value, Ticks(c, n).up) != (0, true)
  {
    TicksFollowWave(c, n);
    TicksFollowWave(c, n + 200);
    WavePeriodic(n);
  }

  lemma WavePeriodic(n: nat)
    requires n >= 1
    ensures Wave(n + 200) == Wave(n) && Wave(n) != (0, true)
  {
    assert (n + 200 - 1) % 200 == (n - 1) % 200;
  }

  /** `int(1000 / frequency)`; a frequency of 0 raises `ZeroDivisionError`. */
  function PeriodMs(frequency: real): (r: Result<int, Fault>)
    ensures r.Failure? <==> frequency == 0.0
    ensures frequency > 0.0 ==> r.Success? && r.value >= 0 && r.value as real <= 1000.0 / frequency
  {
    if frequency == 0.0 then Failure(ZeroDivisionError("float division by zero"))
    else Success(Trunc(1000.0 / frequency))
  }

  /** `start()`: when already running nothing changes. Otherwise the timer is armed with
      `_timer_callback` at the frequency's period and the counter runs; the counter value and
      direction carry over. */
  function Start(c: Counter): (r: Outcome)
    ensures c.running ==> r == Outcome(c, None)
    ensures !c.running && c.frequency != 0.0 ==>
      && r.raised.None? && r.counter.running
      && r.counter.timer == Periodic(PeriodMs(c.frequency).value, Continuous)
      && r.counter.value == c.value && r.counter.up == c.up && r.counter.pins == c.pins
    ensures !c.running && c.frequency == 0.0 ==> r == Outcome(c, Some(PeriodMs(c.frequency).error))
  {
    if c.running then Outcome(c, None)
    else
      match PeriodMs(c.frequency)
      case Failure(e) => Outcome(c, Some(e))
      case Success(p) => Outcome(c.(timer := Periodic(p, Continuous), running := true), None)
  }

  /** `stop()`: when not running nothing changes, even if a timer is armed. Otherwise the
      timer is released and every pin goes low; the value and direction are kept. */
  function Stop(c: Counter): (r: Counter)
    ensures !c.running ==> r == c
    ensures c.running ==> !r.running && r.timer == Off && r.pins == Binary(0)
    ensures r.value == c.value && r.up == c.up && r.frequency == c.frequency
  {
    if c.running then c.(timer := Off, running := false, pins := Binary(0)) else c
  }

  /** Starting a stopped counter and stopping it again leaves the counter value, direction and
      frequency as they were, with the timer released and the pins low. */
  lemma StartStop(c: Counter)
    requires !c.running && c.frequency != 0.0
    ensures var s := Stop(Start(c).counter);
      s == c.(timer := Off, pins := Binary(0))
  {
  }

  /** `reset()`: back to 0 counting up; a stopped counter also shows 0 on its pins. */
  function Reset(c: Counter): (r: Counter)
    ensures r.value == 0 && r.up
    ensures !c.running ==> r.pins == Binary(0)
    ensures c.running ==> r.pins == c.pins
    ensures r.running == c.running && r.timer == c.timer && r.frequency == c.frequency
  {
    var z := c.(value := 0, up := true);
    if c.running then z else z.(pins := Binary(0))
  }

  /** `set_frequency(frequency)`: a running counter is stopped and started again at the new
      frequency. */
  function SetFrequency(c: Counter, frequency: real): (r: Outcome)
    ensures !c.running ==> r == Outcome(c.(frequency := frequency), None)
    ensures c.running && frequency != 0.0 ==>
      && r.raised.None? && r.counter.running && r.counter.frequency == frequency
      && r.counter.timer == Periodic(PeriodMs(frequency).value, Continuous)
      && r.counter.value == c.value && r.counter.up == c.up
    ensures c.running && frequency == 0.0 ==> r.raised.Some? && !r.counter.running && r.counter.timer == Off
  {
    var c' := c.(frequency := frequency);
    if c.running then Start(Stop(c')) else Outcome(c', None)
  }

  /** `get_status()`. */
  datatype Status = Status(value: int, direction: string, frequency: real, status: string)

  function GetStatus(c: Counter): (s: Status)
    ensures s.direction == "UP" <==> c.up
    ensures s.status == "RUNNING" <==> c.running
    ensures s.value == c.value && s.frequency == c.frequency
  {
    Status(c.value, if c.up then "UP" else "DOWN", c.frequency, if c.running then "RUNNING" else "STOPPED")
  }

  /** `single_cycle()`: refused while running. Otherwise the counter is reset and the timer
      armed with the single-cycle callback. The reset happens before the period is computed,
      so a frequency of 0 raises after resetting. `running` is not set. */
  function StartSingleCycle(c: Counter): (r: Outcome)
    ensures c.running ==> r == Outcome(c, None)
    ensures !c.running ==> r.counter.value == 0 && r.counter.up && !r.counter.running && r.counter.pins == Binary(0)
    ensures !c.running && c.frequency != 0.0 ==>
      r.raised.None? && r.counter.timer == Periodic(PeriodMs(c.frequency).value, SingleCycle)
  {
    if c.running then Outcome(c, None)
    else
      var z := Reset(c);
      match PeriodMs(c.frequency)
      case Failure(e) => Outcome(z, Some(e))
      case Success(p) => Outcome(z.(timer := Periodic(p, SingleCycle)), None)
  }

  /** `cycle_callback`: show the value; once counting down at 0, call `stop()` and return
      without stepping; otherwise step up as `_timer_callback` does, or down by one. */
  function CycleTick(c: Counter): (r: Counter)
    ensures r.pins == (if !c.up && c.value == 0 && c.running then Binary(0) else Binary(c.value))
    ensures !c.up && c.value == 0 ==> r.value == 0 && !r.up && !r.running
    ensures 0 <= c.value <= 100 ==> 0 <= r.value <= 100
  {
    var shown := c.(pins := Binary(c.value));
    if !shown.up && shown.value == 0 then Stop(shown)
    else if shown.up then
      var (v, up) := Step(shown.value, true);
      shown.(value := v, up := up)
    else shown.(value := shown.value - 1)
  }

  /** `n` timer periods of `cycle_callback`. */
  function CycleTicks(c: Counter, n: nat): Counter {
    if n == 0 then c else CycleTick(CycleTicks(c, n - 1))
  }

  /** A single cycle runs 0 up to 100 and back down to 0 in 200 periods and stays at 0 from
      then on. Because `single_cycle` never sets `running`, the `stop()` in the callback does
      nothing: the timer stays armed with the single-cycle callback, which keeps writing 0. */
  lemma {:induction false} SingleCycleEnds(c: Counter, n: nat)
    requires !c.running && c.frequency != 0.0
    ensures var s := CycleTicks(StartSingleCycle(c).counter, n);
      && (s.value, s.up) == (if n <= 200 then Wave(n) else (0, false))
      && s.timer == Periodic(PeriodMs(c.frequency).value, SingleCycle)
      && !s.running
  {
    if n > 0 {
      SingleCycleEnds(c, n - 1);
      CycleTickStep(CycleTicks(StartSingleCycle(c).counter, n - 1), n - 1);
    }
  }

  /** One period of the single cycle, at the position the cycle has after `n` periods. */
  lemma CycleTickStep(s: Counter, n: nat)
    requires !s.running && (s.value, s.up) == (if n <= 200 then Wave(n) else (0, false))
    ensures var r := CycleTick(s);
      && (r.value, r.up) == (if n + 1 <= 200 then Wave(n + 1) else (0, false))
      && r.timer == s.timer && !r.running
  {
    if n < 200 {
      WaveStep(n);
    }
  }
}

=== FILE: scanner.dfy ===
/** One pass of the detection loop in `ModuleManager.detect_i2c_modules`: scan the bus, ask
    for a module for every newly seen address, remove the module of every address that
    disappeared, and remember what the scan saw. Python iterates the two difference sets in
    an unspecified order, so the orders are inputs. */
module Scanner {
  import opened Wrappers
  import opened Text
  import opened Values
  import opened OrderedDict
  import opened Devices
  import opened Manager
  import opened Identity

  /** The addresses to create for and to remove, as the two set differences. */
  datatype Diff = Diff(added: set<int>, dropped: set<int>)

  function ScanDiff(known: set<int>, current: set<int>): (d: Diff)
    ensures forall a :: a in d.added <==> a in current && a !in known
    ensures forall a :: a in d.dropped <==> a in known && a !in current
  {
    Diff(current - known, known - current)
  }

  /** The next known set is recovered from the previous one and the diff: the differences
      are disjoint and together account for every change. */
  lemma ScanDiffReconstructs(known: set<int>, current: set<int>)
    ensures var d := ScanDiff(known, current);
      && current == (known - d.dropped) + d.added
      && d.added !! d.dropped
      && d.added !! known
      && d.dropped <= known
  {
  }

  /** Everything one pass produced besides the next state. */
  datatype Tick = Tick(state: State, writes: seq<Transfer>, refreshes: seq<Refresh>)

  function Then(first: Step, rest: Tick): Tick {
    Tick(rest.state, first.writes + rest.writes, (if first.refresh.Some? then [first.refresh.value] else []) + rest.refreshes)
  }

  /** `_handle_new_i2c_device(a)`: a mapped kind that is truthy (non-empty) leads to
      `create_module_by_i2c_address`; otherwise the device is only probed, which changes
      nothing. */
  function HandleNew(s: State, a: int, call: (string, int) -> Result<Module, Fault>, entropy: seq<byte>, ip: CentralIp): (r: Step)
    requires |entropy| == 8
    ensures Get(s.mapping, a).None? || Get(s.mapping, a).value == "" ==> r == Unchanged(s)
    ensures Get(s.mapping, a).Some? && Get(s.mapping, a).value != "" ==> r == CreateByAddress(s, a, call, entropy, ip)
    ensures SameConfig(s, r.state)
  {
    match Get(s.mapping, a)
    case Some(kind) => if kind != "" then CreateByAddress(s, a, call, entropy, ip) else Unchanged(s)
    case None => Unchanged(s)
  }

  predicate EightEach(entropy: seq<seq<byte>>) {
    forall i :: 0 <= i < |entropy| ==> |entropy[i]| == 8
  }

  /** Dropping the first draw leaves eight bytes in each of the others. */
  lemma EightEachTail(entropy: seq<seq<byte>>)
    requires |entropy| > 0 && EightEach(entropy)
    ensures |entropy[0]| == 8 && EightEach(entropy[1..])
  {
    forall i | 0 <= i < |entropy[1..]| ensures |entropy[1..][i]| == 8 {
      assert entropy[1..][i] == entropy[i + 1];
    }
  }

  /** The new-device loop, in iteration order. */
  function HandleAdded(s: State, added: seq<int>, call: (string, int) -> Result<Module, Fault>, entropy: seq<seq<byte>>, ip: CentralIp): (r: Tick)
    requires |entropy| == |added| && EightEach(entropy)
    ensures SameConfig(s, r.state)
    decreases |added|
  {
    if added == [] then Tick(s, [], [])
    else
      EightEachTail(entropy);
      var first := HandleNew(s, added[0], call, entropy[0], ip);
      Then(first, HandleAdded(first.state, added[1..], call, entropy[1..], ip))
  }

  /** The disconnected-device loop, in iteration order. */
  function HandleDropped(s: State, dropped: seq<int>, ip: CentralIp): (r: Tick)
    ensures SameConfig(s, r.state)
    decreases |dropped|
  {
    if dropped == [] then Tick(s, [], [])
    else
      var first := RemoveByAddress(s, dropped[0], ip);
      Then(first, HandleDropped(first.state, dropped[1..], ip))
  }

  /** The orders in which Python iterates the two differences: each lists its set once. */
  ghost predicate Enumerates(order: seq<int>, s: set<int>) {
    (forall a :: a in order <==> a in s) && (forall i, j :: 0 <= i < j < |order| ==> order[i] != order[j])
  }

  /** One iteration of the `while True` loop body. A failed scan (`None`) is caught and
      changes nothing; otherwise new addresses are handled, then vanished ones, and the
      known set becomes the scan whatever the handlers did. */
  function Cycle(s: State, scan: Option<set<int>>, added: seq<int>, dropped: seq<int>,
                 call: (string, int) -> Result<Module, Fault>, entropy: seq<seq<byte>>, ip: CentralIp): (r: Tick)
    requires scan.Some? ==> Enumerates(added, ScanDiff(s.known, scan.value).added)
    requires scan.Some? ==> Enumerates(dropped, ScanDiff(s.known, scan.value).dropped)
    requires |entropy| == |added| && EightEach(entropy)
    ensures scan.None? ==> r == Tick(s, [], [])
    ensures scan.Some? ==> r.state.known == scan.value
    ensures r.state.mapping == s.mapping && r.state.bus == s.bus && r.state.scanInterval == s.scanInterval
  {
    match scan
    case None => Tick(s, [], [])
    case Some(current) =>
      var created := HandleAdded(s, added, call, entropy, ip);
      var removed := HandleDropped(created.state, dropped, ip);
      Tick(removed.state.(known := current), created.writes + removed.writes, created.refreshes + removed.refreshes)
  }

  /** Removal steps keep the state valid and addresses distinct, and leave no module at any
      address they handled. */
  lemma {:induction false} HandleDroppedClears(s: State, dropped: seq<int>, ip: CentralIp)
    requires Valid(s) && DistinctAddresses(s.table)
    ensures var t := HandleDropped(s, dropped, ip).state;
      && Valid(t) && DistinctAddresses(t.table)
      && (forall b :: InUse(t.table, b) ==> InUse(s.table, b))
      && (forall a :: a in dropped ==> !InUse(t.table, a))
    decreases |dropped|
  {
    if dropped != [] {
      var first := RemoveByAddress(s, dropped[0], ip);
      RemoveByAddressKeepsInvariants(s, dropped[0], ip);
      RemoveByAddressClears(s, dropped[0], ip);
      HandleDroppedClears(first.state, dropped[1..], ip);
      assert forall a :: a in dropped ==> a == dropped[0] || a in dropped[1..];
    }
  }

  /** As written (the factory call raises), the new-device loop changes nothing. */
  lemma {:induction false} HandleAddedAsWritten(s: State, added: seq<int>, entropy: seq<seq<byte>>, ip: CentralIp)
    requires |entropy| == |added| && EightEach(entropy)
    ensures HandleAdded(s, added, AsWrittenByAddressCall, entropy, ip) == Tick(s, [], [])
    decreases |added|
  {
    if added != [] {
      EightEachTail(entropy);
      CreateByAddressAsWritten(s, added[0], entropy[0], ip);
      HandleAddedAsWritten(s, added[1..], entropy[1..], ip);
    }
  }

  /** After a pass over a valid state with distinct addresses and the factory call as
      written, no module is left at an address that disappeared, no module appears at an
      address that was not already occupied, and the state stays valid. */
  lemma CycleAsWritten(s: State, current: set<int>, added: seq<int>, dropped: seq<int>, entropy: seq<seq<byte>>, ip: CentralIp)
    requires Valid(s) && DistinctAddresses(s.table)
    requires Enumerates(added, ScanDiff(s.known, current).added)
    requires Enumerates(dropped, ScanDiff(s.known, current).dropped)
    requires |entropy| == |added| && EightEach(entropy)
    ensures var t := Cycle(s, Some(current), added, dropped, AsWrittenByAddressCall, entropy, ip).state;
      && Valid(t) && DistinctAddresses(t.table)
      && (forall a :: a in s.known && a !in current ==> !InUse(t.table, a))
      && (forall b :: InUse(t.table, b) ==> InUse(s.table, b))
  {
    HandleAddedAsWritten(s, added, entropy, ip);
    HandleDroppedClears(s, dropped, ip);
  }

  // ---------------------------------------------------------------------------------------
  // Any factory call

  /** The factory call builds its module at the address it was asked for. */
  ghost predicate PlacesAt(call: (string, int) -> Result<Module, Fault>) {
    forall k, b :: call(k, b).Success? ==> call(k, b).value.address == Some(b)
  }

  /** Address `a` is mapped to a non-empty kind, and the factory call for it succeeds. */
  predicate Accepted(s: State, a: int, call: (string, int) -> Result<Module, Fault>) {
    Get(s.mapping, a).Some? && Get(s.mapping, a).value != "" && call(Get(s.mapping, a).value, a).Success?
  }

  /** No identity the registry hands out during the new-device loop is already live. When one
      is, `modules[uuid] = module` replaces that module, wherever it sits. */
  predicate FreshIds(s: State, added: seq<int>, call: (string, int) -> Result<Module, Fault>, entropy: seq<seq<byte>>, ip: CentralIp)
    requires |entropy| == |added| && EightEach(entropy)
    decreases |added|
  {
    if added == [] then true
    else
      EightEachTail(entropy);
      && (Get(s.mapping, added[0]).Some? ==>
            GetOrCreateUuid(s.disk, Get(s.mapping, added[0]).value, added[0], entropy[0]).0 !in Keys(s.table))
      && FreshIds(HandleNew(s, added[0], call, entropy[0], ip).state, added[1..], call, entropy[1..], ip)
  }

  /** Handling a new address under a fresh identity leaves every occupied address occupied. */
  lemma HandleNewKeepsInUse(s: State, a: int, call: (string, int) -> Result<Module, Fault>, entropy: seq<byte>, ip: CentralIp, b: int)
    requires |entropy| == 8 && InUse(s.table, b)
    requires Get(s.mapping, a).Some? ==> GetOrCreateUuid(s.disk, Get(s.mapping, a).value, a, entropy).0 !in Keys(s.table)
    ensures InUse(HandleNew(s, a, call, entropy, ip).state.table, b)
  {
    var r := HandleNew(s, a, call, entropy, ip);
    if r.state.table != s.table {
      var kind := Get(s.mapping, a).value;
      var id := GetOrCreateUuid(s.disk, kind, a, entropy).0;
      var m := call(kind, a).value;
      PutShape(s.table, id, m);
      assert r.state.table == s.table + [(id, m)];
      var j :| 0 <= j < |s.table| && s.table[j].1.address == Some(b);
      assert r.state.table[j] == s.table[j];
    }
  }

  /** An accepted new address is occupied once it has been handled. */
  lemma HandleNewPlaces(s: State, a: int, call: (string, int) -> Result<Module, Fault>, entropy: seq<byte>, ip: CentralIp)
    requires |entropy| == 8 && PlacesAt(call) && Accepted(s, a, call)
    ensures InUse(HandleNew(s, a, call, entropy, ip).state.table, a)
  {
    if !InUse(s.table, a) {
      var kind := Get(s.mapping, a).value;
      var id := GetOrCreateUuid(s.disk, kind, a, entropy).0;
      PutInUse(s.table, id, call(kind, a).value, a);
    }
  }

  /** For any factory that builds at the requested address, the new-device loop keeps the
      table's keys unique and its addresses distinct. */
  lemma {:induction false} HandleAddedKeepsInvariants(s: State, added: seq<int>, call: (string, int) -> Result<Module, Fault>, entropy: seq<seq<byte>>, ip: CentralIp)
    requires |entropy| == |added| && EightEach(entropy)
    requires Valid(s) && DistinctAddresses(s.table) && PlacesAt(call)
    ensures var t := HandleAdded(s, added, call, entropy, ip).state;
      Valid(t) && DistinctAddresses(t.table)
    decreases |added|
  {
    if added != [] {
      EightEachTail(entropy);
      var first := HandleNew(s, added[0], call, entropy[0], ip);
      CreateByAddressKeepsInvariants(s, added[0], call, entropy[0], ip);
      HandleAddedKeepsInvariants(first.state, added[1..], call, entropy[1..], ip);
    }
  }

  /** With fresh identities, the new-device loop keeps every occupied address occupied and
      leaves every accepted new address occupied. */
  lemma {:induction false} HandleAddedPlaces(s: State, added: seq<int>, call: (string, int) -> Result<Module, Fault>, entropy: seq<seq<byte>>, ip: CentralIp)
    requires |entropy| == |added| && EightEach(entropy) && PlacesAt(call)
    requires FreshIds(s, added, call, entropy, ip)
    ensures var t := HandleAdded(s, added, call, entropy, ip).state.table;
      && (forall b :: InUse(s.table, b) ==> InUse(t, b))
      && (forall a :: a in added && Accepted(s, a, call) ==> InUse(t, a))
    decreases |added|
  {
    if added != [] {
      EightEachTail(entropy);
      var first := HandleNew(s, added[0], call, entropy[0], ip);
      var t := HandleAdded(s, added, call, entropy, ip).state.table;
      HandleAddedPlaces(first.state, added[1..], call, entropy[1..], ip);
      assert t == HandleAdded(first.state, added[1..], call, entropy[1..], ip).state.table;
      forall b | InUse(s.table, b) ensures InUse(t, b) {
        HandleNewKeepsInUse(s, added[0], call, entropy[0], ip, b);
      }
      forall a | a in added && Accepted(s, a, call) ensures InUse(t, a) {
        if a == added[0] {
          HandleNewPlaces(s, a, call, entropy[0], ip);
        } else {
          assert a in added[1..];
          assert Accepted(first.state, a, call);
        }
      }
    }
  }

  /** Removing by address, with unique keys, keeps every other address occupied. */
  lemma RemoveByAddressKeepsOthers(s: State, a: int, ip: CentralIp, b: int)
    requires Valid(s) && InUse(s.table, b) && b != a
    ensures InUse(RemoveByAddress(s, a, ip).state.table, b)
  {
    if InUse(s.table, a) {
      var i := FirstAt(s.table, a).value;
      var j :| 0 <= j < |s.table| && s.table[j].1.address == Some(b);
      var key := s.table[j].0;
      assert key != s.table[i].0;
      var t := RemoveByAddress(s, a, ip).state.table;
      assert s.table[j] in s.table;
      assert Get(t, key) == Some(s.table[j].1);
      var k :| 0 <= k < |t| && t[k] == (key, s.table[j].1);
      assert t[k].1.address == Some(b);
    }
  }

  /** The vanished-device loop keeps every address it does not handle occupied. */
  lemma {:induction false} HandleDroppedKeepsOthers(s: State, dropped: seq<int>, ip: CentralIp)
    requires Valid(s) && DistinctAddresses(s.table)
    ensures forall b :: InUse(s.table, b) && b !in dropped ==> InUse(HandleDropped(s, dropped, ip).state.table, b)
    decreases |dropped|
  {
    if dropped != [] {
      var first := RemoveByAddress(s, dropped[0], ip);
      RemoveByAddressKeepsInvariants(s, dropped[0], ip);
      HandleDroppedKeepsOthers(first.state, dropped[1..], ip);
      forall b | InUse(s.table, b) && b !in dropped
        ensures InUse(HandleDropped(s, dropped, ip).state.table, b)
      {
        RemoveByAddressKeepsOthers(s, dropped[0], ip, b);
        assert b !in dropped[1..];
      }
    }
  }

  /** One pass with any factory that builds at the requested address and fresh identities:
      the known set becomes the scan, no module is left at an address that vanished, every
      accepted new address is occupied, and the state stays valid with distinct addresses. */
  lemma CycleGeneral(s: State, current: set<int>, added: seq<int>, dropped: seq<int>,
                     call: (string, int) -> Result<Module, Fault>, entropy: seq<seq<byte>>, ip: CentralIp)
    requires Valid(s) && DistinctAddresses(s.table) && PlacesAt(call)
    requires Enumerates(added, ScanDiff(s.known, current).added)
    requires Enumerates(dropped, ScanDiff(s.known, current).dropped)
    requires |entropy| == |added| && EightEach(entropy)
    requires FreshIds(s, added, call, entropy, ip)
    ensures var t := Cycle(s, Some(current), added, dropped, call, entropy, ip).state;
      && Valid(t) && DistinctAddresses(t.table) && t.known == current
      && (forall a :: a in s.known && a !in current ==> !InUse(t.table, a))
      && (forall a :: a in current && a !in s.known && Accepted(s, a, call) ==> InUse(t.table, a))
  {
    var created := HandleAdded(s, added, call, entropy, ip);
    HandleAddedKeepsInvariants(s, added, call, entropy, ip);
    HandleAddedPlaces(s, added, call, entropy, ip);
    HandleDroppedClears(created.state, dropped, ip);
    HandleDroppedKeepsOthers(created.state, dropped, ip);
    var t := Cycle(s, Some(current), added, dropped, call, entropy, ip).state;
    assert t.table == HandleDropped(created.state, dropped, ip).state.table;
    forall a | a in current && a !in s.known && Accepted(s, a, call) ensures InUse(t.table, a) {
      assert a in ScanDiff(s.known, current).added;
      assert a in added;
      assert a !in dropped;
    }
  }
}

=== FILE: simple_sawtooth.dfy ===
/** `utils/simple_sawtooth.py`: a sawtooth generator on a 10-bit R-2R ladder wired to GPIO 6
    to 15. A periodic timer writes the current DAC code to the ladder and advances it by a
    step, wrapping back to the lowest code once it passes the highest. The ladder is driven
    through the RP2040's single-cycle IO block: a write to GPIO_OUT_CLR (0xD0000018) clears
    the output bits that are set in the written word, and a write to GPIO_OUT_SET
    (0xD0000014) sets them. The output register is modelled as a `bv32`; the timer is
    represented by `running`, and the callback is the function `TimerCallback`, which the
    environment applies. */
module SimpleSawtooth {
  import opened Wrappers
  import opened Values

  const DacMax := 1023
  const GpioOutSet := 0xD000_0014
  const GpioOutClr := 0xD000_0018
  /** GPIO 6 to 15, the ten ladder inputs. */
  const LadderMask: bv32 := 0x3FF << 6

  /** The generator: reference voltage, the current code, the voltage range and the codes it
      maps to, the step, whether the timer runs, the last frequency asked for, and the output
      register. */
  datatype Saw = Saw(
    vref: real, currentVal: int, minVolts: real, maxVolts: real, minDac: int, maxDac: int,
    stepSize: int, running: bool, currentFreq: int, out: bv32)

  /** What an operation leaves behind, with the exception it raised part-way, if any. */
  datatype Outcome = Outcome(saw: Saw, raised: Option<Fault>)

  /** `SimpleSawtooth(vref)`: full range 0 to `vref`, codes 0 to 1023, step 32, stopped. `out`
      is whatever the output register held. */
  function New(vref: real, out: bv32): (s: Saw)
    ensures s.minDac == 0 && s.maxDac == DacMax && s.minVolts == 0.0 && s.maxVolts == vref
    ensures !s.running && s.currentVal == 0 && s.stepSize == 32 && s.currentFreq == 1000
  {
    Saw(vref, 0, 0.0, vref, 0, DacMax, 32, false, 1000, out)
  }

  /** `max(0.0, min(vref, volts))`. */
  function ClampVolts(vref: real, volts: real): (v: real)
    ensures vref >= 0.0 ==> 0.0 <= v <= vref
    ensures 0.0 <= volts <= vref ==> v == volts
  {
    var m := if volts < vref then volts else vref;
    if m < 0.0 then 0.0 else m
  }

  /** `volts_to_dac(volts)`: the clamped voltage as a fraction of `vref`, times 1023,
      truncated. A reference of 0 raises `ZeroDivisionError`; a negative one clamps every
      voltage to 0. */
  function VoltsToDac(vref: real, volts: real): (r: Result<int, Fault>)
    ensures r.Failure? <==> vref == 0.0
    ensures vref > 0.0 ==> r.Success? && 0 <= r.value <= DacMax
    ensures vref < 0.0 ==> r == Success(0)
  {
    if vref == 0.0 then Failure(ZeroDivisionError("float division by zero"))
    else
      var v := ClampVolts(vref, volts);
      if vref > 0.0 then
        assert v / vref <= 1.0 by {
          assert v <= vref;
        }
        Success(Trunc(v / vref * DacMax as real))
      else
        assert v == 0.0;
        Success(Trunc(v / vref * DacMax as real))
  }

  /** A higher voltage never gives a lower code. */
  lemma VoltsToDacMonotone(vref: real, a: real, b: real)
    requires vref > 0.0 && a <= b
    ensures VoltsToDac(vref, a).value <= VoltsToDac(vref, b).value
  {
    var x := ClampVolts(vref, a);
    var y := ClampVolts(vref, b);
    assert x <= y;
    assert x / vref <= y / vref by {
      assert (y - x) / vref >= 0.0;
    }
    assert x / vref * 1023.0 <= y / vref * 1023.0;
  }

  /** `dac_to_volts(code)`. */
  function DacToVolts(vref: real, code: int): real {
    code as real / DacMax as real * vref
  }

  /** A code turned into a voltage and back gives the same code, so the two conversions are
      inverse on the ladder's codes (over exact reals). */
  lemma DacRoundTrip(vref: real, code: int)
    requires vref > 0.0 && 0 <= code <= DacMax
    ensures 0.0 <= DacToVolts(vref, code) <= vref
    ensures VoltsToDac(vref, DacToVolts(vref, code)) == Success(code)
  {
    var f := code as real / 1023.0;
    var v := DacToVolts(vref, code);
    assert v == f * vref;
    assert 0.0 <= f <= 1.0;
    ScaleWithin(f, vref);
    assert v / vref == f;
    assert v / vref * 1023.0 == code as real;
  }

  /** A fraction of a positive quantity lies between 0 and the quantity, and dividing it by
      the quantity gives the fraction back. */
  lemma ScaleWithin(f: real, x: real)
    requires 0.0 <= f <= 1.0 && x > 0.0
    ensures 0.0 <= f * x <= x
    ensures f * x / x == f
  {
    assert x - f * x == (1.0 - f) * x;
  }

  /** `max(0, min(1023, val))`. */
  function ClampCode(val: int): (c: int)
    ensures 0 <= c <= DacMax
    ensures 0 <= val <= DacMax ==> c == val
  {
    if val > DacMax then DacMax else if val < 0 then 0 else val
  }

  /** The code the ladder shows: bits 6 to 15 of the output register. */
  function LadderCode(out: bv32): int {
    ((out >> 6) & 0x3FF) as int
  }

  /** The two register writes of `write_r2r_fast(val)` and the output register afterwards:
      the ladder bits are cleared, then set to the clamped code; no other output changes. */
  function WriteR2R(out: bv32, val: int): (r: (seq<(int, bv32)>, bv32))
    ensures r.0 == [(GpioOutClr, LadderMask), (GpioOutSet, ClampCode(val) as bv32 << 6)]
    ensures LadderCode(r.1) == ClampCode(val)
    ensures r.1 & !LadderMask == out & !LadderMask
  {
    var c := ClampCode(val);
    var code := c as bv32;
    CodeConversion(c);
    LadderBits(out, code);
    CodeFitsMask(code);
    assert LadderCode((out & !LadderMask) | ((code & 0x3FF) << 6)) == (code as int);
    ([(GpioOutClr, LadderMask), (GpioOutSet, (code & 0x3FF) << 6)], (out & !LadderMask) | ((code & 0x3FF) << 6))
  }

  /** Clearing the ladder bits and then setting a 10-bit code there leaves the code in bits 6
      to 15 and every other bit as it was. */
  lemma LadderBits(out: bv32, code: bv32)
    requires code <= 0x3FF
    ensures var after := (out & !LadderMask) | (code << 6);
      ((after >> 6) & 0x3FF) == code && after & !LadderMask == out & !LadderMask
  {
  }

  lemma CodeConversion(c: int)
    requires 0 <= c <= DacMax
    ensures (c as bv32) as int == c && c as bv32 <= 0x3FF
  {
  }

  lemma CodeFitsMask(code: bv32)
    requires code <= 0x3FF
    ensures code & 0x3FF == code
  {
  }

  /** `timer_callback`: write the current code, advance by the step, and wrap to the lowest
      code once past the highest. A code within the range stays within it. */
  function TimerCallback(s: Saw): (r: Saw)
    ensures LadderCode(r.out) == ClampCode(s.currentVal)
    ensures s.stepSize >= 0 && s.minDac <= s.currentVal <= s.maxDac ==> s.minDac <= r.currentVal <= s.maxDac
    ensures s.currentVal + s.stepSize > s.maxDac ==> r.currentVal == s.minDac
    ensures s.currentVal + s.stepSize <= s.maxDac ==> r.currentVal == s.currentVal + s.stepSize
    ensures r.(currentVal := s.currentVal, out := s.out) == s
  {
    var out := WriteR2R(s.out, s.currentVal).1;
    var next := s.currentVal + s.stepSize;
    s.(out := out, currentVal := if next > s.maxDac then s.minDac else next)
  }

  /** `n` timer periods. */
  function Callbacks(s: Saw, n: nat): Saw {
    if n == 0 then s else TimerCallback(Callbacks(s, n - 1))
  }

  /** The callbacks change only the current code and the output register. */
  lemma {:induction false} CallbacksKeep(s: Saw, n: nat)
    ensures Callbacks(s, n).(currentVal := s.currentVal, out := s.out) == s
  {
    if n > 0 {
      CallbacksKeep(s, n - 1);
    }
  }

  /** From the lowest code, the ramp climbs one step per period while it stays within the
      range. */
  lemma {:induction false} RampClimbs(s: Saw, j: nat)
    requires s.stepSize >= 1 && s.minDac <= s.maxDac && s.currentVal == s.minDac
    requires j <= (s.maxDac - s.minDac) / s.stepSize
    ensures Callbacks(s, j).currentVal == s.minDac + j * s.stepSize
  {
    if j > 0 {
      RampClimbs(s, j - 1);
      CallbacksKeep(s, j - 1);
      StepFits(s.maxDac - s.minDac, s.stepSize, j);
    }
  }

  /** The ramp passes through `(maxDac - minDac) / step + 1` codes and is then back at the
      lowest code: the sawtooth's period. */
  lemma RampWraps(s: Saw)
    requires s.stepSize >= 1 && s.minDac <= s.maxDac && s.currentVal == s.minDac
    ensures var q := (s.maxDac - s.minDac) / s.stepSize;
      && Callbacks(s, q).currentVal == s.minDac + q * s.stepSize
      && Callbacks(s, q + 1).currentVal == s.minDac
  {
    var q := (s.maxDac - s.minDac) / s.stepSize;
    RampClimbs(s, q);
    CallbacksKeep(s, q);
    WrapStep(s.maxDac - s.minDac, s.stepSize);
  }

  lemma WrapStep(a: int, b: int)
    requires a >= 0 && b >= 1
    ensures (a / b) * b + b > a
  {
    DivBounds(a, b);
    assert (a / b) * b + b == (a / b + 1) * b;
  }

  lemma StepFits(a: int, b: int, j: int)
    requires a >= 0 && b >= 1 && 1 <= j <= a / b
    ensures (j - 1) * b + b == j * b && j * b <= a
  {
    DivBounds(a, b);
    MulMonotone(j, a / b, b);
  }

  lemma DivBounds(a: int, b: int)
    requires a >= 0 && b >= 1
    ensures (a / b) * b <= a < (a / b + 1) * b
  {
  }

  lemma MulMonotone(x: int, y: int, k: int)
    requires x <= y && k >= 0
    ensures x * k <= y * k
  {
  }

  /** `start(freq)`: a running generator is stopped first. The frequency is recorded, the
      step becomes a 32nd of the code range but at least 1, and the ramp restarts at the
      lowest code. `timerOk` is whether the timer accepted the frequency; when it raises, the
      exception is caught and the generator stays stopped, with the new step and code kept. */
  function Start(s: Saw, freq: int, timerOk: bool): (r: Saw)
    ensures r.stepSize >= 1 && r.currentVal == r.minDac && r.currentFreq == freq
    ensures r.running <==> timerOk
    ensures r.minDac == s.minDac && r.maxDac == s.maxDac && r.vref == s.vref
    ensures r.minVolts == s.minVolts && r.maxVolts == s.maxVolts
    ensures var range := s.maxDac - s.minDac;
      && (range < 64 ==> r.stepSize == 1)
      && (range >= 64 ==> r.stepSize * 32 <= range < (r.stepSize + 1) * 32)
    ensures !s.running ==> r.out == s.out
  {
    var t := Stop(s);
    var range := t.maxDac - t.minDac;
    var step := if range / 32 > 1 then range / 32 else 1;
    t.(currentFreq := freq, stepSize := step, currentVal := t.minDac, running := timerOk)
  }

  /** `stop()`: only a running generator is stopped; it then outputs the lowest code and
      restarts its ramp there. */
  function Stop(s: Saw): (r: Saw)
    ensures !s.running ==> r == s
    ensures s.running ==> !r.running && r.currentVal == s.minDac && LadderCode(r.out) == ClampCode(s.minDac)
    ensures r.(currentVal := s.currentVal, out := s.out, running := s.running) == s
  {
    if s.running then
      s.(out := WriteR2R(s.out, s.minDac).1, currentVal := s.minDac, running := false)
    else s
  }

  /** The voltage pair `set_voltage_range` stores: both clamped into [0, vref]; when they
      are not in order the maximum becomes the minimum plus 10 mV, and if that passes `vref`
      the pair becomes `vref - 0.01` and `vref`. */
  function OrderRange(vref: real, minVolts: real, maxVolts: real): (r: (real, real))
    ensures vref >= 0.01 ==> 0.0 <= r.0 < r.1 <= vref
    ensures vref > 0.0 && 0.0 <= minVolts < maxVolts <= vref ==> r == (minVolts, maxVolts)
    ensures r.0 <= r.1
  {
    var lo := ClampVolts(vref, minVolts);
    var hi := ClampVolts(vref, maxVolts);
    if lo >= hi then
      if lo + 0.01 > vref then (vref - 0.01, vref) else (lo, lo + 0.01)
    else (lo, hi)
  }

  /** `set_voltage_range(min_volts, max_volts)` with the voltages clamped into [0, vref] and
      put in order; `None` for the maximum means `vref`. The codes follow from the voltages,
      and a running generator is restarted at its frequency (`timerOk` as for `Start`). A
      reference of 0 raises in `volts_to_dac` after the voltages are stored. */
  function SetVoltageRange(s: Saw, minVolts: real, maxVolts: Option<real>, timerOk: bool): (r: Outcome)
    ensures r.raised.Some? <==> s.vref == 0.0
    ensures s.vref >= 0.01 ==>
      && 0.0 <= r.saw.minVolts < r.saw.maxVolts <= s.vref
      && 0 <= r.saw.minDac <= r.saw.maxDac <= DacMax
    ensures s.vref > 0.0 && 0.0 <= minVolts < maxVolts.GetOr(s.vref) <= s.vref ==>
      r.saw.minVolts == minVolts && r.saw.maxVolts == maxVolts.GetOr(s.vref)
    ensures s.vref != 0.0 ==>
      && r.saw.minDac == VoltsToDac(s.vref, r.saw.minVolts).value
      && r.saw.maxDac == VoltsToDac(s.vref, r.saw.maxVolts).value
      && r.saw.running == (s.running && timerOk)
  {
    var (lo', hi') := OrderRange(s.vref, minVolts, maxVolts.GetOr(s.vref));
    var t := s.(minVolts := lo', maxVolts := hi');
    match VoltsToDac(s.vref, lo')
    case Failure(e) => Outcome(t, Some(e))
    case Success(minDac) =>
      var maxDac := VoltsToDac(s.vref, hi').value;
      assert s.vref > 0.0 && lo' <= hi' ==> minDac <= maxDac by {
        if s.vref > 0.0 && lo' <= hi' {
          VoltsToDacMonotone(s.vref, lo', hi');
        }
      }
      var u := t.(minDac := minDac, maxDac := maxDac);
      Outcome(if s.running then Start(Stop(u), s.currentFreq, timerOk) else u, None)
  }

  /** `get_current_voltage()`. */
  function CurrentVoltage(s: Saw): (v: real)
    ensures s.vref > 0.0 && 0 <= s.currentVal <= DacMax ==>
      0.0 <= v <= s.vref && VoltsToDac(s.vref, v) == Success(s.currentVal)
  {
    assert s.vref > 0.0 && 0 <= s.currentVal <= DacMax ==>
      && 0.0 <= DacToVolts(s.vref, s.currentVal) <= s.vref
      && VoltsToDac(s.vref, DacToVolts(s.vref, s.currentVal)) == Success(s.currentVal) by {
      if s.vref > 0.0 && 0 <= s.currentVal <= DacMax {
        DacRoundTrip(s.vref, s.currentVal);
      }
    }
    DacToVolts(s.vref, s.currentVal)
  }

  /** `set_reference_voltage(vref)`: the codes stay and the voltages are recomputed from them,
      so converting the new voltages back gives the same codes. */
  function SetReferenceVoltage(s: Saw, vref: real): (r: Saw)
    ensures r.minDac == s.minDac && r.maxDac == s.maxDac && r.vref == vref
    ensures vref > 0.0 && 0 <= s.minDac <= DacMax && 0 <= s.maxDac <= DacMax ==>
      VoltsToDac(vref, r.minVolts) == Success(s.minDac) && VoltsToDac(vref, r.maxVolts) == Success(s.maxDac)
  {
    assert vref > 0.0 && 0 <= s.minDac <= DacMax && 0 <= s.maxDac <= DacMax ==>
      && VoltsToDac(vref, DacToVolts(vref, s.minDac)) == Success(s.minDac)
      && VoltsToDac(vref, DacToVolts(vref, s.maxDac)) == Success(s.maxDac) by {
      if vref > 0.0 && 0 <= s.minDac <= DacMax && 0 <= s.maxDac <= DacMax {
        DacRoundTrip(vref, s.minDac);
        DacRoundTrip(vref, s.maxDac);
      }
    }
    s.(vref := vref, minVolts := DacToVolts(vref, s.minDac), maxVolts := DacToVolts(vref, s.maxDac))
  }
}

=== FILE: temperature_sensor.dfy ===
/** `module/sensors/temperature.py`: the LM75B temperature sensor. A read sets the pointer
    register to 0x00 (the temperature register) and reads two bytes. Following the NXP LM75B
    datasheet's temperature-register layout, the eleven most significant bits of the 16-bit
    word (D15..D5) hold the temperature in two's complement with 0.125 °C per step, and the
    five low bits are unused. */
module TemperatureSensor {
  import opened Wrappers
  import opened Text
  import opened Values
  import Battery

  const TempRegister: byte := 0x00

  /** The transfers one `read_lm75b_temperature` issues. */
  function ReadTransfers(address: int): (t: seq<Transfer>)
    ensures |t| == 2 && t[0] == WriteTo(address, [0x00]) && t[1] == ReadFrom(address, 2)
  {
    [WriteTo(address, [TempRegister]), ReadFrom(address, 2)]
  }

  /** `(data[0] << 8) | data[1]` then `>> 5`: the 11-bit register field. */
  function Field(b0: byte, b1: byte): (t: int)
    ensures 0 <= t < 2048
  {
    (b0 * 256 + b1) / 32
  }

  /** `if temp_raw & 0x400: temp_raw -= 0x800`: bit 10 is the sign. */
  function Signed(t: int): int
    requires 0 <= t < 2048
  {
    if (t / 1024) % 2 == 1 then t - 2048 else t
  }

  /** The decoded reading in eighths of a degree. */
  function Eighths(b0: byte, b1: byte): (s: int)
    ensures -1024 <= s <= 1023
  {
    Signed(Field(b0, b1))
  }

  /** `temp_raw * 0.125`: the reading in °C, in [-128, 127.875] and a multiple of 0.125. */
  function Celsius(b0: byte, b1: byte): (c: real)
    ensures -128.0 <= c <= 127.875
    ensures c == Eighths(b0, b1) as real / 8.0
  {
    Eighths(b0, b1) as real * 0.125
  }

  /** The five unused low bits of the second byte never change the reading. */
  lemma LowBitsIgnored(b0: byte, b1: byte, b1': byte)
    requires b1 / 32 == b1' / 32
    ensures Celsius(b0, b1) == Celsius(b0, b1')
  {
    FieldSplit(b0, b1);
    FieldSplit(b0, b1');
  }

  lemma FieldSplit(b0: byte, b1: byte)
    ensures Field(b0, b1) == b0 * 8 + b1 / 32
  {
  }

  /** The register layout written out: the upper eight bits of the 11-bit two's-complement
      value in the first byte, the lower three at the top of the second. */
  function Encode(s: int): (bytes: (byte, byte))
    requires -1024 <= s <= 1023
    ensures bytes.1 % 32 == 0
  {
    var u := if s < 0 then s + 2048 else s;
    (u / 8, (u % 8) * 32)
  }

  /** Decoding inverts the layout for every 11-bit value. */
  lemma DecodeEncode(s: int)
    requires -1024 <= s <= 1023
    ensures var (b0, b1) := Encode(s); Eighths(b0, b1) == s
  {
    var u := if s < 0 then s + 2048 else s;
    var (b0, b1) := Encode(s);
    assert b0 * 256 + b1 == u * 32;
  }

  /** Encoding a decoded reading gives back the bytes up to the unused bits. */
  lemma EncodeDecode(b0: byte, b1: byte)
    ensures Encode(Eighths(b0, b1)) == (b0, b1 - b1 % 32)
  {
    FieldSplit(b0, b1);
  }

  /** `get_state()`. With a bus and an address the sensor is read: a reply of two bytes gives
      their temperature, a failed transfer gives `{"error": msg}`. Without a bus the reading
      is 0. (`round(c, 2)` and the Fahrenheit value, which is never reported, are left out.) */
  function GetState(bus: Option<BusHandle>, address: Option<int>, reply: Result<(byte, byte), string>, batteryRaw: int): (r: Report)
    ensures bus.None? || address.None? ==> r == TemperatureState(0.0, Battery.Percentage(batteryRaw))
    ensures bus.Some? && address.Some? && reply.Failure? ==> r == ErrorState(reply.error)
    ensures bus.Some? && address.Some? && reply.Success? ==>
      r.TemperatureState? && r.temperatureC == Celsius(reply.value.0, reply.value.1)
      && -128.0 <= r.temperatureC <= 127.875
  {
    if bus.Some? && address.Some? then
      match reply
      case Failure(msg) => ErrorState(msg)
      case Success((b0, b1)) => TemperatureState(Celsius(b0, b1), Battery.Percentage(batteryRaw))
    else TemperatureState(0.0, Battery.Percentage(batteryRaw))
  }
}

=== FILE: text.dfy ===
/** The string and byte primitives the firmware leans on, with MicroPython's semantics:
    `str.strip()`, `str.split()`, `str.split(sep)`, `str.lower()`, `str(n)` and the
    two-digit lower-case hex rendering `f"{b:02x}"`. MicroPython treats only space, tab,
    line feed, vertical tab, form feed and carriage return as white space, and lower-cases
    only ASCII letters. */
module Text {
  import opened Wrappers

  /** A byte as Python's `bytes` holds it. */
  type byte = x: int | 0 <= x < 256

  // ---------------------------------------------------------------------------------------
  // White space and stripping

  predicate IsSpace(c: char) {
    c == ' ' || c == '\t' || c == '\n' || c == '\r' || c == '\U{000B}' || c == '\U{000C}'
  }

  predicate NoSpace(s: string) {
    forall i :: 0 <= i < |s| ==> !IsSpace(s[i])
  }

  lemma NoSpaceConcat(a: string, b: string)
    requires NoSpace(a) && NoSpace(b)
    ensures NoSpace(a + b)
  {
    assert forall i :: |a| <= i < |a| + |b| ==> (a + b)[i] == b[i - |a|];
  }

  /** Drops the leading white space: the result is the suffix that starts at the first
      non-space character. */
  function TrimStart(s: string): (r: string)
    ensures |r| <= |s| && r == s[|s| - |r|..]
    ensures r == [] || !IsSpace(r[0])
    ensures forall i :: 0 <= i < |s| - |r| ==> IsSpace(s[i])
  {
    if |s| > 0 && IsSpace(s[0]) then TrimStart(s[1..]) else s
  }

  /** Drops the trailing white space: the result is the prefix that ends at the last
      non-space character. */
  function TrimEnd(s: string): (r: string)
    ensures |r| <= |s| && r == s[..|r|]
    ensures r == [] || !IsSpace(r[|r| - 1])
    ensures forall i :: |r| <= i < |s| ==> IsSpace(s[i])
  {
    if |s| > 0 && IsSpace(s[|s| - 1]) then TrimEnd(s[..|s| - 1]) else s
  }

  /** Python `s.strip()`. */
  function Strip(s: string): string {
    TrimEnd(TrimStart(s))
  }

  /** Stripping twice changes nothing more. */
  lemma StripIdempotent(s: string)
    ensures Strip(Strip(s)) == Strip(s)
  {
    var t := TrimStart(s);
    var r := TrimEnd(t);
    if r != [] {
      assert r[0] == t[0];
    }
    StripUnchanged(r);
  }

  lemma StripUnchanged(r: string)
    requires r == [] || (!IsSpace(r[0]) && !IsSpace(r[|r| - 1]))
    ensures Strip(r) == r
  {
    assert TrimStart(r) == r;
  }

  // ---------------------------------------------------------------------------------------
  // Case and prefixes

  /** MicroPython `str.lower()`: ASCII upper-case letters only. */
  function Lower(s: string): (r: string)
    ensures |r| == |s|
    ensures forall i :: 0 <= i < |s| ==> r[i] == LowerChar(s[i])
  {
    if s == [] then []
    else [LowerChar(s[0])] + Lower(s[1..])
  }

  /** ASCII lower-casing of one character; every other character is left alone. */
  function LowerChar(c: char): char {
    if 'A' <= c <= 'Z' then (c as int + 32) as char else c
  }

  /** A lower-case letter comes from itself or from its upper-case form, and from nothing
      else. */
  lemma LowerCharIs(c: char, l: char)
    requires 'a' <= l <= 'z'
    ensures LowerChar(c) == l <==> c == l || c as int == l as int - 32
  {
  }

  /** Python `s.startswith(p)`. */
  predicate StartsWith(s: string, p: string) {
    |p| <= |s| && s[..|p|] == p
  }

  // ---------------------------------------------------------------------------------------
  // Decimal rendering `str(n)` and its inverse

  function DigitChar(d: nat): char
    requires d < 10
  {
    ('0' as int + d) as char
  }

  predicate IsDigit(c: char) {
    '0' as int <= c as int <= '9' as int
  }

  /** Python `str(n)` for a non-negative integer. */
  function Decimal(n: nat): (r: string)
    ensures 1 <= |r|
    ensures forall i :: 0 <= i < |r| ==> IsDigit(r[i])
  {
    if n < 10 then [DigitChar(n)] else Decimal(n / 10) + [DigitChar(n % 10)]
  }

  /** Reads a string of decimal digits back as a number. */
  function DigitsValue(s: string): nat
    requires forall i :: 0 <= i < |s| ==> IsDigit(s[i])
  {
    if s == [] then 0
    else
      var last := s[|s| - 1];
      assert IsDigit(last);
      DigitsValue(s[..|s| - 1]) * 10 + (last as int - '0' as int)
  }

  /** Reading back the decimal rendering of `n` gives `n`. */
  lemma {:induction false} DecimalRoundTrip(n: nat)
    ensures DigitsValue(Decimal(n)) == n
  {
    if n >= 10 {
      var r := Decimal(n);
      var p := Decimal(n / 10);
      assert r[..|r| - 1] == p;
      DecimalRoundTrip(n / 10);
    }
  }

  /** Distinct numbers render as distinct strings. */
  lemma DecimalInjective(m: nat, n: nat)
    ensures Decimal(m) == Decimal(n) ==> m == n
  {
    DecimalRoundTrip(m);
    DecimalRoundTrip(n);
  }

  /** Python `str(n)` (and `f"{n}"`) for any integer. */
  function IntText(n: int): (t: string)
    ensures '_' !in t
    ensures |t| >= 1
  {
    if n < 0 then "-" + Decimal(-n) else Decimal(n)
  }

  lemma IntTextInjective(a: int, b: int)
    ensures IntText(a) == IntText(b) ==> a == b
  {
    if IntText(a) == IntText(b) {
      assert (a < 0) == (b < 0) by {
        assert IntText(a)[0] == IntText(b)[0];
        assert a >= 0 ==> IsDigit(IntText(a)[0]);
        assert b >= 0 ==> IsDigit(IntText(b)[0]);
      }
      if a < 0 {
        assert Decimal(-a) == IntText(a)[1..] == IntText(b)[1..] == Decimal(-b);
        DecimalInjective(-a, -b);
      } else {
        DecimalInjective(a, b);
      }
    }
  }

  // ---------------------------------------------------------------------------------------
  // Lower-case hex `f"{b:02x}"` and its inverse

  function HexDigit(d: nat): char
    requires d < 16
  {
    if d < 10 then ('0' as int + d) as char else ('a' as int + d - 10) as char
  }

  predicate IsLowerHex(c: char) {
    ('0' <= c <= '9') || ('a' <= c <= 'f')
  }

  /** The value of one lower-case hex digit. */
  function HexDigitValue(c: char): (r: Option<nat>)
    ensures r.Some? <==> IsLowerHex(c)
    ensures r.Some? ==> r.value < 16 && HexDigit(r.value) == c
  {
    if '0' <= c <= '9' then Some(c as int - '0' as int)
    else if 'a' <= c <= 'f' then Some(c as int - 'a' as int + 10)
    else None
  }

  /** `f"{b:02x}"`: two lower-case hex digits, high nibble first. */
  function HexByte(b: byte): string {
    [HexDigit(b / 16), HexDigit(b % 16)]
  }

  /** `''.join(f"{b:02x}" for b in bs)`. */
  function Hex(bs: seq<byte>): (r: string)
    ensures |r| == 2 * |bs|
    ensures forall i :: 0 <= i < |r| ==> IsLowerHex(r[i])
  {
    if bs == [] then [] else HexByte(bs[0]) + Hex(bs[1..])
  }

  /** Parses pairs of lower-case hex digits back into bytes. */
  function UnHex(s: string): Option<seq<byte>>
    decreases |s|
  {
    if s == [] then Some([])
    else if |s| == 1 then None
    else
      match (HexDigitValue(s[0]), HexDigitValue(s[1]), UnHex(s[2..]))
      case (Some(hi), Some(lo), Some(rest)) => Some([hi * 16 + lo] + rest)
      case _ => None
  }

  /** Parsing the hex rendering of a byte string gives the byte string back. */
  lemma {:induction false} UnHexOfHex(bs: seq<byte>)
    ensures UnHex(Hex(bs)) == Some(bs)
  {
    if bs != [] {
      UnHexOfHex(bs[1..]);
      UnHexByte(bs[0], Hex(bs[1..]), bs[1..]);
      assert [bs[0]] + bs[1..] == bs;
    }
  }

  /** One byte's two digits in front of a parsable rest parse to that byte in front. */
  lemma UnHexByte(b: byte, t: string, rest: seq<byte>)
    requires UnHex(t) == Some(rest)
    ensures UnHex(HexByte(b) + t) == Some([b] + rest)
  {
    var s := HexByte(b) + t;
    assert s[2..] == t;
    HexByteDigits(b);
    assert s[0] == HexByte(b)[0] && s[1] == HexByte(b)[1];
  }

  lemma HexByteDigits(b: byte)
    ensures HexDigitValue(HexByte(b)[0]) == Some(b / 16)
    ensures HexDigitValue(HexByte(b)[1]) == Some(b % 16)
  {
  }

  /** Distinct byte strings render as distinct hex strings. */
  lemma HexInjective(a: seq<byte>, b: seq<byte>)
    ensures Hex(a) == Hex(b) ==> a == b
  {
    UnHexOfHex(a);
    UnHexOfHex(b);
  }

  // ---------------------------------------------------------------------------------------
  // Searching and splitting on a separator `s.split(sep)`

  predicate OccursAt(s: string, sep: string, i: nat) {
    i + |sep| <= |s| && s[i..i + |sep|] == sep
  }

  predicate Contains(s: string, sep: string) {
    exists i: nat | i <= |s| :: OccursAt(s, sep, i)
  }

  /** A string without the one-character separator does not hold that character. */
  lemma NoCharNotContains(s: string, c: char)
    requires !Contains(s, [c])
    ensures c !in s
  {
    forall i | 0 <= i < |s| ensures s[i] != c {
      assert !OccursAt(s, [c], i);
      assert s[i..i + 1] == [s[i]];
    }
  }

  /** The index of the first occurrence of `sep` in `s` (Python `s.find(sep)`). */
  function FindFirst(s: string, sep: string): (r: Option<nat>)
    requires |sep| > 0
    ensures r.Some? ==> OccursAt(s, sep, r.value)
    ensures r.Some? ==> forall j: nat :: j < r.value ==> !OccursAt(s, sep, j)
    ensures r.None? ==> forall j: nat :: !OccursAt(s, sep, j)
    decreases |s|
  {
    if |s| < |sep| then None
    else if s[..|sep|] == sep then Some(0)
    else
      var tail := FindFirst(s[1..], sep);
      assert forall j: nat :: OccursAt(s, sep, j + 1) <==> OccursAt(s[1..], sep, j) by {
        forall j: nat ensures OccursAt(s, sep, j + 1) <==> OccursAt(s[1..], sep, j) {
          if j + 1 + |sep| <= |s| {
            assert s[1..][j..j + |sep|] == s[j + 1..j + 1 + |sep|];
          }
        }
      }
      assert !OccursAt(s, sep, 0);
      match tail
      case None =>
        assert forall j: nat :: !OccursAt(s, sep, j) by {
          forall j: nat ensures !OccursAt(s, sep, j) {
            if j > 0 {
              assert !OccursAt(s[1..], sep, j - 1);
            }
          }
        }
        None
      case Some(k) =>
        assert forall j: nat :: j < k + 1 ==> !OccursAt(s, sep, j) by {
          forall j: nat | j < k + 1 ensures !OccursAt(s, sep, j) {
            if j > 0 {
              assert !OccursAt(s[1..], sep, j - 1);
            }
          }
        }
        Some(k + 1)
  }

  lemma FindFirstNoneNotContains(s: string, sep: string)
    requires |sep| > 0
    ensures FindFirst(s, sep).None? <==> !Contains(s, sep)
  {
    if FindFirst(s, sep).Some? {
      assert OccursAt(s, sep, FindFirst(s, sep).value);
    }
  }

  /** When the separator's first character does not occur in `head`, the first occurrence
      of the separator in `head + sep + rest` is right after `head`. */
  lemma FindFirstAfterClean(head: string, sep: string, rest: string)
    requires |sep| > 0 && sep[0] !in head
    ensures FindFirst(head + sep + rest, sep) == Some(|head|)
  {
    var s := head + sep + rest;
    assert OccursAt(s, sep, |head|) by {
      assert s[|head|..|head| + |sep|] == sep;
    }
    forall j: nat | j < |head| ensures !OccursAt(s, sep, j) {
      assert s[j] == head[j];
      assert s[j] != sep[0];
    }
  }

  /** The text before the first separator, when the separator's first character does not
      occur before it. */
  lemma BeforeFirstClean(head: string, sep: string, rest: string)
    requires |sep| > 0 && sep[0] !in head
    ensures BeforeFirst(head + sep + rest, sep) == head
  {
    FindFirstAfterClean(head, sep, rest);
    assert (head + sep + rest)[..|head|] == head;
  }

  /** Python `sep.join(parts)`. */
  function Join(parts: seq<string>, sep: string): string {
    if |parts| == 0 then ""
    else if |parts| == 1 then parts[0]
    else parts[0] + sep + Join(parts[1..], sep)
  }

  /** Python `s.split(sep)` for a non-empty separator: the pieces between non-overlapping
      occurrences found from the left. Joining the pieces with `sep` rebuilds `s`, and no
      piece holds an occurrence of `sep`. */
  function Split(s: string, sep: string): (r: seq<string>)
    requires |sep| > 0
    ensures |r| >= 1
    ensures Join(r, sep) == s
    ensures forall k :: 0 <= k < |r| ==> !Contains(r[k], sep)
    decreases |s|
  {
    match FindFirst(s, sep)
    case None => [s]
    case Some(i) =>
      var head := s[..i];
      var rest := Split(s[i + |sep|..], sep);
      assert s == head + sep + s[i + |sep|..];
      assert !Contains(head, sep) by {
        forall j: nat | OccursAt(head, sep, j) ensures false {
          assert s[j..j + |sep|] == head[j..j + |sep|];
          assert OccursAt(s, sep, j);
        }
      }
      [head] + rest
  }

  /** `s.split(sep)` has a second piece exactly when `sep` occurs in `s`. */
  lemma SplitPieces(s: string, sep: string)
    requires |sep| > 0
    ensures |Split(s, sep)| >= 2 <==> Contains(s, sep)
  {
    FindFirstNoneNotContains(s, sep);
    match FindFirst(s, sep)
    case None =>
    case Some(i) =>
      assert |Split(s, sep)| == 1 + |Split(s[i + |sep|..], sep)|;
  }

  /** The text before the first `sep`, or all of `s` (Python `s.split(sep)[0]`). */
  function BeforeFirst(s: string, sep: string): (r: string)
    requires |sep| > 0
    ensures r == Split(s, sep)[0]
    ensures StartsWith(s, r) && !Contains(r, sep)
  {
    match FindFirst(s, sep)
    case None => s
    case Some(i) => s[..i]
  }

  /** The text after the first `sep`, or all of `s` when there is none
      (Python `s.split(sep, 1)[-1]`). */
  function AfterFirst(s: string, sep: string): (r: string)
    requires |sep| > 0
    ensures Contains(s, sep) ==> s == BeforeFirst(s, sep) + sep + r
    ensures !Contains(s, sep) ==> r == s
  {
    FindFirstNoneNotContains(s, sep);
    match FindFirst(s, sep)
    case None => s
    case Some(i) => s[i + |sep|..]
  }

  /** For a one-character separator, splitting a join of separator-free parts gives the parts
      back. */
  lemma {:induction false} SplitJoinChar(parts: seq<string>, c: char)
    requires |parts| >= 1
    requires forall k :: 0 <= k < |parts| ==> c !in parts[k]
    ensures Split(Join(parts, [c]), [c]) == parts
  {
    var sep := [c];
    var s := Join(parts, sep);
    if |parts| == 1 {
      assert forall j: nat :: !OccursAt(s, sep, j) by {
        forall j: nat | j < |s| ensures !OccursAt(s, sep, j) {
          assert s[j] in parts[0];
        }
      }
    } else {
      var p := parts[0];
      var rest := Join(parts[1..], sep);
      assert s == p + sep + rest;
      assert OccursAt(s, sep, |p|);
      assert forall j: nat :: j < |p| ==> !OccursAt(s, sep, j) by {
        forall j: nat | j < |p| ensures !OccursAt(s, sep, j) {
          assert s[j] == p[j];
        }
      }
      assert FindFirst(s, sep) == Some(|p|);
      assert s[..|p|] == p;
      assert s[|p| + 1..] == rest;
      SplitJoinChar(parts[1..], c);
      assert parts == [p] + parts[1..];
    }
  }

  // ---------------------------------------------------------------------------------------
  // Splitting on runs of white space `s.split()`

  /** The length of the run of non-space characters at the start of `s`. */
  function TokenLength(s: string): (n: nat)
    ensures n <= |s|
    ensures NoSpace(s[..n])
    ensures n < |s| ==> IsSpace(s[n])
  {
    if s == [] || IsSpace(s[0]) then 0
    else
      var k := TokenLength(s[1..]);
      assert s[..k + 1] == [s[0]] + s[1..][..k];
      k + 1
  }

  /** Python `s.split()`: the maximal runs of non-space characters, in order. */
  function SplitWhitespace(s: string): seq<string>
    decreases |s|
  {
    var t := TrimStart(s);
    if t == [] then []
    else
      var n := TokenLength(t);
      [t[..n]] + SplitWhitespace(t[n..])
  }

  /** Non-empty runs of non-space characters, as `s.split()` yields them. */
  predicate Words(r: seq<string>) {
    forall k :: 0 <= k < |r| ==> |r[k]| > 0 && NoSpace(r[k])
  }

  lemma WordsCons(w: string, rest: seq<string>)
    requires |w| > 0 && NoSpace(w) && Words(rest)
    ensures Words([w] + rest)
  {
    forall k | 0 < k < |[w] + rest| ensures ([w] + rest)[k] == rest[k - 1] { }
  }

  lemma WordsUncons(r: seq<string>)
    requires |r| > 0 && Words(r)
    ensures |r[0]| > 0 && NoSpace(r[0]) && Words(r[1..])
  {
    forall k | 0 <= k < |r| - 1 ensures r[1..][k] == r[k + 1] { }
  }

  /** Every piece of `s.split()` is a non-empty run of non-space characters. */
  lemma {:induction false} SplitWhitespaceWords(s: string)
    ensures Words(SplitWhitespace(s))
    decreases |s|
  {
    var t := TrimStart(s);
    if t != [] {
      var n := TokenLength(t);
      assert n > 0;
      SplitWhitespaceWords(t[n..]);
      WordsCons(t[..n], SplitWhitespace(t[n..]));
    }
  }

  lemma SplitWhitespaceLeadingSpace(c: char, s: string)
    requires IsSpace(c)
    ensures SplitWhitespace([c] + s) == SplitWhitespace(s)
  {
    assert ([c] + s)[1..] == s;
  }

  /** A leading token is split off whole when white space (or nothing) follows it. */
  lemma {:induction false} SplitWhitespaceToken(p: string, rest: string)
    requires |p| > 0 && NoSpace(p)
    requires rest == [] || IsSpace(rest[0])
    ensures SplitWhitespace(p + rest) == [p] + SplitWhitespace(rest)
  {
    var s := p + rest;
    assert TrimStart(s) == s;
    TokenOfJoin(p, rest);
    assert s[..|p|] == p;
    assert s[|p|..] == rest;
  }

  /** Splitting a single-space join of non-empty space-free tokens gives the tokens back. */
  lemma {:induction false} SplitWhitespaceJoin(toks: seq<string>)
    requires Words(toks)
    ensures SplitWhitespace(Join(toks, " ")) == toks
  {
    if |toks| == 1 {
      WordsUncons(toks);
      SplitWhitespaceToken(toks[0], "");
      SplitWhitespaceSingle(toks[0]);
    } else if |toks| > 1 {
      var tail := toks[1..];
      var rest := Join(tail, " ");
      WordsUncons(toks);
      SplitWhitespaceJoin(tail);
      SplitWhitespaceLeadingSpace(' ', rest);
      SplitWhitespaceToken(toks[0], [' '] + rest);
      SplitWhitespaceCons(toks);
    }
  }

  /** The single-token case of `SplitWhitespaceJoin`, from the leading-token step. Kept apart
      so that no `NoSpace` fact is in scope: with one, the solver unfolds `SplitWhitespace`
      character by character. */
  lemma SplitWhitespaceSingle(p: string)
    requires SplitWhitespace(p + "") == [p] + SplitWhitespace("")
    ensures SplitWhitespace(Join([p], " ")) == [p]
  {
    assert SplitWhitespace("") == [];
    assert p + "" == p;
    assert [p] + [] == [p];
  }

  /** The step case of `SplitWhitespaceJoin`, from the facts about the first token, the space
      after it and the rest. */
  lemma SplitWhitespaceCons(toks: seq<string>)
    requires |toks| > 1
    requires var rest := Join(toks[1..], " ");
      && SplitWhitespace(toks[0] + ([' '] + rest)) == [toks[0]] + SplitWhitespace([' '] + rest)
      && SplitWhitespace([' '] + rest) == SplitWhitespace(rest)
      && SplitWhitespace(rest) == toks[1..]
    ensures SplitWhitespace(Join(toks, " ")) == toks
  {
    var rest := Join(toks[1..], " ");
    JoinSpaceCons(toks);
    SplitWhitespaceChain(Join(toks, " "), toks[0], [' '] + rest, rest, toks[1..]);
    HeadTail(toks, SplitWhitespace(Join(toks, " ")));
  }

  lemma SplitWhitespaceChain(x: string, a: string, y: string, z: string, t: seq<string>)
    requires x == a + y
    requires SplitWhitespace(a + y) == [a] + SplitWhitespace(y)
    requires SplitWhitespace(y) == SplitWhitespace(z) && SplitWhitespace(z) == t
    ensures SplitWhitespace(x) == [a] + t
  {
  }

  lemma HeadTail<T>(s: seq<T>, x: seq<T>)
    requires |s| > 0 && x == [s[0]] + s[1..]
    ensures x == s
  {
  }

  /** Joining two or more parts puts the first part, a space, then the join of the rest. */
  lemma JoinSpaceCons(toks: seq<string>)
    requires |toks| > 1
    ensures Join(toks, " ") == toks[0] + ([' '] + Join(toks[1..], " "))
  {
  }

  /** The token length of a space-free word followed by white space is the word's length. */
  lemma {:induction false} TokenOfJoin(p: string, rest: string)
    requires NoSpace(p)
    requires rest == [] || IsSpace(rest[0])
    ensures TokenLength(p + rest) == |p|
  {
    if p != [] {
      assert (p + rest)[1..] == p[1..] + rest;
      TokenOfJoin(p[1..], rest);
    }
  }
}

=== FILE: values.dfy ===
/** The values that cross the drivers' interfaces: the JSON values a client may send as a new
    state, the state reports the drivers return, the I2C transfers they issue and the
    exceptions the firmware raises. */
module Values {
  import opened Wrappers
  import opened Text

  /** A decoded JSON value as Python holds it. For a string, `asFloat` is what Python's
      `float()` makes of its text (a number for numeric text, `None` when it raises). */
  datatype Value =
    | Null
    | Bool(b: bool)
    | Int(i: int)
    | Float(r: real)
    | Str(text: string, asFloat: Option<real>)
    | Collection(size: nat)

  /** Python truthiness (`if value:`). */
  predicate Truthy(v: Value) {
    match v
    case Null => false
    case Bool(b) => b
    case Int(i) => i != 0
    case Float(r) => r != 0.0
    case Str(t, _) => t != ""
    case Collection(n) => n > 0
  }

  /** Python `float(v)`: `None` where Python raises (None, arrays, objects, non-numeric
      text). */
  function ToFloat(v: Value): (r: Option<real>)
    ensures v.Int? ==> r == Some(v.i as real)
    ensures v.Null? || v.Collection? ==> r.None?
  {
    match v
    case Null => None
    case Bool(b) => Some(if b then 1.0 else 0.0)
    case Int(i) => Some(i as real)
    case Float(r) => Some(r)
    case Str(_, f) => f
    case Collection(_) => None
  }

  /** Python `int(x)` on a float: truncation toward zero. */
  function Trunc(x: real): (r: int)
    ensures 0.0 <= x ==> 0 <= r && r as real <= x < r as real + 1.0
    ensures x < 0.0 ==> r <= 0 && r as real - 1.0 < x <= r as real
  {
    if x >= 0.0 then x.Floor else -((-x).Floor)
  }

  /** An opaque identity for the shared I2C bus object. */
  type BusHandle = nat

  /** One I2C transaction issued by a driver: `i2c.writeto(address, data)` or
      `i2c.readfrom(address, count)`. */
  datatype Transfer = WriteTo(address: int, data: seq<byte>) | ReadFrom(address: int, count: nat)

  /** The JSON object a driver's `get_state` serialises. */
  datatype Report =
    | NoReport
    | LedState(brightness: real, batteryLevel: int)
    | RelayState(isOn: bool, batteryLevel: int)
    | GasState(gasValue: int, batteryLevel: int)
    | TemperatureState(temperatureC: real, batteryLevel: int)
    | ErrorState(error: string)

  /** An exception raised by a constructor or method; `Exception` is a plain
      `raise Exception(...)`. */
  datatype Fault =
    | TypeError(message: string)
    | ValueError(message: string)
    | AttributeError(message: string)
    | NameError(message: string)
    | KeyError(message: string)
    | IndexError(message: string)
    | ZeroDivisionError(message: string)
    | Exception(message: string)
}

=== FILE: wifi_connect.dfy ===
/** `wifi/wifi_connect.py`: joining the WiFi network with the stored credentials. Up to five
    attempts; an attempt whose network does not show up in the scan waits 2 s and moves on;
    otherwise it joins with one of three strategies and waits for the link with a timeout
    that grows with the attempt, then backs off exponentially before the next one. The radio
    is an input: what each attempt's scan finds, whether the link was up, and whether the
    join succeeded. Every effect on the radio and every sleep is an event in the returned
    log. */
module WifiConnect {
  import opened Wrappers
  import opened Text
  import opened Values
  import OrderedDict

  const MaxAttempts := 5

  /** What the radio does during one attempt: the SSIDs `wlan.scan()` reports (`None` when the
      scan raises), whether the station was still connected from before, and the address
      `wlan.ifconfig()[0]` reports when the link comes up within the timeout (`None` when it
      does not, or when the join raises `OSError`). */
  datatype AttemptEnv = AttemptEnv(scan: Option<seq<string>>, wasConnected: bool, joined: Option<string>)

  /** The effects on the radio, in order. `RadioOn` stands for switching the access point off,
      the station on, the country code and the power-management setting. */
  datatype Event =
    | RadioOn
    | Sleep(seconds: int)
    | Disconnect
    | Join(strategy: nat, channel: Option<int>, timeout: int)

  /** `_verify_network_visibility`: the target SSID is among the scanned names; a failed scan
      counts as not visible. */
  predicate Visible(scan: Option<seq<string>>, ssid: string) {
    scan.Some? && ssid in scan.value
  }

  /** `min(attempt, len(strategies) - 1)`: the first strategy, then channel 6, then channel 1
      for every later attempt. */
  function Strategy(attempt: nat): (s: nat)
    ensures s <= 2 && (attempt <= 2 ==> s == attempt) && (attempt >= 2 ==> s == 2)
  {
    if attempt < 2 then attempt else 2
  }

  function Channel(strategy: nat): Option<int> {
    if strategy == 0 then None else if strategy == 1 then Some(6) else Some(1)
  }

  /** `20 + attempt * 5` seconds. */
  function Timeout(attempt: nat): (t: int)
    ensures attempt < MaxAttempts ==> 20 <= t <= 40
  {
    20 + attempt * 5
  }

  function Pow2(k: nat): (p: nat)
    ensures p >= 1
  {
    if k == 0 then 1 else 2 * Pow2(k - 1)
  }

  /** `min(2 ** attempt, 16)`. */
  function Backoff(attempt: nat): (d: int)
    ensures 1 <= d <= 16
  {
    if Pow2(attempt) < 16 then Pow2(attempt) else 16
  }

  /** The backoff after attempts 0, 1, 2 and 3 is 1, 2, 4 and 8 seconds. */
  lemma BackoffSchedule()
    ensures Backoff(0) == 1 && Backoff(1) == 2 && Backoff(2) == 4 && Backoff(3) == 8
  {
    assert Pow2(1) == 2 && Pow2(2) == 4 && Pow2(3) == 8;
  }

  /** The attempt joined: the network was visible and the link came up. */
  predicate Joined(env: nat -> AttemptEnv, ssid: string, j: nat) {
    Visible(env(j).scan, ssid) && env(j).joined.Some?
  }

  function JoinCount(events: seq<Event>): (n: nat)
    ensures n <= |events|
  {
    if events == [] then 0 else (if events[0].Join? then 1 else 0) + JoinCount(events[1..])
  }

  lemma {:induction false} JoinCountAppend(a: seq<Event>, b: seq<Event>)
    ensures JoinCount(a + b) == JoinCount(a) + JoinCount(b)
  {
    if a != [] {
      assert (a + b)[1..] == a[1..] + b;
      JoinCountAppend(a[1..], b);
    } else {
      assert a + b == b;
    }
  }

  /** The events of attempt `k` alone: 2 s of waiting when the network is not visible;
      otherwise the disconnect of a stale link, the join, and, when the link does not come up
      and attempts remain, the backoff. */
  function AttemptEvents(e: AttemptEnv, ssid: string, k: nat): seq<Event> {
    if !Visible(e.scan, ssid) then [Sleep(2)]
    else
      var clean := if e.wasConnected then [Disconnect, Sleep(1)] else [];
      var join := [Join(Strategy(k), Channel(Strategy(k)), Timeout(k))];
      var backoff := if e.joined.None? && k < MaxAttempts - 1 then [Sleep(Backoff(k))] else [];
      clean + join + backoff
  }

  /** The loop body from attempt `k` on. Returns the address of the first attempt that
      joined, or the exception raised after the last one, with the events of the attempts
      made. */
  function Attempts(ssid: string, password: string, env: nat -> AttemptEnv, k: nat): (r: (Result<string, Fault>, seq<Event>))
    requires k <= MaxAttempts
    decreases MaxAttempts - k
  {
    if k == MaxAttempts then (Failure(Exception("WiFi connection failed after all attempts")), [])
    else
      var e := env(k);
      var log := AttemptEvents(e, ssid, k);
      if Joined(env, ssid, k) then (Success(e.joined.value), log)
      else
        var rest := Attempts(ssid, password, env, k + 1);
        (rest.0, log + rest.1)
  }

  /** The attempts from `k` on succeed exactly when one of them joins, with the address of
      the first that does; otherwise they raise after the last. */
  lemma {:induction false} AttemptsOutcome(ssid: string, password: string, env: nat -> AttemptEnv, k: nat)
    requires k <= MaxAttempts
    ensures var r := Attempts(ssid, password, env, k).0;
      && (r.Success? <==> exists j :: k <= j < MaxAttempts && Joined(env, ssid, j))
      && (r.Success? ==> exists j :: FirstJoin(env, ssid, k, j) && env(j).joined.value == r.value)
      && (r.Failure? ==> r.error == Exception("WiFi connection failed after all attempts"))
    decreases MaxAttempts - k
  {
    if k < MaxAttempts {
      if Joined(env, ssid, k) {
        assert FirstJoin(env, ssid, k, k);
      } else {
        AttemptsOutcome(ssid, password, env, k + 1);
        var r := Attempts(ssid, password, env, k + 1).0;
        assert Attempts(ssid, password, env, k).0 == r;
        if r.Success? {
          var j :| FirstJoin(env, ssid, k + 1, j) && env(j).joined.value == r.value;
          assert FirstJoin(env, ssid, k, j);
        } else {
          forall j | k <= j < MaxAttempts ensures !Joined(env, ssid, j) {
            if j > k {
              assert !(k + 1 <= j < MaxAttempts && Joined(env, ssid, j));
            }
          }
        }
      }
    }
  }

  /** The log from attempt `k` on is that attempt's events followed, unless it joined, by the
      log of the later attempts. */
  lemma AttemptsLog(ssid: string, password: string, env: nat -> AttemptEnv, k: nat)
    requires k < MaxAttempts
    ensures Attempts(ssid, password, env, k).1 ==
      AttemptEvents(env(k), ssid, k) + (if Joined(env, ssid, k) then [] else Attempts(ssid, password, env, k + 1).1)
  {
    if Joined(env, ssid, k) {
      assert AttemptEvents(env(k), ssid, k) + [] == AttemptEvents(env(k), ssid, k);
    }
  }

  /** One attempt joins at most once, with a strategy among the three and a timeout between
      20 and 40 s. */
  lemma AttemptEventsBounds(e: AttemptEnv, ssid: string, k: nat)
    requires k < MaxAttempts
    ensures JoinCount(AttemptEvents(e, ssid, k)) <= 1
    ensures JoinsInRange(AttemptEvents(e, ssid, k))
  {
    if Visible(e.scan, ssid) {
      var clean: seq<Event> := if e.wasConnected then [Disconnect, Sleep(1)] else [];
      var join := [Join(Strategy(k), Channel(Strategy(k)), Timeout(k))];
      var backoff: seq<Event> := if e.joined.None? && k < MaxAttempts - 1 then [Sleep(Backoff(k))] else [];
      JoinCountAppend(clean, join);
      JoinCountAppend(clean + join, backoff);
      JoinsInRangeAppend(clean, join);
      JoinsInRangeAppend(clean + join, backoff);
    }
  }

  /** Attempt `j` is the first from `k` on that joined. */
  predicate FirstJoin(env: nat -> AttemptEnv, ssid: string, k: nat, j: nat) {
    k <= j < MaxAttempts && Joined(env, ssid, j) && forall i :: k <= i < j ==> !Joined(env, ssid, i)
  }

  /** Every join in the log uses one of the three strategies and a timeout between 20 and
      40 s. */
  predicate JoinsInRange(events: seq<Event>) {
    forall i :: 0 <= i < |events| && events[i].Join? ==> events[i].strategy <= 2 && 20 <= events[i].timeout <= 40
  }

  lemma JoinsInRangeAppend(a: seq<Event>, b: seq<Event>)
    requires JoinsInRange(a) && JoinsInRange(b)
    ensures JoinsInRange(a + b)
  {
    forall i | 0 <= i < |a + b| && (a + b)[i].Join?
      ensures (a + b)[i].strategy <= 2 && 20 <= (a + b)[i].timeout <= 40
    {
      if i >= |a| {
        assert (a + b)[i] == b[i - |a|];
      }
    }
  }

  /** From attempt `k` on, at most one join per remaining attempt, each with a strategy among
      the three and a timeout between 20 and 40 s. */
  lemma AttemptsBounds(ssid: string, password: string, env: nat -> AttemptEnv, k: nat)
    requires k <= MaxAttempts
    ensures JoinCount(Attempts(ssid, password, env, k).1) <= MaxAttempts - k
    ensures JoinsInRange(Attempts(ssid, password, env, k).1)
  {
    AttemptsJoinCount(ssid, password, env, k);
    AttemptsJoinsInRange(ssid, password, env, k);
  }

  lemma {:induction false} AttemptsJoinCount(ssid: string, password: string, env: nat -> AttemptEnv, k: nat)
    requires k <= MaxAttempts
    ensures JoinCount(Attempts(ssid, password, env, k).1) <= MaxAttempts - k
    decreases MaxAttempts - k
  {
    if k < MaxAttempts {
      var rest: seq<Event> := if Joined(env, ssid, k) then [] else Attempts(ssid, password, env, k + 1).1;
      AttemptsJoinCount(ssid, password, env, k + 1);
      AttemptsLog(ssid, password, env, k);
      AttemptEventsBounds(env(k), ssid, k);
      JoinCountAppend(AttemptEvents(env(k), ssid, k), rest);
    }
  }

  lemma {:induction false} AttemptsJoinsInRange(ssid: string, password: string, env: nat -> AttemptEnv, k: nat)
    requires k <= MaxAttempts
    ensures JoinsInRange(Attempts(ssid, password, env, k).1)
    decreases MaxAttempts - k
  {
    if k < MaxAttempts {
      var rest: seq<Event> := if Joined(env, ssid, k) then [] else Attempts(ssid, password, env, k + 1).1;
      AttemptsJoinsInRange(ssid, password, env, k + 1);
      AttemptsLog(ssid, password, env, k);
      AttemptEventsBounds(env(k), ssid, k);
      JoinsInRangeAppend(AttemptEvents(env(k), ssid, k), rest);
    }
  }

  /** `connect_to_wifi()` after the file has been read: a missing or empty SSID or password
      raises before the radio is touched; otherwise the radio is brought up, 2 s pass, and
      the attempts run. */
  function ConnectToWifi(ssid: Option<string>, password: Option<string>, env: nat -> AttemptEnv): (r: (Result<string, Fault>, seq<Event>))
    ensures ssid.None? || ssid == Some("") || password.None? || password == Some("") ==>
      r == (Failure(Exception("Invalid WiFi credentials")), [])
    ensures r.1 != [] ==> |r.1| >= 2 && r.1[..2] == [RadioOn, Sleep(2)]
    ensures JoinCount(r.1) <= MaxAttempts
  {
    if ssid.None? || ssid.value == "" || password.None? || password.value == "" then
      (Failure(Exception("Invalid WiFi credentials")), [])
    else
      var a := Attempts(ssid.value, password.value, env, 0);
      AttemptsBounds(ssid.value, password.value, env, 0);
      JoinCountAppend([RadioOn, Sleep(2)], a.1);
      (a.0, [RadioOn, Sleep(2)] + a.1)
  }

  /** When the network is always visible, the link is never up beforehand and never comes
      up, the radio goes through all five strategies with growing timeouts and the backoffs
      1, 2, 4 and 8 s between them, and then the call raises. */
  lemma AllAttemptsFail(ssid: string, password: string, env: nat -> AttemptEnv)
    requires ssid != "" && password != ""
    requires forall j :: 0 <= j < MaxAttempts ==> env(j) == AttemptEnv(Some([ssid]), false, None)
    ensures ConnectToWifi(Some(ssid), Some(password), env) ==
      (Failure(Exception("WiFi connection failed after all attempts")),
       [RadioOn, Sleep(2),
        Join(0, None, 20), Sleep(1),
        Join(1, Some(6), 25), Sleep(2),
        Join(2, Some(1), 30), Sleep(4),
        Join(2, Some(1), 35), Sleep(8),
        Join(2, Some(1), 40)])
  {
    FailingLog(ssid, password, env);
    FailingOutcome(ssid, password, env);
    ConnectRunsAttempts(ssid, password, env);
    RadioOnFirst(Attempts(ssid, password, env, 0).1);
  }

  /** With credentials present, the radio comes up, 2 s pass, and the attempts run. */
  lemma ConnectRunsAttempts(ssid: string, password: string, env: nat -> AttemptEnv)
    requires ssid != "" && password != ""
    ensures var a := Attempts(ssid, password, env, 0);
      ConnectToWifi(Some(ssid), Some(password), env) == (a.0, [RadioOn, Sleep(2)] + a.1)
  {
  }

  lemma RadioOnFirst(log: seq<Event>)
    requires log ==
       [Join(0, None, 20), Sleep(1),
        Join(1, Some(6), 25), Sleep(2),
        Join(2, Some(1), 30), Sleep(4),
        Join(2, Some(1), 35), Sleep(8),
        Join(2, Some(1), 40)]
    ensures [RadioOn, Sleep(2)] + log ==
      [RadioOn, Sleep(2),
       Join(0, None, 20), Sleep(1),
       Join(1, Some(6), 25), Sleep(2),
       Join(2, Some(1), 30), Sleep(4),
       Join(2, Some(1), 35), Sleep(8),
       Join(2, Some(1), 40)]
  {
  }

  /** A visible network whose link never comes up: the join with the attempt's strategy and
      timeout, then the backoff unless it was the last attempt. */
  lemma FailingAttempt(ssid: string, k: nat)
    requires k < MaxAttempts
    ensures AttemptEvents(AttemptEnv(Some([ssid]), false, None), ssid, k) ==
      [Join(Strategy(k), Channel(Strategy(k)), Timeout(k))] + (if k < MaxAttempts - 1 then [Sleep(Backoff(k))] else [])
  {
    assert Visible(Some([ssid]), ssid);
  }

  lemma FailingLog(ssid: string, password: string, env: nat -> AttemptEnv)
    requires forall j :: 0 <= j < MaxAttempts ==> env(j) == AttemptEnv(Some([ssid]), false, None)
    ensures Attempts(ssid, password, env, 0).1 ==
       [Join(0, None, 20), Sleep(1),
        Join(1, Some(6), 25), Sleep(2),
        Join(2, Some(1), 30), Sleep(4),
        Join(2, Some(1), 35), Sleep(8),
        Join(2, Some(1), 40)]
  {
    BackoffSchedule();
    forall k | 0 <= k < MaxAttempts
      ensures Attempts(ssid, password, env, k).1 ==
        [Join(Strategy(k), Channel(Strategy(k)), Timeout(k))] + (if k < MaxAttempts - 1 then [Sleep(Backoff(k))] else [])
          + Attempts(ssid, password, env, k + 1).1
    {
      assert !Joined(env, ssid, k);
      AttemptsLog(ssid, password, env, k);
      FailingAttempt(ssid, k);
    }
  }

  lemma FailingOutcome(ssid: string, password: string, env: nat -> AttemptEnv)
    requires forall j :: 0 <= j < MaxAttempts ==> env(j) == AttemptEnv(Some([ssid]), false, None)
    ensures Attempts(ssid, password, env, 0).0 == Failure(Exception("WiFi connection failed after all attempts"))
  {
    AttemptsOutcome(ssid, password, env, 0);
    assert forall j :: 0 <= j < MaxAttempts ==> !Joined(env, ssid, j);
  }

  /** An attempt whose network is not visible only waits 2 s: no join and no backoff. */
  lemma InvisibleAttemptOnlySleeps(ssid: string, password: string, env: nat -> AttemptEnv, k: nat)
    requires k < MaxAttempts && !Visible(env(k).scan, ssid)
    ensures Attempts(ssid, password, env, k).1 == [Sleep(2)] + Attempts(ssid, password, env, k + 1).1
  {
  }

  // ---------------------------------------------------------------------------------------
  // Status codes, address and the credentials record

  /** `_decode_status(status)`: the table has no entry for 2, which therefore reads as
      "Unknown (2)". */
  function DecodeStatus(status: int): (m: string)
    ensures status !in {-3, -2, -1, 0, 1, 3} ==> m == "Unknown (" + IntText(status) + ")"
  {
    if status == -3 then "Wrong password/WPA3 incompatibility"
    else if status == -2 then "No access point found"
    else if status == -1 then "Connection failed"
    else if status == 0 then "Idle"
    else if status == 1 then "Connecting"
    else if status == 3 then "Connected"
    else "Unknown (" + IntText(status) + ")"
  }

  /** The six known codes get six distinct messages, none of them of the "Unknown" form. */
  lemma DecodeStatusKnown(a: int, b: int)
    requires a in {-3, -2, -1, 0, 1, 3} && b in {-3, -2, -1, 0, 1, 3}
    ensures DecodeStatus(a) == DecodeStatus(b) ==> a == b
    ensures !StartsWith(DecodeStatus(a), "Unknown")
  {
    var lengths := map[-3 := 35, -2 := 21, -1 := 17, 0 := 4, 1 := 10, 3 := 9];
    assert |DecodeStatus(a)| == lengths[a] && |DecodeStatus(b)| == lengths[b];
    assert DecodeStatus(a)[0] != 'U';
  }

  /** Unknown codes are told apart by their message. */
  lemma DecodeStatusUnknownInjective(a: int, b: int)
    requires a !in {-3, -2, -1, 0, 1, 3} && b !in {-3, -2, -1, 0, 1, 3}
    ensures DecodeStatus(a) == DecodeStatus(b) ==> a == b
  {
    if DecodeStatus(a) == DecodeStatus(b) {
      var ta := IntText(a);
      var tb := IntText(b);
      assert "Unknown (" + ta + ")" == "Unknown (" + tb + ")";
      assert |ta| == |tb|;
      assert ta == ("Unknown (" + ta + ")")[9..9 + |ta|];
      assert tb == ("Unknown (" + tb + ")")[9..9 + |tb|];
      IntTextInjective(a, b);
    }
  }

  /** `get_ip_address()`: the station's address when connected, else "Not Connected". */
  function GetIpAddress(connected: bool, address: string): (r: string)
    ensures connected ==> r == address
    ensures !connected ==> r == "Not Connected"
  {
    if connected then address else "Not Connected"
  }

  /** The JSON object `write_credentials` dumps: exactly the keys ssid, password and
      central_ip, in that order. */
  function WriteCredentials(ssid: Value, password: Value, centralIp: Value): (record: seq<(string, Value)>)
    ensures |record| == 3 && record[0].0 == "ssid" && record[1].0 == "password" && record[2].0 == "central_ip"
    ensures record[0].1 == ssid && record[1].1 == password && record[2].1 == centralIp
  {
    [("ssid", ssid), ("password", password), ("central_ip", centralIp)]
  }

  /** Looking the three keys up in the written record (as `get_central_ip` does for
      `central_ip`) gives back the values written, and no key occurs twice. */
  lemma CredentialsReadBack(ssid: Value, password: Value, centralIp: Value)
    ensures var record := WriteCredentials(ssid, password, centralIp);
      && OrderedDict.UniqueKeys(record)
      && OrderedDict.Get(record, "ssid") == Some(ssid)
      && OrderedDict.Get(record, "password") == Some(password)
      && OrderedDict.Get(record, "central_ip") == Some(centralIp)
  {
  }
}

=== FILE: wrappers.dfy ===
/** Failure-carrying wrappers used across the model: Python's `None`-returning lookups become
    `Option`, and calls that may raise become `Result` whose failure carries the exception. */
module Wrappers {

  /** A value that may be absent (Python `None`). */
  datatype Option<+T> = None | Some(value: T) {

    /** The wrapped value, or `default` when absent (Python `d.get(k, default)`). */
    function GetOr(default: T): T {
      match this
      case Some(v) => v
      case None => default
    }
  }

  /** The outcome of a call that may raise: the returned value or the raised error. */
  datatype Result<+R, +E> = Success(value: R) | Failure(error: E) {

    predicate IsFailure() {
      Failure?
    }

    function PropagateFailure<U>(): Result<U, E>
      requires Failure?
    {
      Failure(error)
    }

    function Extract(): R
      requires Success?
    {
      value
    }
  }
}
